=== FILE: README.md ===
# Story processor: the story ledger and the ingestion/delivery pipeline, in Dafny

The story processor finds news stories that may be about a project's topic. For each
project it searches one of four sources: Google Alerts RSS feeds, Media Cloud, Newscatcher
or the Wayback Machine. It writes every candidate story into a local ledger, the `stories`
table. The table's unique key `(project_id, normalized_url)` makes sure a story is handed
to the classifier only once per project. Admitted stories go to a queued worker. The
worker scores them with the project's language model and keeps those at or above the
project's confidence threshold. It adds named entities and posts the kept stories to the
project's central server in chunks of 100. Along the way it stamps each ledger row with
its scores, an `above_threshold` flag and a `posted_date`.

A per-project watermark table, `projects`, stores the latest date each source has
reached. Later searches use it to narrow their time window. A retention sweep deletes
ledger rows that are older than 62 days. A health check sends a Slack message and an
email when fewer stories than expected were processed over the last four days.

This project models that core as pure functions over immutable values:

- The ledger is a sequence of rows in id order, plus the next value of the id sequence.
- The watermark table is a map from project id to row.
- Every exception the Python code raises is an `Err` of a `Result`.
- A worker run is a value: the ledger after the run, the chunks it posted, and whether it
  finished or asked to be retried.
- External services are parameters. Each search API, HTML fetcher, text and entity
  extractor, classifier, URL normalizer and date parser, and the central server's replies,
  is passed in as a function or a sequence of responses.
- The clock is a parameter, in whole seconds (`Day` = 86400). It is `now` where the code
  reads it once. It is `clock(k)` where the code reads it again for each chunk it posts.

The modules follow the program:

| module | models |
|---|---|
| `Base` | shared vocabulary |
| `Models` | records, and `Story.from_source` |
| `StoriesDb` | `processor/database/stories_db.py` |
| `ProjectsDb` | `processor/database/projects_db.py` |
| `Projects` | `processor/projects.py` |
| `Classification` | `processor/tasks/classification.py` |
| `Fetcher` | `processor/fetcher.py` |
| `Tasks` | `scripts/tasks.py` |
| `McDirectory` | `processor/mcdirectory.py` |
| `GoogleAlerts` | `scripts/queue_googlealerts_stories.py` |
| `MediaCloud` | `scripts/queue_mediacloud_stories.py` |
| `Newscatcher` | `scripts/queue_newscatcher_stories.py` |
| `Wayback` | `scripts/queue_wayback_stories.py` |
| `Alerts` | `processor/tasks/alerts.py` |
| `Text`, `Seqs` | the string and list operations the code relies on |

## Where the model follows the code as written

Several behaviours of the code differ from what its comments and docstrings suggest. The
model follows the code in each case.

- **`query_start_end_dates` returns three values.** It returns
  `(start, end, history)`, but the Media Cloud task and the Newscatcher worker unpack only
  two. Every call of `MediaCloud.ProcessProjectTask` and `Newscatcher.ProjectStoryWorker`
  therefore fails. The failure is a `ValueError`, or the window's own `AttributeError` when
  the project has no history row. Because of that, the Newscatcher `fetch_project_stories`
  succeeds only on an empty project list. What those functions would do once they have a
  window is modelled separately, as `MediaCloud.CountAndPage` and
  `Newscatcher.WorkerAfterWindow`.
- **The watermark can move backwards.** `update_history` writes the date it is given,
  without comparing it to the stored one.
- **`unposted_above_story_count` counts posted rows.** It tests `posted_date is not Null`.
  Without a day limit it equals `posted_above_story_count`.
- **`unposted_stories` always returns nothing.** It asks for rows whose `posted_date` is
  null and also at or after a date, and no row is both.
- **`from_source` cannot fall back.** Its fallback for an unreadable date raises, because
  the warning it logs subscripts the ORM object (`db_story['url']`). So a page holding one
  such story is rejected whole.
- **The Wayback worker never writes its watermark.**
- **`fetch_text` reads a key the fetcher never sets.** The spider hands each callback a
  dict with the keys `html_content`, `final_url` and `original_url`
  (`processor/fetcher.py:36`). Both the Newscatcher and the Wayback `handle_parse` read
  `response_data["content"]` instead, which raises `KeyError` for every fetched page. So
  both `fetch_text` functions return no story. The model proves this
  (`Newscatcher.FetchTextReturnsNothing`, `Wayback.FetchTextReturnsNothing`). It also
  defines the evidently intended version, reading `html_content`, and proves what that
  version would return (see Findings).
- **The model-file hook never runs.** `ensure_model_files` looks for the project among the
  task's keyword arguments. Both places that enqueue the worker pass the project
  positionally (`delay(p, project_stories)`), so the hook always returns at once
  (`Classification.HookSkipsQueuedTasks`).

## Model

| member | source | states |
|---|---|---|
| Models.FromSource | processor/database/models.py:39-60 | Succeeds exactly when the story has a `stories_id` (asked only of Media Cloud stories) and its publication date is a datetime or parses. The row then keeps the URL and source, and the date as given or as parsed. A missing `stories_id` or `publish_date` is a `KeyError` on that key. |
| ProjectsDb.AddHistory | processor/database/projects_db.py:10-24 | Fails with an integrity error exactly when the project already has a row. Otherwise it adds one row under that id, with only `created_at` and `updated_at` set (both to now), and leaves every other row unchanged. |
| ProjectsDb.UpdateHistory | processor/database/projects_db.py:27-47 | Fails exactly when the project has no row, with the `AttributeError` that Python raises for the first attribute written on `None` (`latest_date_mc`, `latest_date_nc`, `latest_date_wm`, or `updated_at` for Google Alerts). Otherwise it sets the source's watermark column to the given date and stamps `updated_at`. Every other column and row is unchanged, and Google Alerts has no column. |
| ProjectsDb.GetHistory | processor/database/projects_db.py:50-58 | Returns a row exactly when the id is in the table, and the row it returns is that project's row. |
| ProjectsDb.WritersKeepKeyedById | processor/database/projects_db.py:10-58 | Both writers keep each row under its own id, so `get_history` returns the row of the project asked for. |
| ProjectsDb.UpdateThenGet | processor/database/projects_db.py:39-58 | Reading back right after an update returns the date just written. |
| ProjectsDb.UpdateCanMoveBackwards | processor/database/projects_db.py:39-45 | An update with an older date lowers the stored watermark. |
| ProjectsDb.GoogleAlertsOnlyStamps | processor/database/projects_db.py:40-46 | A Google Alerts update changes only `updated_at`. |
| ProjectsDb.WritersNeverSetLastUrl | processor/database/projects_db.py:10-47 | Starting from rows without `last_url` and `last_publish_date`, neither writer ever sets them. |
| Projects.WithCountries | processor/projects.py:39-44 | Keeps exactly the projects whose country is set and two letters long, with their multiplicities. |
| Projects.RemoveLowConfidenceStories | processor/projects.py:150-165 | Raises `KeyError("confidence")` exactly when some story has no confidence. Otherwise it keeps exactly the stories at or above the threshold, each as often as it occurs. |
| Projects.RemoveLowConfidenceAppend | processor/projects.py:159 | Filtering two batches separately gives the filter of their concatenation, so order is kept. |
| Projects.RemoveLowConfidenceIdempotent | processor/projects.py:159 | Filtering the kept stories again keeps them all. |
| Projects.PrepStory | processor/projects.py:178-198 | A payload entry exists exactly when the story has `publish_date`, `confidence` and `log_db_id`. |
| Projects.PrepStoriesForPosting | processor/projects.py:168-200 | One entry per story, in order. Each entry carries the project's id and model id and the story's confidence, `log_db_id` and URL. Absent `media_id`, `story_tags` and `entities` become `None`. Any story lacking a required key makes the whole call fail. |
| Projects.PostResults | processor/projects.py:104-147 | An empty list is never sent. A non-empty list succeeds exactly when the server accepts it. A rejection raises `RuntimeError`, and a failed request raises its own error. |
| Projects.QueryStartEndDates | processor/projects.py:214-257 | The call fails exactly when the last date is used and the project has no history row. `end` is `day_offset` days before now. `start` is no earlier than `day_window` days before `end`, no earlier than the project's start date, and no earlier than one day before the source's watermark when that is used. It equals one of these bounds. |
| Projects.WindowIgnoresHistoryWithoutLastDate | processor/projects.py:240-255 | Without `use_last_date`, and for Google Alerts, two different histories give the same window. |
| Projects.LoadHistories | processor/projects.py:87-101 | Every loaded project ends up with a history row, and existing rows are unchanged. Without `overwrite_last_story` the loop never fails. With it, a project that already has a row makes the commit fail. |
| StoriesDb.FreshPositions | processor/database/stories_db.py:67-79 | The reference definition of admission: the increasing list of candidate positions whose key is held neither by the project's rows nor by an earlier candidate. |
| StoriesDb.Drafts | processor/database/stories_db.py:59-65 | Every candidate is converted before anything is inserted. The conversion succeeds exactly when every `from_source` does, and then gives one draft per candidate. |
| StoriesDb.InsertAll | processor/database/stories_db.py:67-79 | The old rows stay as a prefix. One new row is added per admitted candidate. The id sequence advances once per candidate, admitted or not, as an insert draws its id before the key is checked. The admitted and ignored candidates together make up the page. |
| StoriesDb.InsertAllKeys | processor/database/stories_db.py:67-75 | After the loop the project holds exactly its old keys plus the page's keys. No other project's keys change. |
| StoriesDb.InsertAllValid | processor/database/stories_db.py:67-75 | The loop keeps the table valid: ids stay increasing below the sequence value, and keys stay unique per project. |
| StoriesDb.InsertAllAdmitsFresh | processor/database/stories_db.py:67-79 | The admitted candidates are exactly those at `FreshPositions`, in page order, each tagged with its new row's id. |
| StoriesDb.AdmittedRows | processor/database/stories_db.py:67-83 | The row written for the k-th admitted candidate, found at page position `pos[k]`, is queued now, unscored, unposted and below threshold. Its id is `nextId + pos[k]`, the value drawn by that candidate's insert attempt. It has the candidate's URL and key. |
| StoriesDb.AddStories | processor/database/stories_db.py:45-88 | Succeeds exactly when every candidate's `from_source` does. The table stays valid, and the existing rows stay as a prefix. |
| StoriesDb.AddStoriesAdmitsFresh | processor/database/stories_db.py:45-88 | A candidate is admitted exactly when its key is new to the project and to the earlier candidates of the page. Admitted candidates come back in page order. Each carries the id drawn at its page position, so ids increase, with a gap wherever a duplicate was rejected. Each has a matching queued row, and the sequence advances by the page length. |
| StoriesDb.AddStoriesAdmitsFromPage | processor/database/stories_db.py:77-88 | What comes back are candidates of the page, each tagged with a `log_db_id`. Admitted and ignored together make up the page. |
| StoriesDb.AddStoriesKeys | processor/database/stories_db.py:45-88 | Afterwards the table holds exactly the old keys plus the page's keys under the project. |
| StoriesDb.ReAddIsIdempotent | processor/database/stories_db.py:45-88 | Adding the same page again, at any time, admits nothing, ignores every candidate and writes no row. |
| StoriesDb.AddDistinctAdmitsAll | processor/database/stories_db.py:45-88 | A page of distinct keys that the project does not hold is admitted whole. |
| StoriesDb.WriteScores | processor/database/stories_db.py:100-110 | A row named by a scored story takes the scores of the last such story and the processed date. Every other row is unchanged, and ids and keys are never touched. |
| StoriesDb.UpdateProcessedDateScore | processor/database/stories_db.py:91-111 | Succeeds exactly when every story carries scores. A row named by some story's `log_db_id` gets that story's scores and `processed_date` = now. Other rows, ids and keys are unchanged. |
| StoriesDb.UpdateAboveThreshold | processor/database/stories_db.py:114-126 | Sets `above_threshold` on exactly the listed rows and changes nothing else. |
| StoriesDb.UpdatePostedDate | processor/database/stories_db.py:129-141 | Sets `posted_date` to now on exactly the listed rows and changes nothing else. |
| StoriesDb.UpdatePostedDateTwice | processor/database/stories_db.py:129-141 | Two updates with the same timestamp equal one update of both lists. The worker's per-chunk commits add up to one update only when their clock readings agree (`Classification.StampChunksSameClock`). |
| StoriesDb.SameShapeKeepsValid | processor/database/stories_db.py:91-141 | The three update statements keep the table valid and every project's keys as they were. |
| StoriesDb.DeleteOldStories | processor/database/stories_db.py:352-359 | Removes exactly the rows queued more than `age` days ago, whatever their state. The id sequence is unchanged. |
| StoriesDb.DeleteKeepsValid | processor/database/stories_db.py:352-359 | The sweep keeps the table valid. |
| StoriesDb.DeleteOldStoriesIdempotent | processor/database/stories_db.py:352-359 | A second sweep at the same moment removes nothing more. |
| StoriesDb.KeepAllWhenNoneOld | processor/database/stories_db.py:352-359 | When no row is older than the cut-off, the sweep keeps every row. |
| StoriesDb.ProjectStoryNormalizedUrls | processor/database/stories_db.py:16-42 | A key is reported exactly when some row of the project has it, was processed, and was queued within the last `n` days. So every reported key is held by the project. |
| StoriesDb.UnprocessedNotReported | processor/database/stories_db.py:28-34 | In a valid table, the URL of a row that has not been processed is never reported. |
| StoriesDb.AddStoriesRowsUnprocessed | processor/database/stories_db.py:58-83 | Every row `add_stories` appends was queued now and has no `processed_date`. |
| StoriesDb.AddStoriesKeepsRecentUrls | processor/database/stories_db.py:16-88 | Adding a page never changes what `project_story_normalized_urls` reports, for any project, window or time, because the new rows are not yet processed. |
| StoriesDb.UnpostedStories | processor/database/stories_db.py:316-336 | The filter "posted_date is null and posted_date is at or after a date" selects no row. |
| StoriesDb.UnpostedAboveCountsPosted | processor/database/stories_db.py:273-301 | Without a day limit, the "unposted above" count equals the posted-above count. |
| StoriesDb.CountsPartitionProjectRows | processor/database/stories_db.py:289-313 | The posted-above and below counts count disjoint sets of the project's rows. Their sum is at most the project's row count. |
| StoriesDb.CountIf | processor/database/stories_db.py:268-270 | `count(1)` under a condition: zero exactly when no row meets it, and the row count exactly when every row does. |
| StoriesDb.CountIfIsFilter | processor/database/stories_db.py:268-313 | The count equals the length of the list of rows the condition selects (the reference definition). |
| StoriesDb.PostedAboveStoryCount | processor/database/stories_db.py:290-301 | Zero exactly when no row of the project is both above threshold and posted. It equals the row count exactly when every row is. |
| StoriesDb.BelowStoryCount | processor/database/stories_db.py:304-313 | Zero exactly when no row of the project is below threshold. It equals the row count exactly when every row is. |
| StoriesDb.UnpostedAboveStoryCount | processor/database/stories_db.py:273-287 | Never more than the posted-above count. Zero exactly when no row of the project is above threshold and posted, counting only rows posted since midnight `limit` days ago when a non-zero limit is given. |
| Classification.AddConfidenceToStories | processor/tasks/classification.py:50-72 | An empty batch returns unchanged, with no classifier call and no write. Otherwise the run fails exactly when the classifier fails or does not cover the batch. Each story gets its confidence and scores. The ledger changes only on the rows the batch names: each gets the processed date and the scores of the last story in the batch that names it. |
| Classification.AcceptedTextsExactly | processor/tasks/classification.py:83-87 | A text is kept exactly when it is the lower-cased text of an entity whose type is accepted. Kept texts contain no capital letter (`Text.IsUpper`). |
| Classification.AddEntitiesToStories | processor/tasks/classification.py:75-96 | Each story gets an `entities` key and nothing else changes. The value is `None` when there is no server or the extraction fails, and otherwise the accepted texts. |
| Classification.Payload | processor/tasks/classification.py:146-154 | Every payload entry has confidence at or above the project's threshold and carries the project's id. |
| Classification.PayloadIsAboveThreshold | processor/tasks/classification.py:145-154 | A scored story clears the threshold exactly when its `log_db_id` is in the payload. |
| Classification.PostChunks | processor/tasks/classification.py:175-190 | The chunks are posted in order. The run stops at the first chunk the server does not accept, and finishes exactly when every chunk is accepted. Every chunk counted as posted was accepted by the server. Each accepted chunk's rows are stamped with the time that chunk's own commit read (`StampChunks`). |
| Classification.StampChunksExactly | processor/database/stories_db.py:129-141 | A row held by no stamped chunk is unchanged. A row takes the time of the last chunk that holds it, and only its `posted_date` changes. |
| Classification.StampChunksSameClock | processor/tasks/classification.py:175-190 | When every chunk's commit reads the same time, the stamps equal one `update_stories_posted_date` of all the chunks' rows. |
| Classification.PostedInTurn | processor/tasks/classification.py:175-190 | With one timestamp, marking one chunk posted and then the chunks after it equals marking them all at once. |
| Classification.Deliver | processor/tasks/classification.py:175-190 | What is posted is a prefix of the payload's chunks of at most 100, each of them accepted by the server. The run fails exactly when some chunk is refused, and then the chunk after the posted prefix is the refused one. When nothing fails it is the whole payload. Only the posted chunks are stamped, each with its own time. |
| Classification.ClassifyAndPost | processor/tasks/classification.py:100-204 | An empty batch does nothing. A finished run posted exactly the payload of the scored batch. Any run posted a prefix of that payload's chunks, each accepted by the server. When scoring and the payload succeed, the run finishes exactly when the server accepts every chunk. |
| Classification.PostedAreAboveThreshold | processor/tasks/classification.py:145-190 | Nothing below the project's threshold is ever posted, and everything posted carries the project's id. |
| Classification.FinishedMarksPayloadPosted | processor/tasks/classification.py:169-190 | After a finished run, the ledger is the scored ledger with the payload marked above threshold. Then each chunk of 100 is stamped posted at the time its own commit read. When all those readings agree, this is one update of the whole payload. |
| Classification.PostChunksIgnoreLedger | processor/tasks/classification.py:175-190 | What is posted does not depend on the ledger, because nothing filters on `posted_date`. |
| Classification.RetryRepostsFirstChunk | processor/tasks/classification.py:191-204 | After a retry, a chunk that was already posted is posted again, although its rows already carry a `posted_date`. |
| Classification.CheckMatching | processor/tasks/classification.py:229-240 | Reports up to date exactly when every matching model has the project's expected name. Otherwise it reports the models downloaded. |
| Classification.EnsureModelFiles | processor/tasks/classification.py:208-240 | Given the project the hook finds, it returns "no project" exactly when there is none. It returns "no matching model" exactly when no model has the project's id, and "up to date" exactly when some model matches and all matching models are current. |
| Classification.HookProject | processor/tasks/classification.py:215 | Finds a project exactly when the task's keyword arguments name one, and then it is that one. |
| Classification.EnsureModelFilesFor | processor/tasks/classification.py:207-217 | The hook returns `None` exactly when the task's keyword arguments have no `project`. |
| Classification.HookSkipsQueuedTasks | scripts/tasks.py:166 | A task enqueued as `delay(project, stories)` makes the hook return `None` without checking any model. The same project passed as a keyword would be checked. |
| Tasks.ProjectStories | scripts/tasks.py:145-147 | Keeps exactly the non-null stories that name the project, each as many times as it occurs in the input. |
| Tasks.UseSourcePublishDate | scripts/tasks.py:154-156 | Where `source_publish_date` is present it replaces `publish_date`. Nothing else changes. |
| Tasks.LatestSourceDate | scripts/tasks.py:169-176 | Fails exactly when some story lacks a parsable `source_publish_date`. Otherwise it returns a date no story is later than, and which one story has. |
| Tasks.EnqueueAndMark | scripts/tasks.py:164-179 | The worker is enqueued with exactly the admitted list. The watermark moves to their latest date only when that date parses and the history row exists. The enqueue happens even when the move fails. |
| Tasks.QueueProject | scripts/tasks.py:144-184 | The summary counts matched stories before deduplication and gets the project's line. A project with no matched story leaves the ledger, tasks and watermarks alone. Otherwise the project's matched page (with `source_publish_date` applied) goes to `AdmitAndEnqueue`, and the ledger, tasks, watermarks and exception are exactly what that gives. The ledger stays valid. |
| Tasks.AdmitAndEnqueue | scripts/tasks.py:159-179 | If `add_stories` raises, nothing else changes and its exception is the turn's. Otherwise the ledger is the one `add_stories` left. With nothing admitted, no task is queued and no watermark moves. With something admitted, exactly one task holding the admitted list is queued. The turn raises exactly when `add_stories` raises, or something was admitted and either some date does not parse or the project has no history row. Without an exception the watermark is `update_history` with the latest date. |
| Tasks.AdmitLogs | scripts/tasks.py:159-166 | The task a turn adds holds stories of the project, each carrying the id of its ledger row. |
| Tasks.AdmittedAreLogged | processor/database/stories_db.py:45-88 | Everything `add_stories` admits from a page of one project names that project and carries its ledger row id. |
| Tasks.QueueUpTo | scripts/tasks.py:142-184 | The loop over the first `n` projects stops at the first exception, and the raising project is the last one reached. Without one it reaches all `n`. The total is the sum of the matched stories of the projects reached, and the summary holds their lines in order. Tasks go to reached projects, are non-empty, hold logged stories of their project, and carry no more stories than the total. |
| Tasks.QueueUpToSkips | scripts/tasks.py:142-184 | After a project raises, for every `m` from that project up to the last, the loop over the first `m` projects gives the same run as it did when it stopped: no later project is touched, ledger and watermarks included. |
| Tasks.LoopSkips | scripts/tasks.py:142-184 | For any turn, once a turn raises, every longer loop is the same run (by induction on the length). |
| Tasks.LoopCovers | scripts/tasks.py:142-184 | For turns that each add one project's line, total and at most one logged task, the loop keeps the ledger valid, reaches all projects unless one raises, and covers exactly the projects reached. |
| Tasks.QueueProjectAdds | scripts/tasks.py:144-184 | One project's turn adds its summary line and matched count, and at most one non-empty task for that project, of logged stories, no larger than the matched page. |
| Tasks.QueueAll | scripts/tasks.py:144-184 | The ledger stays valid, there are no more tasks than projects, and each task is non-empty, for a listed project, and holds stories of that project carrying their ledger row ids. When no project raised, the total is the sum of every project's matched stories, and the summary holds each project's line in order. |
| Tasks.QueueStoriesForClassification | scripts/tasks.py:139-187 | A summary comes back exactly when no project raised. It reports the number of projects and the sum over them of their matched stories, and it holds each project's line in project order. The tasks are at most one per project, non-empty, and hold logged stories of their project. |
| Tasks.QueuedWithinTotal | scripts/tasks.py:142-187 | The stories handed to workers never exceed the reported total. |
| Tasks.QueueProjectWithinMatched | scripts/tasks.py:145-166 | One project enqueues at most its matched stories. |
| Tasks.EnqueuedStoriesAreLogged | scripts/tasks.py:159-166 | Every enqueued story carries the project's id and the id of its ledger row. |
| Tasks.WatermarkIsLatestEnqueued | scripts/tasks.py:164-179 | After an enqueue without error, the watermark is the latest date among the enqueued stories: none is later and one equals it. |
| Tasks.FetchTextTask | scripts/tasks.py:26-38 | Returns `None` exactly when extraction fails. Otherwise it returns a copy with the extracted text, a `publish_date` that is the extracted date or `None` when the page gave none, and every other key unchanged. |
| Tasks.FetchedDateIsOverwritten | scripts/tasks.py:153-156 | For a story carrying `source_publish_date`, as every Google Alerts story does, that date replaces the extracted date before `add_stories`. Only the extracted text survives. `from_source` then succeeds exactly when that date parses, and stores the parsed value. |
| Tasks.CombinedText | scripts/tasks.py:81-93 | The message is the project-count line, then the per-project text unchanged, then the closing line. |
| Tasks.ProjectCountReadsBack | scripts/tasks.py:85 | The digits after "Checking " read back as the project count. |
| Tasks.StoryCountReadsBack | scripts/tasks.py:87-91 | The digits after "Done - pulled " read back as the story count. |
| Tasks.ListTotalsAppend | scripts/tasks.py:52-56 | The total and the combined text of a list split at any point are the sums and the concatenation of the two parts. |
| Tasks.ProjectListMessage | scripts/tasks.py:48-60 | The project-list message opens with the project count and then holds every project's text in order. It closes with the total. |
| McDirectory.CollectSources | processor/mcdirectory.py:15-24 | The paging loop fails exactly when the response that ends it is an error. Everything collected is supported. |
| McDirectory.CollectSourcesExactly | processor/mcdirectory.py:15-24 | A source is collected exactly when it is supported and listed on a page up to and including the one with `next` null. |
| McDirectory.DomainsForCollection | processor/mcdirectory.py:10-27 | Fails exactly when the directory does. |
| McDirectory.DomainsForCollectionExactly | processor/mcdirectory.py:10-27 | A domain is returned exactly when a supported source of that name is listed on a page the loop reads. |
| McDirectory.AllDomains | processor/mcdirectory.py:31-35 | Succeeds exactly when every collection's listing does. |
| McDirectory.AllDomainsExactly | processor/mcdirectory.py:31-35 | A domain is in the list exactly when some collection of the project lists it. |
| McDirectory.DomainsForProject | processor/mcdirectory.py:30-36 | Returns the domains of all the project's collections, each once. |
| McDirectory.FetchDomainsForProject | processor/mcdirectory.py:39-46 | A copy of the project whose only change is `domains`: each domain of its collections, once. |
| GoogleAlerts.UrlFromAlertLink | scripts/queue_googlealerts_stories.py:27-30 | Returns the first `url` query value. A link without that key raises `KeyError("url")`. |
| GoogleAlerts.LoadProjects | scripts/queue_googlealerts_stories.py:34-38 | Keeps exactly the projects with a non-empty feed URL, each as many times as it is listed. |
| GoogleAlerts.AlertStory | scripts/queue_googlealerts_stories.py:64-73 | The story has the unwrapped URL, the feed's title and date, the project's id and language, and the URL's canonical domain as its media. |
| GoogleAlerts.CollectEntries | scripts/queue_googlealerts_stories.py:53-75 | The entries come back in feed order up to, and not including, the first whose URL is the stored `last_url`. A non-empty feed needs a history row. |
| GoogleAlerts.ProjectStories | scripts/queue_googlealerts_stories.py:45-78 | Succeeds only for a project with a history row. Every story carries the project's id and the source. |
| GoogleAlerts.FetchProjectStoriesSplits | scripts/queue_googlealerts_stories.py:44-79 | The combined list of a split project list is the concatenation of the two parts' lists. |
| GoogleAlerts.FetchProjectStoriesOk | scripts/queue_googlealerts_stories.py:44-79 | The combined fetch succeeds exactly when every project's fetch does. |
| GoogleAlerts.FetchedStoriesBelong | scripts/queue_googlealerts_stories.py:42-79 | Every combined story carries the source and the id of one of the projects. |
| GoogleAlerts.NoLastUrlKeepsEveryEntry | scripts/queue_googlealerts_stories.py:59-62 | With `last_url` unset, every entry of the feed becomes a story. |
| MediaCloud.ReplaceFirst | scripts/queue_mediacloud_stories.py:83-90 | The first occurrence becomes the new id, and every other position is unchanged. |
| MediaCloud.ReplaceFirstSwapsOne | scripts/queue_mediacloud_stories.py:83-85 | The substitution trades one occurrence of the old id for the new one. Every other id keeps its multiplicity. |
| MediaCloud.ReplaceStateCollections | scripts/queue_mediacloud_stories.py:82-90 | The two state collections are replaced at their first positions. Every other id stays. |
| MediaCloud.ProcessProjectTask | scripts/queue_mediacloud_stories.py:54-64 | Always fails. The failure is `ValueError` when the window itself succeeds. |
| MediaCloud.ShowPubDate | scripts/queue_mediacloud_stories.py:152 | Formatting the publication date fails exactly when `publish_date` is missing (the `KeyError` of the subscript). |
| MediaCloud.Annotate | scripts/queue_mediacloud_stories.py:150-155 | Fails exactly when `publish_date` or `text` is missing, with the `KeyError` of the first of the two that is read. Otherwise it sets the source, project id, text and `source_publish_date`, and changes nothing else. |
| MediaCloud.AnnotateAll | scripts/queue_mediacloud_stories.py:150-155 | Succeeds exactly when every story can be annotated, and then annotates each in order. |
| MediaCloud.IndexedDates | scripts/queue_mediacloud_stories.py:148 | Fails with `KeyError` exactly when some story has no `indexed_date`. Otherwise it gives each story's date in order. |
| MediaCloud.PageLatest | scripts/queue_mediacloud_stories.py:148-149 | The new `latest_indexed_date` is at least the old one and every date of the page, and it is one of them. |
| MediaCloud.PageStep | scripts/queue_mediacloud_stories.py:147-175 | A page with a story lacking `indexed_date` raises before anything changes. Otherwise the watermark becomes the running maximum of `indexed_date`. The ledger stays valid. A successful step adds one page and one task, and counts what was admitted. |
| MediaCloud.PageStepOutcome | scripts/queue_mediacloud_stories.py:147-175 | A page goes through exactly when its dates read, it annotates, the ledger takes it and the history row exists. Its task then holds exactly the admitted stories, and the watermark is written. Whenever `add_stories` ran and succeeded, the ledger is the one it left (the rows of the page it admitted). When a key is missing or `add_stories` raises, the ledger and the tasks are untouched. |
| MediaCloud.LoopKeepsValid | scripts/queue_mediacloud_stories.py:121-177 | The paging loop keeps the ledger valid. |
| MediaCloud.PageLoop | scripts/queue_mediacloud_stories.py:116-177 | One project's paging loop keeps the ledger valid. |
| MediaCloud.LoopQueue | scripts/queue_mediacloud_stories.py:121-177 | Earlier tasks stay, and exactly one page is counted per enqueued task. |
| MediaCloud.LoopCounts | scripts/queue_mediacloud_stories.py:121-177 | `story_count` is the number admitted, not the number listed. It passes `max_stories` only on the last page. |
| MediaCloud.LoopWatermark | scripts/queue_mediacloud_stories.py:120-174 | The watermark only moves forward within a run. After any page it equals the running maximum. |
| MediaCloud.PageLoopFacts | scripts/queue_mediacloud_stories.py:116-177 | The queue, count and watermark facts above hold for the task's own page step. |
| MediaCloud.Warnings | scripts/queue_mediacloud_stories.py:184-186 | Warns exactly when more than 80% of `max_stories` were admitted. |
| MediaCloud.CountAndPage | scripts/queue_mediacloud_stories.py:92-194 | A failed count skips the project with zero stories, zero pages and no writes, and its line shows the exception's text. Otherwise the paging loop runs from `latest_indexed_date` two weeks back. On success the summary line is the found line with the warning, the story count is the sum of the stories admitted over the enqueued tasks, and the page count is the number of tasks. After a page, the watermark is the latest `indexed_date` seen. Without a page, the run is the starting one. |
| Fetcher.ParsedStory | processor/fetcher.py:33-38 | The dict a callback receives has exactly the keys `html_content`, `final_url` and `original_url`, holding the page, the URL fetched and the URL requested. |
| Fetcher.Get | processor/fetcher.py:36 | `d[key]`: the value exactly when the key is present, otherwise `KeyError(key)`. |
| Fetcher.OnlySpiderKeys | processor/fetcher.py:33-38 | A lookup in the callback's dict succeeds exactly for those three keys, so `content` raises `KeyError`. |
| Newscatcher.LoadProjects | scripts/queue_newscatcher_stories.py:52-70 | Returns the projects with a country. Raises `RuntimeError` exactly when there are none. |
| Newscatcher.FetchParams | scripts/queue_newscatcher_stories.py:73-88 | Fails exactly when the project has no country. Otherwise the terms have straight quotes, the countries are the stripped comma-separated parts, and the window is cut to days. |
| Newscatcher.FetchResults | scripts/queue_newscatcher_stories.py:73-91 | Without a country it fails before searching. Otherwise it returns the search's answer for those parameters. |
| Newscatcher.ItemStory | scripts/queue_newscatcher_stories.py:148-159 | The story has the article's link, title, authors and date, and the project's id and language. |
| Newscatcher.TakeItems | scripts/queue_newscatcher_stories.py:139-160 | Extends the list, keeping order. It never adds a recently processed URL, and never goes past one over the cap. |
| Newscatcher.TakeItemsExamines | scripts/queue_newscatcher_stories.py:139-160 | The page adds the kept stories of a prefix of its articles. The skipped count grows by the examined articles not kept. It stops early only once past the cap. |
| Newscatcher.PageDates | scripts/queue_newscatcher_stories.py:134-137 | Fails exactly when the page is empty or some date does not parse. |
| Newscatcher.PageCount | scripts/queue_newscatcher_stories.py:125 | The smallest number of pages that holds the hits. |
| Newscatcher.Paging | scripts/queue_newscatcher_stories.py:127-168 | Pages stay within the count, the watermark only rises, new stories are not recent, and the cap plus one bounds the list. |
| Newscatcher.PagingStopsAtCapOrEnd | scripts/queue_newscatcher_stories.py:161-168 | The loop stops before the last page only when past the cap. |
| Newscatcher.PageDatesBelowMax | scripts/queue_newscatcher_stories.py:134-137 | Every date of the page is at most the page's maximum. |
| Newscatcher.PagingLatestCoversPage | scripts/queue_newscatcher_stories.py:133-137 | `latest_pub_date` is at least every date of the current page. |
| Newscatcher.PagingLatestCoversRequested | scripts/queue_newscatcher_stories.py:127-168 | `latest_pub_date` is at least every date of every page the loop requested. |
| Newscatcher.ProjectStoryWorker | scripts/queue_newscatcher_stories.py:94-104 | Always fails. The failure is `ValueError` when the window itself succeeds. |
| Newscatcher.FetchProjectStories | scripts/queue_newscatcher_stories.py:184-207 | Succeeds exactly when the project list is empty. Otherwise it raises the first worker's error. |
| Newscatcher.WorkerAfterWindow | scripts/queue_newscatcher_stories.py:105-181 | At most the cap of stories, none of them recently processed. Without hits the history is unwritten. Otherwise the watermark is the latest date seen. |
| Newscatcher.NoHitsNoHistory | scripts/queue_newscatcher_stories.py:107-116 | With zero hits only the first page is requested, nothing is returned and nothing is written. |
| Newscatcher.PagesWithinHitCount | scripts/queue_newscatcher_stories.py:125-168 | With hits, at most `ceil(hits / 200)` pages are requested (`PAGE_SIZE` is 200). Fewer are requested only when the cap was reached. |
| Newscatcher.RequestedUrls | scripts/queue_newscatcher_stories.py:232 | Each story URL, once. |
| Newscatcher.WithText | scripts/queue_newscatcher_stories.py:224-228 | Takes the extracted text, and the extracted date as `publish_date` (`None` when the page gave none). It changes nothing else. |
| Newscatcher.MatchingExactly | scripts/queue_newscatcher_stories.py:216-229 | When the page lookup and the extraction succeed, nothing is raised. The response yields exactly the stories with its URL, from any project, each with its extracted text. When the extraction raises, nothing is added, and the exception ends the loop exactly when some story has that URL. |
| Newscatcher.ResponsesExactly | scripts/queue_newscatcher_stories.py:213-232 | Reading the page from `html_content`, the responses yield exactly the stories whose URL was requested and fetched. |
| Newscatcher.MatchingRaises | scripts/queue_newscatcher_stories.py:216-229 | When the page lookup raises, nothing is appended. The first story with the response's URL raises that error, and without such a story nothing is raised. |
| Newscatcher.HandleParseRaises | scripts/queue_newscatcher_stories.py:213-229 | On the dict the spider builds, every callback whose URL names a story raises `KeyError("content")` and appends nothing. |
| Newscatcher.FetchTextReturnsNothing | scripts/queue_newscatcher_stories.py:210-238 | As written, `fetch_text` returns no story at all, whatever was fetched. |
| Newscatcher.FetchTextIntendedExactly | scripts/queue_newscatcher_stories.py:210-238 | Reading the page from `html_content`, it would return exactly the input stories whose page was fetched, each with its extracted text. A failed fetch, or a page the extractor cannot read, drops the story. |
| Wayback.QueryBuilder | scripts/queue_wayback_stories.py:129-131 | The terms appear with straight quotes, then the language clause. Curly quotes remain only when the language has them. |
| Wayback.WorkerWindow | scripts/queue_wayback_stories.py:135-149 | Fails exactly when the project has no history row. `end` is four days back. `start` is no earlier than seven days before `end`, no earlier than one day before `last_publish_date`, and equals one of the two. |
| Wayback.ItemStory | scripts/queue_wayback_stories.py:178-197 | The story has the result's URL, article JSON URL, title, language and media, and the project's id. |
| Wayback.Room | scripts/queue_wayback_stories.py:170-177 | The cap test before each append lets the list reach one past `MAX_STORIES_PER_PROJECT`. |
| Wayback.TakePageExactly | scripts/queue_wayback_stories.py:175-198 | A page adds its first results up to the cap, in order. |
| Wayback.TakePagesExactly | scripts/queue_wayback_stories.py:163-198 | The list is exactly the first results yielded before the provider's first error, up to one past the cap. |
| Wayback.ProjectStoryWorker | scripts/queue_wayback_stories.py:134-211 | Fails exactly when the history row is missing, which is read outside the `try`. It returns at most the cap plus one stories, all of the project and the source. |
| Wayback.WorkerCollectsReadable | scripts/queue_wayback_stories.py:151-211 | Without hits it returns nothing. With hits it returns the readable results up to one past the cap. |
| Wayback.FetchProjectStories | scripts/queue_wayback_stories.py:214-230 | Succeeds exactly when every project has a history row. |
| Wayback.FetchProjectStoriesFlattens | scripts/queue_wayback_stories.py:221-224 | When every project has a history row, the result is the workers' lists concatenated in project order (proved by induction against `Seqs.Flatten`). |
| Wayback.ContentUrls | scripts/queue_wayback_stories.py:259 | Raises exactly when some story lacks `extracted_content_url`. Otherwise it returns each story's URL in order. |
| Wayback.FetchText | scripts/queue_wayback_stories.py:233-266 | Fails exactly when some story lacks `extracted_content_url`. |
| Wayback.MatchingExactly | scripts/queue_wayback_stories.py:243-250 | A response yields exactly the stories whose content URL it is, each with the `snippet` as its text. |
| Wayback.ResponsesExactly | scripts/queue_wayback_stories.py:236-260 | Reading the body from `html_content`, the responses yield exactly the stories whose JSON was fetched and decoded. |
| Wayback.FetchTextReturnsNothing | scripts/queue_wayback_stories.py:233-266 | As written, every callback's `response_data["content"]` raises a `KeyError`, which the handler catches and logs. So `fetch_text` returns no story at all. |
| Wayback.FetchTextIntendedExactly | scripts/queue_wayback_stories.py:233-266 | Reading the body from `html_content`, it would return exactly the input stories whose JSON was fetched and decoded. Each would get the JSON's `snippet` as its text, with every other key as it was. |
| Alerts.CountSince | processor/tasks/alerts.py:37-40 | The count is zero exactly when no row was processed since the cut-off. It equals the row count exactly when every row was. |
| Alerts.CountSinceIsFilter | processor/tasks/alerts.py:37-40 | The count equals the number of rows the `where` clause selects. |
| Alerts.CountSinceAntitone | processor/tasks/alerts.py:36-40 | An earlier cut-off never lowers the count. |
| Alerts.TotalStoriesOverDays | processor/tasks/alerts.py:32-41 | Counts the stories processed in the last `days` days. It is zero exactly when none was. |
| Alerts.TotalStoriesMonotone | processor/tasks/alerts.py:32-41 | A longer look-back counts at least as many stories. |
| Alerts.AverageStories | processor/tasks/alerts.py:44-45 | Raises exactly on zero days. Otherwise average × days = total. |
| Alerts.SlackNotices | processor/tasks/alerts.py:63-74 | One Slack message exactly when Slack is configured, to its channel with its token. |
| Alerts.EmailNotices | processor/tasks/alerts.py:76-83 | One email exactly when email is configured, to the comma-split `NOTIFY_EMAILS`. |
| Alerts.AlertNotices | processor/tasks/alerts.py:60-83 | Sends at most one Slack message and one email, each exactly when configured, all carrying the warning. |
| Alerts.SendAlert | processor/tasks/alerts.py:48-83 | Raises exactly on zero days. Notices go out exactly when the average is below the threshold and some channel is configured. |
| Alerts.CheckStoryCount | processor/tasks/alerts.py:86-99 | Never fails. An alert goes out exactly when fewer than 4 × 40000 stories were processed in four days and a channel is configured. |
| Text.ReplaceCurlies | scripts/queue_newscatcher_stories.py:76 | Both curly double quotes become `"`, nothing else changes, and no curly quote remains. |
| Text.JoinSplit | scripts/queue_newscatcher_stories.py:80 | Splitting on a separator and joining back gives the original string. |
| Text.Strip | scripts/queue_newscatcher_stories.py:80 | The result is the infix left after removing only whitespace from both ends. |
| Text.LowerChar | processor/tasks/classification.py:84 | Changes a character exactly when it is a capital (`IsUpper`), and never yields one. |
| Text.LowerHasNoCapitals | processor/tasks/classification.py:84 | Lower-cased text has no capitals, and lower-casing twice is lower-casing once. A text is unchanged exactly when it has no capitals. |
| Text.Dedup | processor/mcdirectory.py:36 | The same elements as the input, each once. |
| Text.SeqMax | scripts/queue_newscatcher_stories.py:137 | An element of the list that no element exceeds. |
| Seqs.FlattenChunks | processor/tasks/classification.py:175 | The chunks, concatenated, give back the payload. |
| Seqs.Chunks | processor/tasks/classification.py:175 | Every chunk is non-empty and at most the chunk size, and all but the last are full. |

## Left out

- The database schema is the migrated one. The model's `stories` key is
  `(project_id, normalized_url)`, from migration `036b1381b853`. Its `projects` rows carry
  the `latest_date_*` watermark columns of migration `99efbbdab4ba`. The ORM in
  `processor/database/models.py` maps neither. As written, a new row's `normalized_url`
  would be null, so only the `(project_id, url)` key of `edcd2083026b` would block
  duplicates. The model's normalizer is a function, so that key holds in the model too.
  Also as written, `project_story_normalized_urls` reads an unmapped attribute, and the
  `latest_date_*` assignments in `update_history` are not persisted.
- The `last_url` and `last_publish_date` columns are kept, as the ORM maps them, although
  `99efbbdab4ba` drops them. Neither writer ever sets them
  (`ProjectsDb.WritersNeverSetLastUrl`). So the Google Alerts stop at the last URL never
  fires, and the Wayback window never uses a stored date.
- StoriesDb.InsertOne: the id sequence behaves as a Postgres serial column. Each attempted
  insert draws one value, and a rejected duplicate leaves a gap. Sequence caching and
  concurrent sessions are not modelled.
- Text.LowerHasNoCapitals: the capitals `IsUpper` knows are ASCII, Latin-1, the Greek
  capitals of U+0386 to U+03AB and basic Cyrillic. Other scripts with case (Latin Extended,
  Armenian, Georgian and others), title-case letters and lowerings longer than one character
  (such as U+0130) are left unchanged by `Text.Lower`, where Python's `str.lower` would change
  them. `Text.Lower` maps each character on its own, so a capital sigma at the end of a word
  becomes σ, where Python's context rule (Final_Sigma) gives ς.
- Classification.AcceptedTextsExactly: it inherits the `Text.Lower` gap above, so "no capital
  letter" means none that `IsUpper` knows.
- Classification.Payload: a `min_confidence` that is present but `None` is treated as absent,
  so the threshold is 0. In Python, the first comparison with `None` would raise `TypeError`.
  The project record's `Option` cannot tell the two cases apart.
- Tasks.QueueAll: over the whole loop it states that each task is non-empty, for a listed
  project, and holds logged stories of that project. Exactly which stories a task holds, and
  how the ledger and watermarks move, is stated per project by `Tasks.QueueProject` and
  `Tasks.AdmitAndEnqueue`. The ledger each project starts from is the one the projects before
  it left, which the loop does not restate.
- Tasks.QueueStoriesForClassification: the same as `Tasks.QueueAll`, whose run it returns.
- `Tasks.TurnOf` guards the project turn with `QueueProject`'s precondition. The other branch
  cannot be reached from the loop.
- MediaCloud.CountAndPage: the text of an exception (`str(e)`) is a parameter `showError`.
- Fetcher.ParsedStory: redirects are not modelled. The page is fetched from the requested
  URL, so `final_url` and `original_url` are both that URL.
- I/O, the SQL engine and concurrency are left out. Sessions, commits, `Pool.map`, Prefect/Dask
  flows, Celery scheduling, `time.sleep`, logging and the files under the log directory are not
  modelled. `Pool.map` runs the workers in project order.
- Celery's retry policy (`self.retry`, its counts and delays) belongs to the framework. A worker
  run ends in `Retry`, and a later run is a new call.
- `util.chunks` is not part of this model. The chunking is modelled as consecutive slices of 100,
  the last one shorter.
- Python's `set` order is unspecified. `list(set(...))` keeps first occurrences in the model, and
  only the membership facts are stated.
- The directory listing's `while True` loop ends only when a response ends it. The Media Cloud
  paging loop (`while more_stories and story_count < max_stories`) ends at the story cap or when
  a response ends it. For both, the model requires such a response to exist (`EndsFrom`)
  rather than modelling an endless loop.
- `MediaCloud.StepOf` guards the page step with its precondition. The other branch cannot be
  reached from the loop.
- Dates are whole seconds. `strftime("%Y-%m-%d")` is the start of the day. `str(datetime)`, the
  date parser and the `:.1f` format are parameters.
- `story_count > max_stories * 0.8` on integers is modelled as `5 * story_count > 4 * max_stories`.
  For the integers involved the two agree.
- Alerts.SendAlert: the threshold is an integer, as its only caller passes it. Python's float
  division is modelled as exact real division.
- The Newscatcher search is a function of the parameters `_fetch_results` builds. The signature
  of `newscatcher_api.search_stories` and the rate limiter are not modelled.
- Wayback.ItemStory: the result's `id` and `archived_url` keys are not carried, because nothing
  downstream reads them.
- The order in which fetched pages call back is fixed to request order. The model states
  membership, not order, for the collected stories.
- The Media Cloud query string and the date-clause formatting are not modelled. Only the
  collection substitutions and the paging are.
- The Wayback module's collection cache (`_sources_are_cached`, `_sources_set`, `_sources_get`,
  `_cached_domains_for_collection`) is unused by the code paths modelled.
- The Wayback and Media Cloud `load_projects` only call `load_project_list`, which is modelled
  as `Projects.LoadHistories`. Its config download and file cache are I/O.
- The beat schedule (`crontab`) and the `delete_old_stories_task` wrapper are scheduling. The
  sweep is `StoriesDb.DeleteOldStories`.
- `classify_stories` is the classifier, a parameter.
- The summary senders (`_send_email`, `_send_slack_message`) add a duration and a version string
  to the subject. Only the message body is modelled.

## Findings

| source | as written | input that shows it | evidently intended | confidence | as-written member | corrected member |
|---|---|---|---|---|---|---|
| scripts/queue_newscatcher_stories.py:224 | `metadata.extract(s["url"], response_data["content"])` | any story whose page is fetched: the callback's dict (`processor/fetcher.py:36`) has no `content` key, so every matching callback raises `KeyError` and `fetch_text` returns `[]` | read the page from `response_data["html_content"]` | not executed | Newscatcher.FetchTextReturnsNothing | Newscatcher.FetchTextIntendedExactly |
| scripts/queue_wayback_stories.py:240 | `json.loads(response_data["content"])` | any story whose content JSON is fetched: the lookup raises `KeyError`, the `except` logs it, and `fetch_text` returns `[]` | read the body from `response_data["html_content"]` | not executed | Wayback.FetchTextReturnsNothing | Wayback.FetchTextIntendedExactly |

=== FILE: alerts.dfy ===
/** The low-story-count health check (`processor/tasks/alerts.py`): count the stories
    processed over the last few days, average them per day, and when the average is below the
    threshold send one Slack message and one email, each only when its channel is
    configured. The environment and the clock are parameters; a notification is a value.
 */
module Alerts {
  import opened Base
  import opened Models
  import opened Text
  import StoriesDb
  import Seqs

  /** The constants of `check_story_count`. */
  const Days: int := 4
  const Threshold: int := 40000

  /** The title of the Slack message and the subject of the email. */
  const AlertTitle := "Low Story Count Alert"

  /** The Slack settings, present when `is_slack_configured` holds. */
  datatype SlackConfig = SlackConfig(channelId: string, botToken: string)

  /** What the environment configures: Slack, and `NOTIFY_EMAILS` when email is configured. */
  datatype AlertConfig = AlertConfig(slack: Option<SlackConfig>, notifyEmails: Option<string>)

  /** A message sent by `send_slack_msg` or `send_email`. */
  datatype Notice =
    | SlackMessage(channelId: string, botToken: string, appName: string, title: string, text: string)
    | Email(to: seq<string>, subject: string, text: string)

  function IsSlack(n: Notice): bool { n.SlackMessage? }
  function IsEmail(n: Notice): bool { n.Email? }

  // ---------------------------------------------------------------------------
  // Counting
  // ---------------------------------------------------------------------------

  /** `Story.processed_date >= earliest_date`; SQL's comparison with `NULL` is not true. */
  predicate ProcessedSince(s: Story, since: int) {
    s.processedDate.Some? && s.processedDate.value >= since
  }

  /** `count(Story.id)` over the rows processed at or after `since`. */
  function CountSince(rows: seq<Story>, since: int): (r: nat)
    ensures r <= |rows|
    ensures r == 0 <==> forall i :: 0 <= i < |rows| ==> !ProcessedSince(rows[i], since)
    ensures r == |rows| <==> forall i :: 0 <= i < |rows| ==> ProcessedSince(rows[i], since)
  {
    if |rows| == 0 then 0
    else
      var n := |rows| - 1;
      assert forall i :: 0 <= i < n ==> rows[..n][i] == rows[i];
      CountSince(rows[..n], since) + (if ProcessedSince(rows[n], since) then 1 else 0)
  }

  /** The count is the number of rows the `where` clause selects. */
  lemma {:induction false} CountSinceIsFilter(rows: seq<Story>, since: int)
    ensures CountSince(rows, since) == |Seqs.Filter(rows, (s: Story) => ProcessedSince(s, since))|
  {
    if |rows| > 0 {
      CountSinceIsFilter(rows[..|rows| - 1], since);
    }
  }

  /** Moving the cut-off earlier never lowers the count. */
  lemma {:induction false} CountSinceAntitone(rows: seq<Story>, early: int, late: int)
    requires early <= late
    ensures CountSince(rows, late) <= CountSince(rows, early)
  {
    if |rows| > 0 {
      CountSinceAntitone(rows[..|rows| - 1], early, late);
    }
  }

  /** `get_total_stories_over_n_days`: the stories processed since `days` days before `now`. */
  function TotalStoriesOverDays(l: StoriesDb.Ledger, days: int, now: int): (r: nat)
    ensures r <= |l.rows|
    ensures r == 0 <==> forall i :: 0 <= i < |l.rows| ==> !ProcessedSince(l.rows[i], now - days * Day)
  {
    CountSince(l.rows, now - days * Day)
  }

  /** A longer look-back counts at least as many stories. */
  lemma TotalStoriesMonotone(l: StoriesDb.Ledger, shorter: int, longer: int, now: int)
    requires shorter <= longer
    ensures TotalStoriesOverDays(l, shorter, now) <= TotalStoriesOverDays(l, longer, now)
  {
    CountSinceAntitone(l.rows, now - longer * Day, now - shorter * Day);
  }

  // ---------------------------------------------------------------------------
  // Deciding
  // ---------------------------------------------------------------------------

  /** `calculate_average_stories`: true division, which raises on zero days. */
  function AverageStories(total: int, days: int): (r: Result<real>)
    ensures r.Err? <==> days == 0
    ensures r.Ok? ==> r.value * days as real == total as real
  {
    if days == 0 then Err(ZeroDivisionError) else Ok(total as real / days as real)
  }

  /** The text of the warning; `average` is the average formatted with one decimal. */
  function WarningMessage(days: int, average: string, threshold: int): string {
    "Warning: Average stories per day in the last " + IntToString(days) + " days is " + average
      + ", which is far below the expected value of >= " + IntToString(threshold) + "."
  }

  /** The Slack half of an alert: one message when Slack is configured. */
  function SlackNotices(config: AlertConfig, message: string): (r: seq<Notice>)
    ensures |r| == (if config.slack.Some? then 1 else 0)
    ensures |Seqs.Filter(r, IsSlack)| == |r| && |Seqs.Filter(r, IsEmail)| == 0
    ensures forall i :: 0 <= i < |r| ==>
      && r[i].SlackMessage? && r[i].text == message
      && config.slack == Some(SlackConfig(r[i].channelId, r[i].botToken)) && r[i].title == AlertTitle
  {
    match config.slack
    case Some(c) => [SlackMessage(c.channelId, c.botToken, "Story Fetcher", AlertTitle, message)]
    case None => []
  }

  /** The email half of an alert: one email to the `NOTIFY_EMAILS` list when email is
      configured. */
  function EmailNotices(config: AlertConfig, message: string): (r: seq<Notice>)
    ensures |r| == (if config.notifyEmails.Some? then 1 else 0)
    ensures |Seqs.Filter(r, IsEmail)| == |r| && |Seqs.Filter(r, IsSlack)| == 0
    ensures forall i :: 0 <= i < |r| ==>
      && r[i].Email? && r[i].text == message
      && config.notifyEmails.Some? && r[i].to == Split(config.notifyEmails.value, ',')
      && r[i].subject == AlertTitle
  {
    match config.notifyEmails
    case Some(e) => [Email(Split(e, ','), AlertTitle, message)]
    case None => []
  }

  /** The notices of an alert: the Slack message, then the email, each when configured. */
  function AlertNotices(config: AlertConfig, message: string): (r: seq<Notice>)
    ensures |r| > 0 <==> config.slack.Some? || config.notifyEmails.Some?
    ensures |Seqs.Filter(r, IsSlack)| == (if config.slack.Some? then 1 else 0)
    ensures |Seqs.Filter(r, IsEmail)| == (if config.notifyEmails.Some? then 1 else 0)
    ensures forall i :: 0 <= i < |r| ==> r[i].text == message
    ensures forall i :: 0 <= i < |r| && r[i].SlackMessage? ==>
      config.slack == Some(SlackConfig(r[i].channelId, r[i].botToken)) && r[i].title == AlertTitle
    ensures forall i :: 0 <= i < |r| && r[i].Email? ==>
      config.notifyEmails.Some? && r[i].to == Split(config.notifyEmails.value, ',')
      && r[i].subject == AlertTitle
  {
    var slack := SlackNotices(config, message);
    var email := EmailNotices(config, message);
    Seqs.FilterAppend(slack, email, IsSlack);
    Seqs.FilterAppend(slack, email, IsEmail);
    slack + email
  }

  /** `send_alert`: when the average is below the threshold, a Slack message if Slack is
      configured and then an email if email is configured, both carrying the warning;
      otherwise nothing. `showAverage` is the `:.1f` formatting. */
  function SendAlert(total: int, days: int, threshold: int, config: AlertConfig, showAverage: real -> string)
    : (r: Result<seq<Notice>>)
    ensures r.Err? <==> days == 0
    ensures r.Ok? ==> var below := AverageStories(total, days).value < threshold as real;
      && (|r.value| > 0 <==> below && (config.slack.Some? || config.notifyEmails.Some?))
      && |Seqs.Filter(r.value, IsSlack)| == (if below && config.slack.Some? then 1 else 0)
      && |Seqs.Filter(r.value, IsEmail)| == (if below && config.notifyEmails.Some? then 1 else 0)
    ensures r.Ok? ==> forall i :: 0 <= i < |r.value| ==>
      r.value[i].text == WarningMessage(days, showAverage(AverageStories(total, days).value), threshold)
    ensures r.Ok? ==> forall i :: 0 <= i < |r.value| && r.value[i].SlackMessage? ==>
      config.slack == Some(SlackConfig(r.value[i].channelId, r.value[i].botToken))
      && r.value[i].title == AlertTitle
    ensures r.Ok? ==> forall i :: 0 <= i < |r.value| && r.value[i].Email? ==>
      config.notifyEmails.Some? && r.value[i].to == Split(config.notifyEmails.value, ',')
      && r.value[i].subject == AlertTitle
  {
    match AverageStories(total, days)
    case Err(f) => Err(f)
    case Ok(average) =>
      if average < threshold as real then Ok(AlertNotices(config, WarningMessage(days, showAverage(average), threshold)))
      else Ok([])
  }

  /** `check_story_count`: over four days with a threshold of 40000 a day, an alert goes out
      exactly when fewer than 160000 stories were processed in that time, and never fails. */
  function CheckStoryCount(l: StoriesDb.Ledger, now: int, config: AlertConfig, showAverage: real -> string)
    : (r: Result<seq<Notice>>)
    ensures r.Ok?
    ensures |r.value| > 0 <==>
      (config.slack.Some? || config.notifyEmails.Some?) && TotalStoriesOverDays(l, Days, now) < Days * Threshold
  {
    SendAlert(TotalStoriesOverDays(l, Days, now), Days, Threshold, config, showAverage)
  }
}

=== FILE: base.dfy ===
/** Shared vocabulary of the story processor: optional values, the failures the
    Python code raises, the four story sources and the clock units.
 */
module Base {

  /** Python's `None`-or-value. */
  datatype Option<+T> = None | Some(value: T) {
    function GetOr(default: T): T {
      match this
      case Some(v) => v
      case None => default
    }
  }

  /** The exceptions that end an operation in the source, by kind. */
  datatype Failure =
    | KeyError(key: string)           // a dict subscript on a missing key
    | AttributeError(what: string)    // an attribute read on `None` (or on a record lacking it)
    | TypeError(what: string)         // e.g. subscripting an ORM object
    | ValueError(what: string)        // e.g. `max([])`, unpacking the wrong arity
    | IndexError(what: string)        // a score list shorter than the story list
    | IntegrityError                  // a primary-key violation in the database
    | RuntimeError(what: string)      // an explicit `raise RuntimeError(...)`
    | RemoteError(what: string)       // an exception from an external service
    | ZeroDivisionError               // a division by zero

  /** A computation that either yields a value or raises. */
  datatype Result<+T> = Ok(value: T) | Err(failure: Failure) {
    predicate IsFailure() { Err? }
    function PropagateFailure<U>(): Result<U>
      requires Err?
    {
      Err(failure)
    }
    function Extract(): T
      requires Ok?
    {
      value
    }
  }

  /** The platforms a story can be discovered on (`processor.PLATFORMS`). */
  datatype Source = GoogleAlerts | MediaCloud | Newscatcher | WaybackMachine {
    /** The platform's name as stored in the `source` column. */
    function Name(): string {
      match this
      case GoogleAlerts => "google-alerts"
      case MediaCloud => "media-cloud"
      case Newscatcher => "newscatcher"
      case WaybackMachine => "wayback-machine"
    }
  }

  /** Timestamps are whole seconds; `datetime.timedelta(days=1)` is `Day`. */
  const Day: int := 86400
  const Week: int := 7 * Day

  /** `d.date()` as a timestamp: midnight of the day holding `t` (floor division). */
  function StartOfDay(t: int): int {
    t - t % Day
  }

  function Max(a: int, b: int): int {
    if a >= b then a else b
  }
}

=== FILE: classification.dfy ===
/** The classify-and-post worker (`processor/tasks/classification.py`): scoring a batch,
    the threshold filter, entity extraction, the payload, the chunked posting with its
    ledger bookkeeping, and the model-file check that runs before each task. One run of
    the worker is a pure function of the ledger, the classifier's answer, the entity
    server and the central server's replies.
 */
module Classification {
  import opened Base
  import opened Models
  import opened Seqs
  import opened Text
  import opened StoriesDb
  import opened Projects

  /** The messages of the exceptions raised here. */
  const IndexOutOfRange := "list index out of range"

  // ---------------------------------------------------------------------------
  // Scores
  // ---------------------------------------------------------------------------

  /** What the project's classifier returns for a batch: one score per story from the
      combined model, and per-model lists for two-model classifiers. */
  datatype Classification = Classification(modelScores: seq<real>, model1Scores: Option<seq<real>>,
                                           model2Scores: Option<seq<real>>)

  /** Whether every list the loop subscripts covers the batch. */
  predicate CoversBatch(c: Classification, n: nat) {
    && |c.modelScores| >= n
    && (c.model1Scores.Some? ==> |c.model1Scores.value| >= n)
    && (c.model2Scores.Some? ==> |c.model2Scores.value| >= n)
  }

  /** The scores the loop attaches to story `i`. */
  function ScoresAt(c: Classification, i: nat): Scores
    requires CoversBatch(c, i + 1)
  {
    Scores(c.modelScores[i],
           if c.model1Scores.Some? then Some(c.model1Scores.value[i]) else None,
           if c.model2Scores.Some? then Some(c.model2Scores.value[i]) else None)
  }

  /** A scored batch and the ledger after its scores were logged. */
  datatype Labelled = Labelled(ledger: Ledger, stories: seq<StoryDict>)

  /** `_add_confidence_to_stories`: an empty batch comes back as it is, with no classifier
      call and no write. Otherwise each story gets `confidence = model_score` and its three
      scores from the classifier's lists at its position, and the scores are logged in the
      ledger before anything is filtered. A classifier failure, or a list shorter than the
      batch, raises. */
  function AddConfidenceToStories(l: Ledger, stories: seq<StoryDict>, classified: Result<Classification>, now: int)
    : (r: Result<Labelled>)
    ensures |stories| == 0 ==> r == Ok(Labelled(l, stories))
    ensures |stories| > 0 ==> (r.Ok? <==> classified.Ok? && CoversBatch(classified.value, |stories|))
    ensures |stories| > 0 && classified.Err? ==> r == Err(classified.failure)
    ensures r.Ok? ==> |r.value.stories| == |stories|
    ensures r.Ok? && |stories| > 0 ==> forall i :: 0 <= i < |stories| ==>
      && r.value.stories[i].confidence == Some(classified.value.modelScores[i])
      && r.value.stories[i].scores == Some(ScoresAt(classified.value, i))
      && r.value.stories[i].logDbId == stories[i].logDbId
      && r.value.stories[i].url == stories[i].url
    ensures r.Ok? ==> r.value.ledger.nextId == l.nextId && SameShape(l.rows, r.value.ledger.rows)
    ensures r.Ok? ==> forall i :: 0 <= i < |l.rows| ==>
      if exists j :: 0 <= j < |stories| && stories[j].logDbId == Some(l.rows[i].id)
      then r.value.ledger.rows[i].processedDate == Some(now)
      else r.value.ledger.rows[i] == l.rows[i]
    ensures r.Ok? && |stories| > 0 ==> forall i :: 0 <= i < |l.rows| ==>
      (exists j :: 0 <= j < |stories| && stories[j].logDbId == Some(l.rows[i].id)) ==>
        var row := r.value.ledger.rows[i];
        Some(Scores(row.modelScore.GetOr(0.0), row.model1Score, row.model2Score))
        == ScoresFor(ScoredBatch(stories, classified.value), l.rows[i].id)
  {
    if |stories| == 0 then Ok(Labelled(l, stories))
    else
      match classified
      case Err(f) => Err(f)
      case Ok(c) =>
        if !CoversBatch(c, |stories|) then Err(IndexError(IndexOutOfRange))
        else
          var scored := ScoredBatch(stories, c);
          Ok(Labelled(UpdateProcessedDateScore(l, scored, now).value, scored))
  }

  /** The batch with each story's confidence and scores taken from the classifier's lists at
      its position. */
  function ScoredBatch(stories: seq<StoryDict>, c: Classification): (r: seq<StoryDict>)
    requires CoversBatch(c, |stories|)
    ensures |r| == |stories| && AllScored(r)
    ensures forall i :: 0 <= i < |stories| ==>
      r[i] == stories[i].(confidence := Some(c.modelScores[i]), scores := Some(ScoresAt(c, i)))
  {
    seq(|stories|, i requires 0 <= i < |stories| =>
      stories[i].(confidence := Some(c.modelScores[i]), scores := Some(ScoresAt(c, i))))
  }

  // ---------------------------------------------------------------------------
  // Entities
  // ---------------------------------------------------------------------------

  /** The entity types the central server's alert e-mails use: people, places, dates and
      times, the custom date and age types, and the Korean model's types. */
  const AcceptedEntityTypes: seq<string> :=
    ["PERSON", "PER", "GPE", "LOC", "FAC", "DATE", "TIME", "C_DATE", "C_AGE", "PS", "DT", "TI", "LC"]

  /** One entity the extraction server found. */
  datatype Entity = Entity(text: string, kind: string)

  /** The entity server: unset, or a call that yields the entities of a story's title and
      text, or `None` when it fails (bad JSON, unsupported language, a missing key). */
  type EntityServer = Option<StoryDict -> Option<seq<Entity>>>

  /** The lower-cased texts of the accepted entities, in the order found. */
  function AcceptedTexts(es: seq<Entity>): (r: seq<string>)
    ensures |r| <= |es|
  {
    if |es| == 0 then []
    else
      var n := |es| - 1;
      var prev := AcceptedTexts(es[..n]);
      if es[n].kind in AcceptedEntityTypes then prev + [Lower(es[n].text)] else prev
  }

  /** Exactly the accepted entities contribute their lower-cased text, and the texts carry
      no capital letters. */
  lemma {:induction false} AcceptedTextsExactly(es: seq<Entity>)
    ensures forall e :: e in es && e.kind in AcceptedEntityTypes ==> Lower(e.text) in AcceptedTexts(es)
    ensures forall t :: t in AcceptedTexts(es) ==>
      exists e :: e in es && e.kind in AcceptedEntityTypes && t == Lower(e.text)
    ensures forall t, k :: t in AcceptedTexts(es) && 0 <= k < |t| ==> !IsUpper(t[k])
  {
    if |es| > 0 {
      var n := |es| - 1;
      AcceptedTextsExactly(es[..n]);
      assert es == es[..n] + [es[n]];
      LowerHasNoCapitals(es[n].text);
    }
  }

  /** The `entities` value a story gets. */
  function EntitiesFor(s: StoryDict, server: EntityServer): Option<seq<string>> {
    match server
    case None => None
    case Some(extract) =>
      match extract(s)
      case None => None
      case Some(es) => Some(AcceptedTexts(es))
  }

  /** `add_entities_to_stories`: every story gets an `entities` key, nothing else changes.
      It is `None` when no server is configured or extraction fails, and otherwise the
      lower-cased texts of the accepted entities (see `AcceptedTextsExactly`). */
  function AddEntitiesToStories(stories: seq<StoryDict>, server: EntityServer): (r: seq<StoryDict>)
    ensures |r| == |stories|
    ensures forall i :: 0 <= i < |stories| ==> r[i].entities.Some? && r[i] == stories[i].(entities := r[i].entities)
    ensures server.None? ==> forall i :: 0 <= i < |stories| ==> r[i].entities == Some(None)
    ensures forall i :: 0 <= i < |stories| && server.Some? && server.value(stories[i]).Some? ==>
      r[i].entities == Some(Some(AcceptedTexts(server.value(stories[i]).value)))
    ensures forall i :: 0 <= i < |stories| && server.Some? && server.value(stories[i]).None? ==>
      r[i].entities == Some(None)
  {
    seq(|stories|, i requires 0 <= i < |stories| => stories[i].(entities := Some(EntitiesFor(stories[i], server))))
  }

  // ---------------------------------------------------------------------------
  // The worker
  // ---------------------------------------------------------------------------

  /** `util.chunks(stories_to_send, 100)`. */
  const ChunkSize: nat := 100

  /** The threshold of `project.get("min_confidence", 0)`. */
  function Threshold(p: Project): real {
    p.minConfidence.GetOr(0.0)
  }

  /** The stories to send for a scored batch: the threshold filter, then entities, then the
      posting payload. */
  function Payload(p: Project, labelled: seq<StoryDict>, server: EntityServer): (r: Result<seq<PostedStory>>)
    ensures r.Ok? ==> forall k :: 0 <= k < |r.value| ==> r.value[k].confidence >= Threshold(p)
    ensures r.Ok? ==> forall k :: 0 <= k < |r.value| ==> r.value[k].projectId == p.id
  {
    var above :- RemoveLowConfidenceStories(Threshold(p), labelled);
    var withEntities := AddEntitiesToStories(above, server);
    PrepStoriesForPosting(p, withEntities)
  }

  /** The `log_db_id`s of a payload. */
  function Ids(stories: seq<PostedStory>): (r: seq<nat>)
    ensures |r| == |stories|
    ensures forall k :: 0 <= k < |stories| ==> r[k] == stories[k].logDbId
  {
    seq(|stories|, k requires 0 <= k < |stories| => stories[k].logDbId)
  }

  /** The stages of the payload, named: the kept stories, the same with entities, the
      payload entries. */
  lemma PayloadStages(p: Project, labelled: seq<StoryDict>, server: EntityServer)
    requires Payload(p, labelled, server).Ok?
    ensures var above := RemoveLowConfidenceStories(Threshold(p), labelled);
      && above.Ok?
      && var withEntities := AddEntitiesToStories(above.value, server);
      && PrepStoriesForPosting(p, withEntities) == Payload(p, labelled, server)
  {
  }

  /** A scored story clears the threshold exactly when its id is in the payload. */
  lemma PayloadIsAboveThreshold(p: Project, labelled: seq<StoryDict>, server: EntityServer)
    requires Payload(p, labelled, server).Ok?
    ensures forall i :: 0 <= i < |labelled| && Confident(Threshold(p), labelled[i]) ==>
      labelled[i].logDbId.Some? && labelled[i].logDbId.value in Ids(Payload(p, labelled, server).value)
    ensures forall k :: 0 <= k < |Payload(p, labelled, server).value| ==>
      exists i :: (0 <= i < |labelled| && Confident(Threshold(p), labelled[i])
        && labelled[i].logDbId == Some(Payload(p, labelled, server).value[k].logDbId))
  {
    PayloadStages(p, labelled, server);
    var above := RemoveLowConfidenceStories(Threshold(p), labelled).value;
    var withEntities := AddEntitiesToStories(above, server);
    var payload := PrepStoriesForPosting(p, withEntities).value;
    forall i | 0 <= i < |labelled| && Confident(Threshold(p), labelled[i])
      ensures labelled[i].logDbId.Some? && labelled[i].logDbId.value in Ids(payload)
    {
      assert labelled[i] in above;
      var j :| 0 <= j < |above| && above[j] == labelled[i];
      assert withEntities[j] == above[j].(entities := withEntities[j].entities);
      assert Ids(payload)[j] == payload[j].logDbId;
    }
    forall k | 0 <= k < |payload|
      ensures exists i :: (0 <= i < |labelled| && Confident(Threshold(p), labelled[i])
        && labelled[i].logDbId == Some(payload[k].logDbId))
    {
      assert above[k] in labelled;
      var i :| 0 <= i < |labelled| && labelled[i] == above[k];
      assert withEntities[k] == above[k].(entities := withEntities[k].entities);
      assert Confident(Threshold(p), labelled[i]);
    }
  }

  /** The result of posting the chunks from some index on. */
  datatype PostRun = PostRun(ledger: Ledger, posted: seq<seq<PostedStory>>, failure: Option<Failure>)

  /** The `posted_date` stamps of the accepted chunks `from` to `to`, in order: chunk `j` is
      stamped with `clock(j)`, the time its own `update_stories_posted_date` call reads. */
  function StampChunks(l: Ledger, chunks: seq<seq<PostedStory>>, from: nat, to: nat, clock: nat -> int): (r: Ledger)
    requires from <= to <= |chunks|
    ensures r.nextId == l.nextId && SameShape(l.rows, r.rows)
    decreases |chunks| - from
  {
    if from == to then l
    else StampChunks(UpdatePostedDate(l, Ids(chunks[from]), clock(from)), chunks, from + 1, to, clock)
  }

  /** No chunk from `from` to `to` holds the row id. */
  predicate HeldByNone(chunks: seq<seq<PostedStory>>, from: nat, to: nat, id: nat)
    requires to <= |chunks|
  {
    forall j :: from <= j < to ==> id !in Ids(chunks[j])
  }

  /** A row held by no stamped chunk is unchanged; a row held by one takes the time of the
      last chunk that holds it, and only its `posted_date` changes. */
  lemma {:induction false} StampChunksExactly(l: Ledger, chunks: seq<seq<PostedStory>>, from: nat, to: nat,
                                              clock: nat -> int)
    requires from <= to <= |chunks|
    ensures var r := StampChunks(l, chunks, from, to, clock);
      forall i :: 0 <= i < |l.rows| && HeldByNone(chunks, from, to, l.rows[i].id) ==> r.rows[i] == l.rows[i]
    ensures var r := StampChunks(l, chunks, from, to, clock);
      forall i, j :: 0 <= i < |l.rows| && from <= j < to && l.rows[i].id in Ids(chunks[j])
                     && HeldByNone(chunks, j + 1, to, l.rows[i].id) ==>
        r.rows[i] == l.rows[i].(postedDate := Some(clock(j)))
    decreases |chunks| - from
  {
    if from < to {
      var l1 := UpdatePostedDate(l, Ids(chunks[from]), clock(from));
      StampChunksExactly(l1, chunks, from + 1, to, clock);
    }
  }

  /** When every chunk reads the same time, the stamps are one update of all their rows. */
  lemma {:induction false} StampChunksSameClock(l: Ledger, chunks: seq<seq<PostedStory>>, from: nat, to: nat,
                                                clock: nat -> int, now: int)
    requires from <= to <= |chunks|
    requires forall t :: from <= t < to ==> clock(t) == now
    ensures StampChunks(l, chunks, from, to, clock) == UpdatePostedDate(l, Ids(Flatten(chunks[from..to])), now)
    decreases |chunks| - from
  {
    if from == to {
      UpdatePostedDateNothing(l, now);
    } else {
      StampChunksSameClock(UpdatePostedDate(l, Ids(chunks[from]), now), chunks, from + 1, to, clock, now);
      assert chunks[from..to] == [chunks[from]] + chunks[from + 1..to];
      PostedInTurn(l, chunks[from], chunks[from + 1..to], now);
    }
  }

  /** The posting loop: chunk `k` is posted with the central server's `k`-th reply; after
      each accepted post its rows get `posted_date` = `clock(k)`, and the first failure ends
      the loop. */
  function PostChunks(l: Ledger, p: Project, chunks: seq<seq<PostedStory>>, k: nat, reply: nat -> PostReply,
                      clock: nat -> int)
    : (r: PostRun)
    requires k <= |chunks|
    requires forall j :: 0 <= j < |chunks| ==> |chunks[j]| > 0
    ensures |r.posted| <= |chunks| - k
    ensures r.posted == chunks[k..k + |r.posted|]
    ensures r.failure.None? <==> |r.posted| == |chunks| - k
    ensures forall j :: k <= j < k + |r.posted| ==> reply(j) == Accepted
    ensures r.failure.Some? ==> reply(k + |r.posted|) != Accepted
    ensures r.ledger == StampChunks(l, chunks, k, k + |r.posted|, clock)
    decreases |chunks| - k
  {
    if k == |chunks| then
      PostRun(l, [], None)
    else
      match PostResults(p, chunks[k], reply(k))
      case Err(f) =>
        PostRun(l, [], Some(f))
      case Ok(_) =>
        var l' := UpdatePostedDate(l, Ids(chunks[k]), clock(k));
        var rest := PostChunks(l', p, chunks, k + 1, reply, clock);
        Seqs.ConsSlice(chunks, k, rest.posted);
        assert reply(k) == Accepted;
        PostRun(rest.ledger, [chunks[k]] + rest.posted, rest.failure)
  }

  /** Marking one chunk posted and then the chunks after it is marking them all. */
  lemma PostedInTurn(l: Ledger, chunk: seq<PostedStory>, later: seq<seq<PostedStory>>, now: int)
    ensures UpdatePostedDate(UpdatePostedDate(l, Ids(chunk), now), Ids(Flatten(later)), now)
         == UpdatePostedDate(l, Ids(Flatten([chunk] + later)), now)
  {
    FlattenCons(chunk, later);
    IdsAppend(chunk, Flatten(later));
    UpdatePostedDateTwice(l, Ids(chunk), Ids(Flatten(later)), now);
  }

  lemma IdsAppend(a: seq<PostedStory>, b: seq<PostedStory>)
    ensures Ids(a + b) == Ids(a) + Ids(b)
  {
  }

  /** The posting loop over a whole payload: a prefix of its chunks of 100 goes out, each
      accepted by the server, and all of them exactly when the server accepts every
      chunk. */
  function Deliver(l: Ledger, p: Project, toSend: seq<PostedStory>, reply: nat -> PostReply, clock: nat -> int)
    : (r: PostRun)
    ensures forall k :: 0 <= k < |r.posted| ==> 0 < |r.posted[k]| <= ChunkSize
    ensures |r.posted| <= |Chunks(toSend, ChunkSize)|
    ensures r.posted == Chunks(toSend, ChunkSize)[..|r.posted|]
    ensures r.failure.None? ==> Flatten(r.posted) == toSend
    ensures forall k, j :: 0 <= k < |r.posted| && 0 <= j < |r.posted[k]| ==> r.posted[k][j] in toSend
    ensures r.ledger == StampChunks(l, Chunks(toSend, ChunkSize), 0, |r.posted|, clock)
    ensures forall j :: 0 <= j < |r.posted| ==> reply(j) == Accepted
    ensures r.failure.Some? ==> reply(|r.posted|) != Accepted
    ensures r.failure.None? <==> forall j :: 0 <= j < |Chunks(toSend, ChunkSize)| ==> reply(j) == Accepted
  {
    var chunks := Chunks(toSend, ChunkSize);
    var run := PostChunks(l, p, chunks, 0, reply, clock);
    FlattenChunks(toSend, ChunkSize);
    assert run.posted == chunks[..|run.posted|];
    forall k, j | 0 <= k < |run.posted| && 0 <= j < |run.posted[k]| ensures run.posted[k][j] in toSend {
      ChunkElement(toSend, ChunkSize, k, j);
    }
    assert run.failure.None? ==> run.posted == chunks;
    run
  }

  /** How a worker run ends: normally, or by asking Celery to retry with the same
      arguments. */
  datatype Outcome = Finished | Retry(cause: Failure)

  datatype WorkerRun = WorkerRun(ledger: Ledger, posted: seq<seq<PostedStory>>, outcome: Outcome)

  /** `classify_and_post_worker`: an empty batch returns at once. Otherwise the batch is
      scored and logged, the stories at or above the project's threshold are marked
      `above_threshold` before anything is posted, and the payload goes out in chunks of
      100, each marked posted after its post returns. Any exception asks for a retry;
      what was committed before it stays. The clock is read by each commit: `now` when the
      scores are written, `clock(k)` when chunk `k` is marked posted. */
  function ClassifyAndPost(l: Ledger, p: Project, stories: seq<StoryDict>, classified: Result<Classification>,
                           server: EntityServer, reply: nat -> PostReply, now: int, clock: nat -> int): (r: WorkerRun)
    ensures |stories| == 0 ==> r == WorkerRun(l, [], Finished)
    ensures forall k :: 0 <= k < |r.posted| ==> 0 < |r.posted[k]| <= ChunkSize
    ensures |stories| > 0 && r.outcome.Finished? ==>
      && AddConfidenceToStories(l, stories, classified, now).Ok?
      && Payload(p, AddConfidenceToStories(l, stories, classified, now).value.stories, server)
         == Ok(Flatten(r.posted))
    ensures r.posted != [] ==>
      && AddConfidenceToStories(l, stories, classified, now).Ok?
      && var payload := Payload(p, AddConfidenceToStories(l, stories, classified, now).value.stories, server);
      && payload.Ok?
      && |r.posted| <= |Chunks(payload.value, ChunkSize)|
      && r.posted == Chunks(payload.value, ChunkSize)[..|r.posted|]
    ensures forall j :: 0 <= j < |r.posted| ==> reply(j) == Accepted
    ensures |stories| > 0 && AddConfidenceToStories(l, stories, classified, now).Ok? ==>
      var payload := Payload(p, AddConfidenceToStories(l, stories, classified, now).value.stories, server);
      payload.Ok? ==>
        (r.outcome.Finished? <==> forall j :: 0 <= j < |Chunks(payload.value, ChunkSize)| ==> reply(j) == Accepted)
  {
    if |stories| == 0 then WorkerRun(l, [], Finished)
    else
      match AddConfidenceToStories(l, stories, classified, now)
      case Err(f) => WorkerRun(l, [], Retry(f))
      case Ok(labelled) =>
        match Payload(p, labelled.stories, server)
        case Err(f) => WorkerRun(labelled.ledger, [], Retry(f))
        case Ok(toSend) =>
          var run := Deliver(UpdateAboveThreshold(labelled.ledger, Ids(toSend)), p, toSend, reply, clock);
          WorkerRun(run.ledger, run.posted, if run.failure.None? then Finished else Retry(run.failure.value))
  }

  /** Nothing below the project's threshold is posted, and everything posted is stamped with
      the project. */
  lemma PostedAreAboveThreshold(l: Ledger, p: Project, stories: seq<StoryDict>, classified: Result<Classification>,
                                server: EntityServer, reply: nat -> PostReply, now: int, clock: nat -> int)
    ensures var r := ClassifyAndPost(l, p, stories, classified, server, reply, now, clock);
      forall k, j :: 0 <= k < |r.posted| && 0 <= j < |r.posted[k]| ==>
        r.posted[k][j].confidence >= Threshold(p) && r.posted[k][j].projectId == p.id
  {
    var r := ClassifyAndPost(l, p, stories, classified, server, reply, now, clock);
    if r.posted != [] {
      var labelled := AddConfidenceToStories(l, stories, classified, now).value;
      var toSend := Payload(p, labelled.stories, server).value;
      var run := Deliver(UpdateAboveThreshold(labelled.ledger, Ids(toSend)), p, toSend, reply, clock);
      assert r.posted == run.posted;
    }
  }

  /** An element of a chunk is an element of the chunked sequence. */
  lemma {:induction false} ChunkElement<T>(s: seq<T>, n: nat, k: nat, j: nat)
    requires n > 0 && k < |Chunks(s, n)| && j < |Chunks(s, n)[k]|
    ensures Chunks(s, n)[k][j] in s
    decreases |s|
  {
    if |s| > n {
      if k > 0 {
        assert Chunks(s, n)[k] == Chunks(s[n..], n)[k - 1];
        ChunkElement(s[n..], n, k - 1, j);
      } else {
        assert s[..n][j] == s[j];
      }
    }
  }

  /** After a normal run the ledger is the scored ledger with the payload marked above
      threshold and then every chunk of 100 stamped posted at the time its own commit
      read; when all those readings agree, that is one update of the whole payload. */
  lemma FinishedMarksPayloadPosted(l: Ledger, p: Project, stories: seq<StoryDict>, classified: Result<Classification>,
                                   server: EntityServer, reply: nat -> PostReply, now: int, clock: nat -> int)
    requires |stories| > 0
    requires ClassifyAndPost(l, p, stories, classified, server, reply, now, clock).outcome.Finished?
    ensures var labelled := AddConfidenceToStories(l, stories, classified, now).value;
      var toSend := Payload(p, labelled.stories, server).value;
      ClassifyAndPost(l, p, stories, classified, server, reply, now, clock).ledger
        == StampChunks(UpdateAboveThreshold(labelled.ledger, Ids(toSend)), Chunks(toSend, ChunkSize), 0,
                       |Chunks(toSend, ChunkSize)|, clock)
    ensures var labelled := AddConfidenceToStories(l, stories, classified, now).value;
      var toSend := Payload(p, labelled.stories, server).value;
      (forall t :: 0 <= t < |Chunks(toSend, ChunkSize)| ==> clock(t) == clock(0)) ==>
        ClassifyAndPost(l, p, stories, classified, server, reply, now, clock).ledger
          == UpdatePostedDate(UpdateAboveThreshold(labelled.ledger, Ids(toSend)), Ids(toSend), clock(0))
  {
    var labelled := AddConfidenceToStories(l, stories, classified, now).value;
    var toSend := Payload(p, labelled.stories, server).value;
    var marked := UpdateAboveThreshold(labelled.ledger, Ids(toSend));
    FinishedIsDelivered(l, p, stories, classified, server, reply, now, clock);
    var chunks := Chunks(toSend, ChunkSize);
    if forall t :: 0 <= t < |chunks| ==> clock(t) == clock(0) {
      StampChunksSameClock(marked, chunks, 0, |chunks|, clock, clock(0));
      assert chunks[0..|chunks|] == chunks;
      FlattenChunks(toSend, ChunkSize);
    }
  }

  /** A normal run delivered the whole payload to the marked ledger. */
  lemma FinishedIsDelivered(l: Ledger, p: Project, stories: seq<StoryDict>, classified: Result<Classification>,
                            server: EntityServer, reply: nat -> PostReply, now: int, clock: nat -> int)
    requires |stories| > 0
    requires ClassifyAndPost(l, p, stories, classified, server, reply, now, clock).outcome.Finished?
    ensures var labelled := AddConfidenceToStories(l, stories, classified, now).value;
      var toSend := Payload(p, labelled.stories, server).value;
      var chunks := Chunks(toSend, ChunkSize);
      ClassifyAndPost(l, p, stories, classified, server, reply, now, clock).ledger
        == StampChunks(UpdateAboveThreshold(labelled.ledger, Ids(toSend)), chunks, 0, |chunks|, clock)
  {
    var labelled := AddConfidenceToStories(l, stories, classified, now).value;
    var toSend := Payload(p, labelled.stories, server).value;
    var run := Deliver(UpdateAboveThreshold(labelled.ledger, Ids(toSend)), p, toSend, reply, clock);
    assert run.posted == Chunks(toSend, ChunkSize);
  }

  /** What the worker posts does not depend on the ledger: nothing filters on
      `posted_date`. */
  lemma {:induction false} PostChunksIgnoreLedger(l1: Ledger, l2: Ledger, p: Project, chunks: seq<seq<PostedStory>>,
                                                  k: nat, reply: nat -> PostReply, clock: nat -> int)
    requires k <= |chunks|
    requires forall j :: 0 <= j < |chunks| ==> |chunks[j]| > 0
    ensures PostChunks(l1, p, chunks, k, reply, clock).posted == PostChunks(l2, p, chunks, k, reply, clock).posted
    ensures PostChunks(l1, p, chunks, k, reply, clock).failure == PostChunks(l2, p, chunks, k, reply, clock).failure
    decreases |chunks| - k
  {
    if k < |chunks| && PostResults(p, chunks[k], reply(k)).Ok? {
      PostChunksIgnoreLedger(UpdatePostedDate(l1, Ids(chunks[k]), clock(k)), UpdatePostedDate(l2, Ids(chunks[k]), clock(k)),
                             p, chunks, k + 1, reply, clock);
    }
  }

  /** A retry re-runs the same batch: when the central server accepts the first chunk
      again, that chunk is posted again, even though its rows already carry a
      `posted_date`. */
  lemma RetryRepostsFirstChunk(l: Ledger, p: Project, stories: seq<StoryDict>, classified: Result<Classification>,
                               server: EntityServer, reply: nat -> PostReply, reply': nat -> PostReply,
                               now: int, now': int, clock: nat -> int, clock': nat -> int)
    requires ClassifyAndPost(l, p, stories, classified, server, reply, now, clock).outcome.Retry?
    requires ClassifyAndPost(l, p, stories, classified, server, reply, now, clock).posted != []
    requires reply'(0) == Accepted
    ensures var first := ClassifyAndPost(l, p, stories, classified, server, reply, now, clock);
      var again := ClassifyAndPost(first.ledger, p, stories, classified, server, reply', now', clock');
      again.posted != [] && again.posted[0] == first.posted[0]
  {
    var first := ClassifyAndPost(l, p, stories, classified, server, reply, now, clock);
    var labelled := AddConfidenceToStories(l, stories, classified, now).value;
    var toSend := Payload(p, labelled.stories, server).value;
    var labelled' := AddConfidenceToStories(first.ledger, stories, classified, now').value;
    assert labelled'.stories == labelled.stories;
    var chunks := Chunks(toSend, ChunkSize);
    assert chunks != [];
    var run' := Deliver(UpdateAboveThreshold(labelled'.ledger, Ids(toSend)), p, toSend, reply', clock');
    assert run'.posted != [];
  }

  // ---------------------------------------------------------------------------
  // Model files
  // ---------------------------------------------------------------------------

  /** An entry of the model list: its id and, when given, its name. */
  datatype ModelEntry = ModelEntry(id: int, name: Option<string>)

  /** How `ensure_model_files` ends: no project in the task's arguments (`None`), no model
      with the project's id (`False`), a model to update, downloaded (`False`), or every
      matching model up to date (`True`). */
  datatype ModelCheck = NoProject | NoMatchingModel | Downloaded | UpToDate

  /** A matching model is current when its name (`""` when absent) equals the project's
      `language_model`, which is `None` when the project lacks it. */
  predicate Current(m: ModelEntry, p: Project) {
    p.languageModel.Some? && m.name.GetOr("") == p.languageModel.value
  }

  /** The loop over the matching models, which downloads at the first stale one. */
  function CheckMatching(matching: seq<ModelEntry>, p: Project): (r: ModelCheck)
    ensures r == UpToDate || r == Downloaded
    ensures r == UpToDate <==> forall j :: 0 <= j < |matching| ==> Current(matching[j], p)
  {
    if |matching| == 0 then UpToDate
    else if !Current(matching[0], p) then Downloaded
    else
      assert forall j :: 1 <= j < |matching| ==> matching[j] == matching[1..][j - 1];
      CheckMatching(matching[1..], p)
  }

  /** `ensure_model_files`. */
  function EnsureModelFiles(project: Option<Project>, models: seq<ModelEntry>): (r: ModelCheck)
    ensures project.None? <==> r == NoProject
    ensures r == NoMatchingModel <==>
      project.Some? && forall j :: 0 <= j < |models| ==> models[j].id != project.value.languageModelId
    ensures r == UpToDate <==>
      && project.Some?
      && (exists j :: 0 <= j < |models| && models[j].id == project.value.languageModelId)
      && forall j :: 0 <= j < |models| && models[j].id == project.value.languageModelId ==>
           Current(models[j], project.value)
  {
    match project
    case None => NoProject
    case Some(p) =>
      var matching := Filter(models, (m: ModelEntry) => m.id == p.languageModelId);
      if |matching| == 0 then
        NoMatchingModel
      else
        assert matching[0] in models;
        CheckMatching(matching, p)
  }

  /** The value the hook returns: `None`, `False` or `True`. */
  function ModelCheckResult(c: ModelCheck): Option<bool> {
    match c
    case NoProject => None
    case UpToDate => Some(true)
    case _ => Some(false)
  }

  /** The arguments a `classify_and_post_worker` task was sent with, as the `task_prerun`
      signal hands them to the hook: positional and keyword (only project values matter). */
  datatype TaskCall = TaskCall(positional: seq<Project>, keywords: map<string, Project>)

  const ProjectKeyword := "project"

  /** `classify_and_post_worker.delay(project, stories)`, as both enqueueing sites write it:
      the project goes in positionally and no keyword is passed. */
  function Delay(p: Project, stories: seq<StoryDict>): TaskCall {
    TaskCall([p], map[])
  }

  /** `kwargs.get("project")`: the hook only looks among the keyword arguments. */
  function HookProject(c: TaskCall): (r: Option<Project>)
    ensures r.Some? <==> ProjectKeyword in c.keywords
    ensures r.Some? ==> r.value == c.keywords[ProjectKeyword]
  {
    if ProjectKeyword in c.keywords then Some(c.keywords[ProjectKeyword]) else None
  }

  /** The `ensure_model_files` hook run on a task's arguments. */
  function EnsureModelFilesFor(c: TaskCall, models: seq<ModelEntry>): (r: Option<bool>)
    ensures r.None? <==> ProjectKeyword !in c.keywords
  {
    ModelCheckResult(EnsureModelFiles(HookProject(c), models))
  }

  /** Every task as it is enqueued passes its project positionally, so the hook never sees
      a project and returns `None` without checking a model; passed as a keyword, the same
      project would be checked. */
  lemma HookSkipsQueuedTasks(p: Project, stories: seq<StoryDict>, models: seq<ModelEntry>)
    ensures EnsureModelFilesFor(Delay(p, stories), models).None?
    ensures EnsureModelFiles(HookProject(Delay(p, stories)), models) == NoProject
    ensures EnsureModelFilesFor(TaskCall([], map[ProjectKeyword := p]), models).Some?
  {
  }
}

=== FILE: fetcher.dfy ===
/** The page fetcher (`processor/fetcher.py`): the spider downloads every requested URL and
    hands each successful response to a callback as a small dict of strings. Downloading is
    a parameter; this module fixes the shape of the dict the callbacks receive.
 */
module Fetcher {
  import opened Base

  /** The keys `UrlSpider.parse` puts in the dict it hands to the callback. */
  const HtmlContentKey := "html_content"
  const FinalUrlKey := "final_url"
  const OriginalUrlKey := "original_url"

  /** The dict handed to a callback. */
  type StoryData = map<string, string>

  /** `UrlSpider.parse`: the page's text, the URL finally fetched, and the URL first
      requested (before any redirect). */
  function ParsedStory(html: string, finalUrl: string, originalUrl: string): (r: StoryData)
    ensures r.Keys == {HtmlContentKey, FinalUrlKey, OriginalUrlKey}
    ensures r[HtmlContentKey] == html && r[FinalUrlKey] == finalUrl && r[OriginalUrlKey] == originalUrl
  {
    map[HtmlContentKey := html, FinalUrlKey := finalUrl, OriginalUrlKey := originalUrl]
  }

  /** `d[key]`: a missing key raises `KeyError`. */
  function Get(d: StoryData, key: string): (r: Result<string>)
    ensures r.Ok? <==> key in d
    ensures r.Ok? ==> r.value == d[key]
    ensures r.Err? ==> r.failure == KeyError(key)
  {
    if key in d then Ok(d[key]) else Err(KeyError(key))
  }

  /** A callback reads a key of the dict exactly when it is one of the three the spider
      sets; any other key, such as `"content"`, raises `KeyError`. */
  lemma OnlySpiderKeys(html: string, finalUrl: string, originalUrl: string, key: string)
    ensures Get(ParsedStory(html, finalUrl, originalUrl), key).Ok? <==>
      key == HtmlContentKey || key == FinalUrlKey || key == OriginalUrlKey
    ensures Get(ParsedStory(html, finalUrl, originalUrl), OriginalUrlKey) == Ok(originalUrl)
    ensures Get(ParsedStory(html, finalUrl, originalUrl), HtmlContentKey) == Ok(html)
  {
    var d := ParsedStory(html, finalUrl, originalUrl);
    assert d.Keys == {HtmlContentKey, FinalUrlKey, OriginalUrlKey};
  }
}

=== FILE: googlealerts.dfy ===
/** The Google Alerts fetcher (`scripts/queue_googlealerts_stories.py`): projects with an RSS
    feed, and the feed entries of each up to the last URL seen. Feed parsing, `urlparse` and
    `parse_qs` are parameters.
 */
module GoogleAlerts {
  import opened Base
  import opened Models
  import ProjectsDb
  import Seqs

  /** The messages of the exceptions raised here. */
  const NoLastUrl := "'NoneType' object has no attribute 'last_url'"
  const NoLastPublishDate := "'NoneType' object has no attribute 'last_publish_date'"

  /** The query of a link as `parse_qs` returns it: each key with its list of values. */
  type QueryOf = string -> map<string, seq<string>>

  /** `_url_from_google_alert_link`: the first value of the `url` query parameter of the
      alert link; a missing key raises. */
  function UrlFromAlertLink(link: string, queryOf: QueryOf): (r: Result<string>)
    ensures r.Ok? <==> "url" in queryOf(link) && |queryOf(link)["url"]| > 0
    ensures r.Ok? ==> r.value == queryOf(link)["url"][0]
    ensures "url" !in queryOf(link) ==> r == Err(KeyError("url"))
  {
    var query := queryOf(link);
    if "url" !in query then Err(KeyError("url"))
    else if |query["url"]| == 0 then Err(IndexError("list index out of range"))
    else Ok(query["url"][0])
  }

  /** Whether the project has a feed to read: an `rss_url` that is set and not empty. */
  predicate HasFeed(p: Project) {
    p.rssUrl.Some? && |p.rssUrl.value| > 0
  }

  /** `load_projects_task`: the projects with a feed, in order. */
  function LoadProjects(projects: seq<Project>): (r: seq<Project>)
    ensures forall p :: p in r <==> p in projects && HasFeed(p)
    ensures forall p :: multiset(r)[p] == if HasFeed(p) then multiset(projects)[p] else 0
    ensures |r| <= |projects|
  {
    var r := Seqs.Filter(projects, HasFeed);
    forall p ensures multiset(r)[p] == if HasFeed(p) then multiset(projects)[p] else 0 {
      Seqs.FilterMultiset(projects, HasFeed, p);
    }
    r
  }

  /** An entry of a parsed feed. */
  datatype FeedEntry = FeedEntry(link: string, published: string, title: string)

  /** `feedparser.parse` of a project's `rss_url` value: the entries of the feed. */
  type Feeds = Option<string> -> seq<FeedEntry>

  /** The story dictionary built for an entry whose unwrapped URL is `url`. */
  function AlertStory(p: Project, e: FeedEntry, url: string, source: Source, o: Oracles): (r: StoryDict)
    ensures r.url == url && r.source == source && r.projectId == p.id && r.language == p.language
    ensures r.mediaUrl == o.canonicalDomain(url) && r.mediaName == r.mediaUrl
    ensures r.title == e.title && r.sourcePublishDate == Some(e.published)
    ensures r.publishDate.Missing? && r.logDbId.None?
  {
    NewStoryDict(url, p.id, source, e.title, p.language, o.canonicalDomain(url), o.canonicalDomain(url))
      .(sourcePublishDate := Some(e.published))
  }

  /** The loop over a project's feed entries. Each entry's link is unwrapped first; then the
      history row is read (`None` for a project without one, and reading `last_url` of it
      raises); the loop stops at the first entry whose URL is the stored `last_url`. */
  function CollectEntries(p: Project, entries: seq<FeedEntry>, history: Option<ProjectHistory>, source: Source,
                          o: Oracles, queryOf: QueryOf): (r: Result<seq<StoryDict>>)
    ensures r.Ok? ==> |r.value| <= |entries|
    ensures r.Ok? ==> |entries| > 0 ==> history.Some?
    ensures r.Ok? ==> forall i :: 0 <= i < |r.value| ==>
      && UrlFromAlertLink(entries[i].link, queryOf).Ok?
      && history.value.lastUrl != Some(UrlFromAlertLink(entries[i].link, queryOf).value)
      && r.value[i] == AlertStory(p, entries[i], UrlFromAlertLink(entries[i].link, queryOf).value, source, o)
    ensures r.Ok? && |r.value| < |entries| ==>
      && UrlFromAlertLink(entries[|r.value|].link, queryOf).Ok?
      && history.value.lastUrl == Some(UrlFromAlertLink(entries[|r.value|].link, queryOf).value)
  {
    if |entries| == 0 then Ok([])
    else
      var url :- UrlFromAlertLink(entries[0].link, queryOf);
      if history.None? then Err(AttributeError(NoLastUrl))
      else if history.value.lastUrl == Some(url) then Ok([])
      else
        var rest :- CollectEntries(p, entries[1..], history, source, o, queryOf);
        Ok([AlertStory(p, entries[0], url, source, o)] + rest)
  }

  /** One project of `fetch_project_stories_task`: the collected entries of its feed. The log
      line after the loop reads `last_publish_date` of the history row, so a project without a
      row raises even with an empty feed. */
  function ProjectStories(p: Project, feed: Feeds, histories: ProjectsDb.Histories,
                          source: Source, o: Oracles, queryOf: QueryOf): (r: Result<seq<StoryDict>>)
    ensures r.Ok? ==> p.id in histories
    ensures r.Ok? ==> forall i :: 0 <= i < |r.value| ==> r.value[i].projectId == p.id && r.value[i].source == source
  {
    var history := ProjectsDb.GetHistory(histories, p.id);
    var stories :- CollectEntries(p, feed(p.rssUrl), history, source, o, queryOf);
    if history.None? then Err(AttributeError(NoLastPublishDate))
    else Ok(stories)
  }

  /** `fetch_project_stories_task`: the per-project lists concatenated in project order; the
      first exception escapes. */
  function FetchProjectStories(projects: seq<Project>, feed: Feeds, histories: ProjectsDb.Histories,
                               source: Source, o: Oracles, queryOf: QueryOf): (r: Result<seq<StoryDict>>)
  {
    if |projects| == 0 then Ok([])
    else
      var first :- ProjectStories(projects[0], feed, histories, source, o, queryOf);
      var rest :- FetchProjectStories(projects[1..], feed, histories, source, o, queryOf);
      Ok(first + rest)
  }

  /** The combined list is the concatenation of the per-project lists: a project's stories
      follow those of the projects before it. */
  lemma {:induction false} FetchProjectStoriesSplits(a: seq<Project>, b: seq<Project>, feed: Feeds,
                                                     histories: ProjectsDb.Histories, source: Source, o: Oracles,
                                                     queryOf: QueryOf)
    requires FetchProjectStories(a, feed, histories, source, o, queryOf).Ok?
    requires FetchProjectStories(b, feed, histories, source, o, queryOf).Ok?
    ensures FetchProjectStories(a + b, feed, histories, source, o, queryOf)
         == Ok(FetchProjectStories(a, feed, histories, source, o, queryOf).value
               + FetchProjectStories(b, feed, histories, source, o, queryOf).value)
    decreases |a|
  {
    var all := FetchProjectStories(b, feed, histories, source, o, queryOf).value;
    if |a| == 0 {
      assert a + b == b;
      assert FetchProjectStories(a, feed, histories, source, o, queryOf).value == [];
      assert [] + all == all;
    } else {
      var ab := a + b;
      assert ab[1..] == a[1..] + b;
      FetchUnfold(a, feed, histories, source, o, queryOf);
      FetchProjectStoriesSplits(a[1..], b, feed, histories, source, o, queryOf);
      FetchUnfold(ab, feed, histories, source, o, queryOf);
      var first := ProjectStories(a[0], feed, histories, source, o, queryOf).value;
      var restA := FetchProjectStories(a[1..], feed, histories, source, o, queryOf).value;
      Seqs.AppendAssoc(first, restA, all);
    }
  }

  /** The combined fetch succeeds iff every project's does. */
  lemma {:induction false} FetchProjectStoriesOk(projects: seq<Project>, feed: Feeds, histories: ProjectsDb.Histories,
                                                 source: Source, o: Oracles, queryOf: QueryOf)
    ensures FetchProjectStories(projects, feed, histories, source, o, queryOf).Ok? <==>
      forall i :: 0 <= i < |projects| ==> ProjectStories(projects[i], feed, histories, source, o, queryOf).Ok?
  {
    if |projects| > 0 {
      var rest := projects[1..];
      FetchProjectStoriesOk(rest, feed, histories, source, o, queryOf);
      FetchUnfold(projects, feed, histories, source, o, queryOf);
      assert forall i :: 0 <= i < |rest| ==> rest[i] == projects[i + 1];
      if forall i :: 0 <= i < |rest| ==> ProjectStories(rest[i], feed, histories, source, o, queryOf).Ok? {
        assert forall i :: 0 < i < |projects| ==> projects[i] == rest[i - 1];
      }
    }
  }

  /** One step of the loop over the projects. */
  lemma FetchUnfold(projects: seq<Project>, feed: Feeds, histories: ProjectsDb.Histories,
                    source: Source, o: Oracles, queryOf: QueryOf)
    requires |projects| > 0
    ensures FetchProjectStories(projects, feed, histories, source, o, queryOf).Ok? <==>
      && ProjectStories(projects[0], feed, histories, source, o, queryOf).Ok?
      && FetchProjectStories(projects[1..], feed, histories, source, o, queryOf).Ok?
    ensures FetchProjectStories(projects, feed, histories, source, o, queryOf).Ok? ==>
      FetchProjectStories(projects, feed, histories, source, o, queryOf).value
        == ProjectStories(projects[0], feed, histories, source, o, queryOf).value
           + FetchProjectStories(projects[1..], feed, histories, source, o, queryOf).value
  {
  }

  /** Every combined story carries the data source and the id of one of the projects. */
  lemma {:induction false} FetchedStoriesBelong(projects: seq<Project>, feed: Feeds,
                                                histories: ProjectsDb.Histories, source: Source, o: Oracles,
                                                queryOf: QueryOf)
    requires FetchProjectStories(projects, feed, histories, source, o, queryOf).Ok?
    ensures forall s :: s in FetchProjectStories(projects, feed, histories, source, o, queryOf).value ==>
      s.source == source && exists i :: 0 <= i < |projects| && s.projectId == projects[i].id
  {
    if |projects| > 0 {
      var rest := projects[1..];
      assert forall i :: 0 <= i < |rest| ==> rest[i] == projects[i + 1];
      FetchedStoriesBelong(rest, feed, histories, source, o, queryOf);
      forall s | s in FetchProjectStories(projects, feed, histories, source, o, queryOf).value
        ensures s.source == source && exists i :: 0 <= i < |projects| && s.projectId == projects[i].id
      {
        var first := ProjectStories(projects[0], feed, histories, source, o, queryOf).value;
        if s in first {
          var k :| 0 <= k < |first| && first[k] == s;
        } else {
          var i :| 0 <= i < |rest| && s.projectId == rest[i].id;
          assert s.projectId == projects[i + 1].id;
        }
      }
    }
  }

  /** When the stored `last_url` is unset — and neither history writer ever sets it — the
      stop never fires: every entry of the feed becomes a story, in order. */
  lemma {:induction false} NoLastUrlKeepsEveryEntry(p: Project, entries: seq<FeedEntry>, history: ProjectHistory,
                                                    source: Source, o: Oracles, queryOf: QueryOf)
    requires history.lastUrl.None?
    requires forall i :: 0 <= i < |entries| ==> UrlFromAlertLink(entries[i].link, queryOf).Ok?
    ensures var r := CollectEntries(p, entries, Some(history), source, o, queryOf);
      r.Ok? && |r.value| == |entries|
    decreases |entries|
  {
    if |entries| > 0 {
      assert forall i :: 0 <= i < |entries| - 1 ==> entries[1..][i] == entries[i + 1];
      NoLastUrlKeepsEveryEntry(p, entries[1..], history, source, o, queryOf);
    }
  }
}

=== FILE: mcdirectory.dfy ===
/** The Media Cloud directory client (`processor/mcdirectory.py`): the domains of the sources
    in a project's collections. The directory server is a parameter: for each collection id,
    the sequence of its `source_list` responses, the `k`-th being the answer at
    `offset = k * PageLimit`.
 */
module McDirectory {
  import opened Base
  import opened Models
  import opened Text

  /** `limit`, and the step of `offset`, in `_domains_for_collection`. */
  const PageLimit: nat := 1000

  /** One entry of `response["results"]`. */
  datatype DirectorySource = DirectorySource(name: Option<string>, urlSearchString: Option<string>)

  /** A `source_list` response: its results and whether `next` is set. */
  datatype SourceListPage = SourceListPage(results: seq<DirectorySource>, next: Option<string>)

  /** The responses of the server for one collection, page by page; a call that raises is an
      `Err`. */
  type Listing = seq<Result<SourceListPage>>

  /** The loop leaves after this response: it raised, or `next` was null. */
  predicate Stops(page: Result<SourceListPage>) {
    page.Err? || page.value.next.None?
  }

  /** The listing, read from page `k` on, reaches a response that ends the loop (otherwise
      `_domains_for_collection` never returns). */
  predicate EndsFrom(pages: Listing, k: nat) {
    exists j :: k <= j < |pages| && Stops(pages[j])
  }

  /** The page at which the loop started at page `k` leaves. */
  function LastPage(pages: Listing, k: nat): (r: nat)
    requires EndsFrom(pages, k)
    ensures k <= r < |pages| && Stops(pages[r])
    ensures forall j :: k <= j < r ==> !Stops(pages[j])
    decreases |pages| - k
  {
    if Stops(pages[k]) then k else LastPage(pages, k + 1)
  }

  /** Sources the search API supports: those without a `url_search_string`. */
  predicate Supported(s: DirectorySource) {
    s.urlSearchString.None?
  }

  /** The supported sources of one response, in order. */
  function SupportedOf(results: seq<DirectorySource>): (r: seq<DirectorySource>)
    ensures forall s :: s in r <==> s in results && Supported(s)
  {
    if |results| == 0 then []
    else
      var n := |results| - 1;
      assert results == results[..n] + [results[n]];
      SupportedOf(results[..n]) + (if Supported(results[n]) then [results[n]] else [])
  }

  /** The `while True` loop from page `k`: the supported sources of every response up to the
      one with `next` null, in order; an exception from any call escapes. */
  function CollectSources(pages: Listing, k: nat): (r: Result<seq<DirectorySource>>)
    requires EndsFrom(pages, k)
    ensures r.Err? <==> pages[LastPage(pages, k)].Err?
    ensures r.Ok? ==> forall s :: s in r.value ==> Supported(s)
    decreases |pages| - k
  {
    match pages[k]
    case Err(f) => Err(f)
    case Ok(page) =>
      var kept := SupportedOf(page.results);
      if page.next.None? then Ok(kept)
      else
        var rest :- CollectSources(pages, k + 1);
        Ok(kept + rest)
  }

  /** The loop reads exactly the responses up to the first one that ends it: a source is
      collected iff it is supported and listed in one of them. */
  lemma {:induction false} CollectSourcesExactly(pages: Listing, k: nat)
    requires EndsFrom(pages, k)
    requires CollectSources(pages, k).Ok?
    ensures forall s :: s in CollectSources(pages, k).value <==>
      Supported(s) && exists j :: k <= j <= LastPage(pages, k) && pages[j].Ok? && s in pages[j].value.results
    decreases |pages| - k
  {
    var r := CollectSources(pages, k).value;
    var page := pages[k].value;
    if page.next.Some? {
      CollectSourcesExactly(pages, k + 1);
      forall s | Supported(s) && (exists j :: k <= j <= LastPage(pages, k) && pages[j].Ok? && s in pages[j].value.results)
        ensures s in r
      {
        var j :| k <= j <= LastPage(pages, k) && pages[j].Ok? && s in pages[j].value.results;
        if j > k {
          assert s in CollectSources(pages, k + 1).value;
        }
      }
    }
  }

  /** The names of the sources that have one, in order. */
  function Names(sources: seq<DirectorySource>): (r: seq<string>)
    ensures forall d :: d in r <==> exists s :: s in sources && s.name == Some(d)
  {
    if |sources| == 0 then []
    else
      var n := |sources| - 1;
      var prev := Names(sources[..n]);
      assert sources == sources[..n] + [sources[n]];
      assert forall s :: s in sources[..n] ==> s in sources;
      match sources[n].name
      case Some(d) => prev + [d]
      case None => prev
  }

  /** `_domains_for_collection`: the names of the supported sources of the collection. */
  function DomainsForCollection(pages: Listing): (r: Result<seq<string>>)
    requires EndsFrom(pages, 0)
    ensures r.Err? <==> pages[LastPage(pages, 0)].Err?
  {
    var sources :- CollectSources(pages, 0);
    Ok(Names(sources))
  }

  /** A domain is returned iff a supported source named so is listed on one of the pages the
      loop reads. */
  lemma DomainsForCollectionExactly(pages: Listing)
    requires EndsFrom(pages, 0)
    requires DomainsForCollection(pages).Ok?
    ensures forall d :: d in DomainsForCollection(pages).value <==>
      exists j, s :: 0 <= j <= LastPage(pages, 0) && pages[j].Ok? && s in pages[j].value.results
                     && Supported(s) && s.name == Some(d)
  {
    CollectSourcesExactly(pages, 0);
  }

  /** Every collection's listing ends. */
  predicate AllEnd(directory: int -> Listing, collections: seq<int>) {
    forall i :: 0 <= i < |collections| ==> EndsFrom(directory(collections[i]), 0)
  }

  /** Whether every collection's listing succeeds. */
  predicate AllListed(directory: int -> Listing, collections: seq<int>)
    requires AllEnd(directory, collections)
  {
    forall i :: 0 <= i < |collections| ==> DomainsForCollection(directory(collections[i])).Ok?
  }

  /** The concatenation `all_domains` of the loop over the collections, in order; the first
      exception escapes. */
  function AllDomains(directory: int -> Listing, collections: seq<int>): (r: Result<seq<string>>)
    requires AllEnd(directory, collections)
    ensures r.Ok? <==> AllListed(directory, collections)
  {
    if |collections| == 0 then Ok([])
    else
      var first :- DomainsForCollection(directory(collections[0]));
      var rest :- AllDomains(directory, collections[1..]);
      Ok(first + rest)
  }

  /** A domain is in `all_domains` iff some collection of the project lists it. */
  lemma {:induction false} AllDomainsExactly(directory: int -> Listing, collections: seq<int>)
    requires AllEnd(directory, collections)
    requires AllListed(directory, collections)
    ensures forall d :: d in AllDomains(directory, collections).value <==>
      exists i :: 0 <= i < |collections| && d in DomainsForCollection(directory(collections[i])).value
  {
    if |collections| > 0 {
      var rest := collections[1..];
      AllDomainsExactly(directory, rest);
      forall d | exists i :: 0 <= i < |collections| && d in DomainsForCollection(directory(collections[i])).value
        ensures d in AllDomains(directory, collections).value
      {
        var i :| 0 <= i < |collections| && d in DomainsForCollection(directory(collections[i])).value;
        if i > 0 {
          assert collections[i] == rest[i - 1];
        }
      }
      forall d | d in AllDomains(directory, rest).value
        ensures exists i :: 0 <= i < |collections| && d in DomainsForCollection(directory(collections[i])).value
      {
        var i :| 0 <= i < |rest| && d in DomainsForCollection(directory(rest[i])).value;
        assert rest[i] == collections[i + 1];
      }
    }
  }

  /** `_domains_for_project`: `list(set(all_domains))`. The order of a Python set is not
      specified; the model keeps first occurrences. */
  function DomainsForProject(directory: int -> Listing, collections: seq<int>): (r: Result<seq<string>>)
    requires AllEnd(directory, collections)
    ensures r.Ok? <==> AllListed(directory, collections)
    ensures r.Ok? ==> NoDuplicates(r.value)
    ensures r.Ok? ==> forall d :: d in r.value <==>
      exists i :: 0 <= i < |collections| && d in DomainsForCollection(directory(collections[i])).value
  {
    var all :- AllDomains(directory, collections);
    AllDomainsExactly(directory, collections);
    Ok(Dedup(all))
  }

  /** `fetch_domains_for_projects`: a copy of the project with `domains` set to the project's
      domains; every other key is the project's own. */
  function FetchDomainsForProject(p: Project, directory: int -> Listing): (r: Result<Project>)
    requires AllEnd(directory, p.mediaCollections)
    ensures r.Ok? <==> DomainsForProject(directory, p.mediaCollections).Ok?
    ensures r.Ok? ==> r.value.(domains := p.domains) == p
    ensures r.Ok? ==> r.value.domains.Some? && NoDuplicates(r.value.domains.value)
    ensures r.Ok? ==> forall d :: d in r.value.domains.value <==>
      exists i :: 0 <= i < |p.mediaCollections| && d in DomainsForCollection(directory(p.mediaCollections[i])).value
  {
    var domains :- DomainsForProject(directory, p.mediaCollections);
    Ok(p.(domains := Some(domains)))
  }
}

=== FILE: mediacloud.dfy ===
/** The Media Cloud fetcher (`scripts/queue_mediacloud_stories.py`): one project's collection
    substitutions, story count and paging loop. The count and list calls are parameters: the
    count result, and the sequence of `story_list` responses in the order the loop requests
    them (each page token leads to the next response).
 */
module MediaCloud {
  import opened Base
  import opened Models
  import opened Text
  import opened StoriesDb
  import ProjectsDb
  import Projects
  import Tasks
  import Seqs

  /** The messages of the exceptions raised here. */
  const UnpackTwo := "too many values to unpack (expected 2)"
  const OutsideLoop := "page step outside the loop"

  const DayOffset: int := 1
  const DayWindow: int := 4
  const StoriesPerPage: nat := 1000
  const MaxStoriesPerProject: nat := 5000

  /** The "United States – state and local" collection and its replacement. */
  const UsStateLocal: int := 38379429
  const UsStateLocalNew: int := 262985212
  /** The "Massachusetts – state and local" collection and its replacement. */
  const MaStateLocal: int := 38381372
  const MaStateLocalNew: int := 262985215

  // ---------------------------------------------------------------------------
  // Collection substitution
  // ---------------------------------------------------------------------------

  /** The position of the first occurrence of `x` (`list.index`). */
  function IndexOf(s: seq<int>, x: int): (r: nat)
    requires x in s
    ensures r < |s| && s[r] == x
    ensures forall j :: 0 <= j < r ==> s[j] != x
  {
    if s[0] == x then 0 else IndexOf(s[1..], x) + 1
  }

  /** `if x in cs: cs[cs.index(x)] = y`: the first occurrence of `from` becomes `to`. */
  function ReplaceFirst(cs: seq<int>, from: int, to: int): (r: seq<int>)
    ensures |r| == |cs|
    ensures from !in cs ==> r == cs
    ensures from in cs ==>
      && r[IndexOf(cs, from)] == to
      && forall j :: 0 <= j < |cs| && j != IndexOf(cs, from) ==> r[j] == cs[j]
  {
    if from in cs then cs[IndexOf(cs, from) := to] else cs
  }

  /** A substitution trades one occurrence of `from` for one of `to` and keeps every other
      collection id with its multiplicity. */
  lemma ReplaceFirstSwapsOne(cs: seq<int>, from: int, to: int)
    requires from in cs
    ensures multiset(ReplaceFirst(cs, from, to)) == multiset(cs) - multiset{from} + multiset{to}
  {
    var i := IndexOf(cs, from);
    assert cs == cs[..i] + [from] + cs[i + 1..];
    assert ReplaceFirst(cs, from, to) == cs[..i] + [to] + cs[i + 1..];
  }

  /** The two substitutions `_process_project_task` makes on `media_collections`. */
  function ReplaceStateCollections(cs: seq<int>): (r: seq<int>)
    ensures |r| == |cs|
    ensures forall j :: 0 <= j < |cs| && cs[j] != UsStateLocal && cs[j] != MaStateLocal ==> r[j] == cs[j]
    ensures UsStateLocal in cs ==> r[IndexOf(cs, UsStateLocal)] == UsStateLocalNew
    ensures MaStateLocal in cs ==> r[IndexOf(cs, MaStateLocal)] == MaStateLocalNew
  {
    ReplaceFirst(ReplaceFirst(cs, UsStateLocal, UsStateLocalNew), MaStateLocal, MaStateLocalNew)
  }

  // ---------------------------------------------------------------------------
  // The entry point
  // ---------------------------------------------------------------------------

  /** `_process_project_task` as written: `query_start_end_dates` returns three values and the
      task unpacks two, so every call raises — either the error from the window itself or
      the `ValueError` of the unpacking — before any count or listing. */
  function ProcessProjectTask(p: Project, history: Option<ProjectHistory>, now: int,
                              parse: string -> Option<int>): (r: Result<ProjectResult>)
    ensures r.Err?
    ensures Projects.QueryStartEndDates(p, history, now, DayOffset, DayWindow, MediaCloud, true, parse).Ok? ==>
      r.failure.ValueError?
  {
    var window :- Projects.QueryStartEndDates(p, history, now, DayOffset, DayWindow, MediaCloud, true, parse);
    Err(ValueError(UnpackTwo))
  }

  // ---------------------------------------------------------------------------
  // What the task does after the window (count, then the paging loop)
  // ---------------------------------------------------------------------------

  /** A story of a `story_list` page: its dictionary, and its `indexed_date` and `text` keys,
      either of which may be missing. */
  datatype McStory = McStory(fields: StoryDict, indexedDate: Option<int>, text: Option<string>)

  /** A `story_list` response: the page and the next page token. */
  datatype McPage = McPage(stories: seq<McStory>, token: Option<string>)

  /** `str(s["publish_date"])`: a missing key raises; `None` prints as `None`. */
  function ShowPubDate(d: PubDate, showDate: int -> string): (r: Result<string>)
    ensures r.Err? <==> d.Missing?
  {
    match d
    case Missing => Err(KeyError("publish_date"))
    case Null => Ok("None")
    case At(t) => Ok(showDate(t))
    case Text(s) => Ok(s)
  }

  /** The keys the loop writes into a listed story before it is added: `publish_date` is read
      first, then `text`, and a missing one raises `KeyError`. */
  function Annotate(s: McStory, p: Project, showDate: int -> string): (r: Result<StoryDict>)
    ensures r.Err? <==> s.fields.publishDate.Missing? || s.text.None?
    ensures r.Err? ==> r.failure == KeyError(if s.fields.publishDate.Missing? then "publish_date" else "text")
    ensures r.Ok? ==> r.value == s.fields.(source := MediaCloud, projectId := p.id, storyText := s.text,
                                           sourcePublishDate := r.value.sourcePublishDate)
    ensures r.Ok? ==> r.value.sourcePublishDate.Some?
  {
    var shown :- ShowPubDate(s.fields.publishDate, showDate);
    if s.text.None? then Err(KeyError("text"))
    else Ok(s.fields.(source := MediaCloud, sourcePublishDate := Some(shown), projectId := p.id, storyText := s.text))
  }

  /** The whole page annotated; the first missing key raises. */
  function AnnotateAll(stories: seq<McStory>, p: Project, showDate: int -> string): (r: Result<seq<StoryDict>>)
    ensures r.Ok? <==> forall i :: 0 <= i < |stories| ==> Annotate(stories[i], p, showDate).Ok?
    ensures r.Ok? ==> |r.value| == |stories|
    ensures r.Ok? ==> forall i :: 0 <= i < |stories| ==> r.value[i] == Annotate(stories[i], p, showDate).value
  {
    if |stories| == 0 then Ok([])
    else
      var n := |stories| - 1;
      var prev :- AnnotateAll(stories[..n], p, showDate);
      var last :- Annotate(stories[n], p, showDate);
      Ok(prev + [last])
  }

  /** The `indexed_date` of every story of a page; a story without one raises `KeyError`. */
  function IndexedDates(stories: seq<McStory>): (r: Result<seq<int>>)
    ensures r.Ok? <==> forall i :: 0 <= i < |stories| ==> stories[i].indexedDate.Some?
    ensures r.Err? ==> r.failure == KeyError("indexed_date")
    ensures r.Ok? ==> |r.value| == |stories|
    ensures r.Ok? ==> forall i :: 0 <= i < |stories| ==> r.value[i] == stories[i].indexedDate.value
  {
    if |stories| == 0 then Ok([])
    else
      var n := |stories| - 1;
      var prev :- IndexedDates(stories[..n]);
      if stories[n].indexedDate.None? then Err(KeyError("indexed_date"))
      else Ok(prev + [stories[n].indexedDate.value])
  }

  /** `latest_indexed_date` after a page whose dates all read: the larger of the running
      value and the page's latest. */
  function PageLatest(latest: int, stories: seq<McStory>): (r: int)
    requires |stories| > 0 && IndexedDates(stories).Ok?
    ensures r >= latest
    ensures r == latest || exists i :: 0 <= i < |stories| && r == stories[i].indexedDate.value
    ensures forall i :: 0 <= i < |stories| ==> stories[i].indexedDate.value <= r
  {
    Max(latest, SeqMax(IndexedDates(stories).value))
  }

  /** The state of the paging loop. `latest` is `latest_indexed_date`; an exception other
      than a listing error ends the task with the effects so far. */
  datatype McRun = McRun(
    ledger: Ledger,
    histories: ProjectsDb.Histories,
    queued: seq<Tasks.Enqueued>,
    storyCount: nat,
    pageCount: nat,
    latest: int,
    failure: Option<Failure>)

  /** The loop leaves after this response: the listing raised (caught: the project is skipped
      gracefully), the page was empty, or there is no next token. */
  predicate EndsLoop(response: Result<McPage>) {
    response.Err? || |response.value.stories| == 0 || response.value.token.None?
  }

  /** From response `k` on, some response ends the loop. */
  predicate EndsFrom(responses: seq<Result<McPage>>, k: nat) {
    exists j :: k <= j < |responses| && EndsLoop(responses[j])
  }

  /** One non-empty page: read every `indexed_date` and raise the watermark to the page's
      latest, annotate, count the page, add the stories to the ledger, enqueue the worker with
      what was admitted (even nothing), and write the watermark. */
  function PageStep(st: McRun, p: Project, stories: seq<McStory>, now: int, o: Oracles): (r: McRun)
    requires Valid(st.ledger) && st.failure.None? && |stories| > 0
    ensures Valid(r.ledger)
    ensures IndexedDates(stories).Err? ==> r == st.(failure := Some(IndexedDates(stories).failure))
    ensures IndexedDates(stories).Ok? ==> r.latest == PageLatest(st.latest, stories)
    ensures r.failure.None? ==>
      && r.pageCount == st.pageCount + 1
      && |r.queued| == |st.queued| + 1
      && r.queued[..|st.queued|] == st.queued
      && r.storyCount == st.storyCount + |r.queued[|st.queued|].stories|
  {
    match IndexedDates(stories)
    case Err(f) => st.(failure := Some(f))
    case Ok(_) =>
    var latest := PageLatest(st.latest, stories);
    var st1 := st.(latest := latest);
    match AnnotateAll(stories, p, o.showDate)
    case Err(f) => st1.(failure := Some(f))
    case Ok(annotated) =>
      var st2 := st1.(pageCount := st.pageCount + 1);
      match AddStories(st.ledger, annotated, p, MediaCloud, now, o)
      case Err(f) => st2.(failure := Some(f))
      case Ok(added) =>
        var st3 := st2.(ledger := added.ledger, storyCount := st.storyCount + |added.admitted|,
                        queued := st.queued + [Tasks.Enqueued(p, added.admitted)]);
        match ProjectsDb.UpdateHistory(st.histories, p.id, latest, MediaCloud, now)
        case Err(f) => st3.(failure := Some(f))
        case Ok(h) => st3.(histories := h)
  }

  /** A page goes through iff its stories all have the keys read, the ledger takes them, and
      the project has a history row; the worker then receives exactly what the ledger
      admitted, and the Media Cloud watermark is written with the running maximum. The
      ledger is the one `add_stories` leaves whenever it ran, and is untouched otherwise. */
  lemma PageStepOutcome(st: McRun, p: Project, stories: seq<McStory>, now: int, o: Oracles)
    requires Valid(st.ledger) && st.failure.None? && |stories| > 0
    ensures var r := PageStep(st, p, stories, now, o);
      var annotated := AnnotateAll(stories, p, o.showDate);
      && (IndexedDates(stories).Err? || annotated.Err? ==> r.ledger == st.ledger && r.queued == st.queued)
      && (IndexedDates(stories).Ok? && annotated.Ok? ==>
           var added := AddStories(st.ledger, annotated.value, p, MediaCloud, now, o);
           && (added.Err? ==> r.ledger == st.ledger && r.queued == st.queued)
           && (added.Ok? ==> r.ledger == added.value.ledger))
    ensures var r := PageStep(st, p, stories, now, o);
      && (r.failure.None? <==>
           && IndexedDates(stories).Ok?
           && AnnotateAll(stories, p, o.showDate).Ok?
           && AddStories(st.ledger, AnnotateAll(stories, p, o.showDate).value, p, MediaCloud, now, o).Ok?
           && p.id in st.histories)
      && (r.failure.None? ==>
           && r.queued[|st.queued|]
              == Tasks.Enqueued(p, AddStories(st.ledger, AnnotateAll(stories, p, o.showDate).value, p, MediaCloud,
                                              now, o).value.admitted)
           && r.histories == ProjectsDb.UpdateHistory(st.histories, p.id, r.latest, MediaCloud, now).value)
  {
  }

  /** What the loop does with one non-empty listed page. */
  type Step = (McRun, seq<McStory>) -> McRun

  /** The `while more_stories and story_count < max_stories` loop from response `k`, for a
      given page step: it stops at the story cap, at a listing error, at an empty page, after
      a page that raised, and after the page without a next token. */
  function Loop(st: McRun, responses: seq<Result<McPage>>, k: nat, maxStories: nat, step: Step): (r: McRun)
    requires EndsFrom(responses, k)
    decreases |responses| - k
  {
    if st.storyCount >= maxStories then st
    else
      match responses[k]
      case Err(_) => st
      case Ok(page) =>
        if |page.stories| == 0 then st
        else
          var next := step(st, page.stories);
          if next.failure.Some? || page.token.None? then next
          else Loop(next, responses, k + 1, maxStories, step)
  }

  /** The page step of project `p`. The loop only steps from a run with a valid ledger and no
      failure, on a non-empty page, so the guard always holds where it is used. */
  function StepOf(p: Project, now: int, o: Oracles): Step {
    (s: McRun, stories: seq<McStory>) =>
      if Valid(s.ledger) && s.failure.None? && |stories| > 0 then PageStep(s, p, stories, now, o)
      else s.(failure := Some(RuntimeError(OutsideLoop)))
  }

  /** The step keeps the ledger valid. */
  ghost predicate KeepsValid(step: Step) {
    forall s: McRun, stories: seq<McStory> :: Valid(s.ledger) ==> Valid(step(s, stories).ledger)
  }

  /** A successful step from `s` on `stories` counts one page, enqueues one task after the
      earlier ones and adds that task's stories to the count; no step lowers the running
      maximum. */
  ghost predicate CountsAt(step: Step, s: McRun, stories: seq<McStory>) {
    s.failure.None? && |stories| > 0 ==>
      var next := step(s, stories);
      && next.latest >= s.latest
      && (next.failure.None? ==>
            && next.pageCount == s.pageCount + 1
            && |next.queued| == |s.queued| + 1
            && next.queued[..|s.queued|] == s.queued
            && next.storyCount == s.storyCount + |next.queued[|s.queued|].stories|)
  }

  /** `CountsAt` for every run and page. */
  ghost predicate Counts(step: Step) {
    forall s: McRun, stories: seq<McStory> :: CountsAt(step, s, stories)
  }

  /** A successful step from `s` on `stories` leaves project `id`'s Media Cloud watermark at
      the running maximum. */
  ghost predicate MarksAt(step: Step, id: int, s: McRun, stories: seq<McStory>) {
    s.failure.None? && |stories| > 0 && step(s, stories).failure.None? ==>
      id in step(s, stories).histories
      && ProjectsDb.Watermark(step(s, stories).histories[id], MediaCloud) == Some(step(s, stories).latest)
  }

  /** `MarksAt` for every run and page. */
  ghost predicate Marks(step: Step, id: int) {
    forall s: McRun, stories: seq<McStory> :: MarksAt(step, id, s, stories)
  }

  lemma StepOfKeepsValid(p: Project, now: int, o: Oracles)
    ensures KeepsValid(StepOf(p, now, o))
  {
  }

  lemma StepOfCounts(p: Project, now: int, o: Oracles)
    ensures Counts(StepOf(p, now, o))
  {
    forall s: McRun, stories: seq<McStory> ensures CountsAt(StepOf(p, now, o), s, stories) {
    }
  }

  lemma StepOfMarks(p: Project, now: int, o: Oracles)
    ensures Marks(StepOf(p, now, o), p.id)
  {
    forall s: McRun, stories: seq<McStory> ensures MarksAt(StepOf(p, now, o), p.id, s, stories) {
      if s.failure.None? && |stories| > 0 && StepOf(p, now, o)(s, stories).failure.None? {
        PageStepOutcome(s, p, stories, now, o);
        var r := PageStep(s, p, stories, now, o);
        ProjectsDb.UpdateThenGet(s.histories, p.id, r.latest, MediaCloud, now);
      }
    }
  }

  /** A step that keeps the ledger valid keeps it valid through the loop. */
  lemma {:induction false} LoopKeepsValid(st: McRun, responses: seq<Result<McPage>>, k: nat, maxStories: nat,
                                          step: Step)
    requires EndsFrom(responses, k) && KeepsValid(step) && Valid(st.ledger)
    ensures Valid(Loop(st, responses, k, maxStories, step).ledger)
    decreases |responses| - k
  {
    if st.storyCount < maxStories && responses[k].Ok? && |responses[k].value.stories| > 0 {
      var next := step(st, responses[k].value.stories);
      if next.failure.None? && responses[k].value.token.Some? {
        var j :| k <= j < |responses| && EndsLoop(responses[j]);
        LoopKeepsValid(next, responses, k + 1, maxStories, step);
      }
    }
  }

  /** The loop of project `p`'s task. */
  function PageLoop(st: McRun, p: Project, responses: seq<Result<McPage>>, k: nat, maxStories: nat, now: int,
                    o: Oracles): (r: McRun)
    requires Valid(st.ledger) && st.failure.None?
    requires EndsFrom(responses, k)
    ensures Valid(r.ledger)
  {
    StepOfKeepsValid(p, now, o);
    LoopKeepsValid(st, responses, k, maxStories, StepOf(p, now, o));
    Loop(st, responses, k, maxStories, StepOf(p, now, o))
  }

  /** How many stories a list of tasks carries. */
  function AdmittedCount(q: seq<Tasks.Enqueued>): nat {
    if |q| == 0 then 0 else |q[0].stories| + AdmittedCount(q[1..])
  }

  /** The tasks enqueued before the loop stay, and one page is counted per enqueued task. */
  lemma {:induction false} LoopQueue(st: McRun, responses: seq<Result<McPage>>, k: nat, maxStories: nat, step: Step)
    requires EndsFrom(responses, k) && Counts(step) && st.failure.None?
    ensures var r := Loop(st, responses, k, maxStories, step);
      r.failure.None? ==>
        && |st.queued| <= |r.queued| && r.queued[..|st.queued|] == st.queued
        && r.pageCount == st.pageCount + (|r.queued| - |st.queued|)
    decreases |responses| - k
  {
    if st.storyCount < maxStories && responses[k].Ok? && |responses[k].value.stories| > 0 {
      var next := step(st, responses[k].value.stories);
      assert CountsAt(step, st, responses[k].value.stories);
      if next.failure.None? && responses[k].value.token.Some? {
        var j :| k <= j < |responses| && EndsLoop(responses[j]);
        LoopQueue(next, responses, k + 1, maxStories, step);
        var r := Loop(next, responses, k + 1, maxStories, step);
        if r.failure.None? {
          Seqs.PrefixOfPrefix(st.queued, next.queued, r.queued);
        }
      }
    }
  }

  /** `story_count` is the number of stories admitted (the sum over the enqueued tasks), not
      the number listed, and it can pass `max_stories` only on the last page, by that page's
      admissions. */
  lemma {:induction false} LoopCounts(st: McRun, responses: seq<Result<McPage>>, k: nat, maxStories: nat, step: Step)
    requires EndsFrom(responses, k) && Counts(step) && st.failure.None?
    ensures var r := Loop(st, responses, k, maxStories, step);
      r.failure.None? ==>
        && |st.queued| <= |r.queued|
        && r.storyCount == st.storyCount + AdmittedCount(r.queued[|st.queued|..])
        && (|r.queued| > |st.queued| && st.storyCount < maxStories ==>
              r.storyCount - |r.queued[|r.queued| - 1].stories| < maxStories)
    decreases |responses| - k, 1
  {
    LoopQueue(st, responses, k, maxStories, step);
    if !(st.storyCount < maxStories && responses[k].Ok? && |responses[k].value.stories| > 0) {
      assert st.queued[|st.queued|..] == [];
    } else {
      LoopCountsPage(st, responses, k, maxStories, step);
    }
  }

  /** `LoopCounts` when the loop takes page `k`. */
  lemma {:induction false} LoopCountsPage(st: McRun, responses: seq<Result<McPage>>, k: nat, maxStories: nat,
                                          step: Step)
    requires EndsFrom(responses, k) && Counts(step) && st.failure.None?
    requires st.storyCount < maxStories && responses[k].Ok? && |responses[k].value.stories| > 0
    ensures var r := Loop(st, responses, k, maxStories, step);
      r.failure.None? ==>
        && |st.queued| <= |r.queued|
        && r.storyCount == st.storyCount + AdmittedCount(r.queued[|st.queued|..])
        && (|r.queued| > |st.queued| ==> r.storyCount - |r.queued[|r.queued| - 1].stories| < maxStories)
    decreases |responses| - k, 0
  {
    var stories := responses[k].value.stories;
    var next := step(st, stories);
    assert CountsAt(step, st, stories);
    if next.failure.None? {
      var e := next.queued[|st.queued|];
      assert next.queued == st.queued + [e];
      if responses[k].value.token.None? {
        assert Loop(st, responses, k, maxStories, step) == next;
        OnePageCounts(st, next, e, maxStories);
      } else {
        var j :| k <= j < |responses| && EndsLoop(responses[j]);
        assert Loop(st, responses, k, maxStories, step) == Loop(next, responses, k + 1, maxStories, step);
        LoopCounts(next, responses, k + 1, maxStories, step);
        LoopQueue(next, responses, k + 1, maxStories, step);
        var r := Loop(next, responses, k + 1, maxStories, step);
        if r.failure.None? {
          CountsCarry(st, next, r, e, maxStories);
        }
      }
    }
  }

  /** The counting facts of a loop that ends after one page, which enqueued `e`. */
  lemma OnePageCounts(st: McRun, next: McRun, e: Tasks.Enqueued, maxStories: nat)
    requires next.queued == st.queued + [e] && next.storyCount == st.storyCount + |e.stories|
    requires st.storyCount < maxStories
    ensures |st.queued| <= |next.queued|
    ensures next.storyCount == st.storyCount + AdmittedCount(next.queued[|st.queued|..])
    ensures next.storyCount - |next.queued[|next.queued| - 1].stories| < maxStories
  {
    assert next.queued[|st.queued|..] == [e];
    assert AdmittedCount([e]) == |e.stories| + AdmittedCount([e][1..]);
  }

  /** The counting facts of the rest of the loop, carried back over one page that
      enqueued `e`. */
  lemma CountsCarry(st: McRun, next: McRun, r: McRun, e: Tasks.Enqueued, maxStories: nat)
    requires next.queued == st.queued + [e] && next.storyCount == st.storyCount + |e.stories|
    requires st.storyCount < maxStories
    requires |next.queued| <= |r.queued| && r.queued[..|next.queued|] == next.queued
    requires r.storyCount == next.storyCount + AdmittedCount(r.queued[|next.queued|..])
    requires |r.queued| > |next.queued| ==>
      next.storyCount < maxStories && r.storyCount - |r.queued[|r.queued| - 1].stories| < maxStories
    ensures |st.queued| <= |r.queued|
    ensures r.storyCount == st.storyCount + AdmittedCount(r.queued[|st.queued|..])
    ensures |r.queued| > |st.queued| ==> r.storyCount - |r.queued[|r.queued| - 1].stories| < maxStories
  {
    Seqs.SuffixAfterOne(st.queued, e, r.queued);
    assert r.queued[|st.queued|..][1..] == r.queued[|next.queued|..];
    if |r.queued| == |next.queued| {
      assert r.queued[|next.queued|..] == [];
      assert r.queued[|r.queued| - 1] == e;
    }
  }

  /** The watermark only moves forward within a run; after a loop that took a page, project
      `id`'s Media Cloud watermark is the running maximum, and a loop that took none leaves the
      run as it was. */
  lemma {:induction false} LoopWatermark(st: McRun, responses: seq<Result<McPage>>, k: nat, maxStories: nat,
                                         step: Step, id: int)
    requires EndsFrom(responses, k) && Counts(step) && Marks(step, id) && st.failure.None?
    ensures var r := Loop(st, responses, k, maxStories, step);
      && r.latest >= st.latest
      && (r.failure.None? && r.pageCount > st.pageCount ==>
            id in r.histories && ProjectsDb.Watermark(r.histories[id], MediaCloud) == Some(r.latest))
      && (r.failure.None? && r.pageCount == st.pageCount ==> r == st)
    decreases |responses| - k
  {
    if st.storyCount < maxStories && responses[k].Ok? && |responses[k].value.stories| > 0 {
      var next := step(st, responses[k].value.stories);
      assert CountsAt(step, st, responses[k].value.stories);
      assert MarksAt(step, id, st, responses[k].value.stories);
      if next.failure.None? && responses[k].value.token.Some? {
        var j :| k <= j < |responses| && EndsLoop(responses[j]);
        LoopWatermark(next, responses, k + 1, maxStories, step, id);
        LoopQueue(next, responses, k + 1, maxStories, step);
        assert Loop(st, responses, k, maxStories, step) == Loop(next, responses, k + 1, maxStories, step);
      } else {
        assert Loop(st, responses, k, maxStories, step) == next;
      }
    }
  }

  /** The facts of one loop run: `LoopQueue`, `LoopCounts` and `LoopWatermark` together. */
  ghost predicate LoopFacts(st: McRun, r: McRun, maxStories: nat, id: int) {
    && r.latest >= st.latest
    && (r.failure.None? ==>
          && |st.queued| <= |r.queued| && r.queued[..|st.queued|] == st.queued
          && r.pageCount == st.pageCount + (|r.queued| - |st.queued|)
          && r.storyCount == st.storyCount + AdmittedCount(r.queued[|st.queued|..])
          && (|r.queued| > |st.queued| && st.storyCount < maxStories ==>
                r.storyCount - |r.queued[|r.queued| - 1].stories| < maxStories)
          && (r.pageCount > st.pageCount ==>
                id in r.histories && ProjectsDb.Watermark(r.histories[id], MediaCloud) == Some(r.latest))
          && (r.pageCount == st.pageCount ==> r == st))
  }

  /** The loop facts for any step that counts and marks project `id`'s watermark. */
  lemma LoopHasFacts(st: McRun, responses: seq<Result<McPage>>, k: nat, maxStories: nat, step: Step, id: int)
    requires EndsFrom(responses, k) && Counts(step) && Marks(step, id) && st.failure.None?
    ensures LoopFacts(st, Loop(st, responses, k, maxStories, step), maxStories, id)
  {
    LoopQueue(st, responses, k, maxStories, step);
    LoopCounts(st, responses, k, maxStories, step);
    LoopWatermark(st, responses, k, maxStories, step, id);
  }

  /** The loop facts for the task's own step. */
  lemma PageLoopFacts(st: McRun, p: Project, responses: seq<Result<McPage>>, k: nat, maxStories: nat, now: int,
                      o: Oracles)
    requires Valid(st.ledger) && st.failure.None?
    requires EndsFrom(responses, k)
    ensures LoopFacts(st, PageLoop(st, p, responses, k, maxStories, now, o), maxStories, p.id)
  {
    StepOfCounts(p, now, o);
    StepOfMarks(p, now, o);
    LoopHasFacts(st, responses, k, maxStories, StepOf(p, now, o), p.id);
  }

  /** The dictionary the task returns. */
  datatype ProjectResult = ProjectResult(emailText: string, stories: nat, pages: nat)

  /** The first line of the project's part of the email. */
  function ProjectHeader(p: Project): string {
    "Project " + IntToString(p.id) + " - " + p.title + ":\n"
  }

  const TooBroad: string := "(\U{26A0}\U{FE0F}\U{FE0F}\U{FE0F} query might be too broad)"

  /** The warning appended when `story_count > max_stories * 0.8`; the product is exact for
      the integer counts involved, so the test is `5 * story_count > 4 * max_stories`. */
  function Warnings(storyCount: nat, maxStories: nat): (r: string)
    ensures r != "" <==> 5 * storyCount > 4 * maxStories
  {
    if 5 * storyCount > 4 * maxStories then TooBroad else ""
  }

  /** The run the paging loop starts from: nothing queued or counted, and
      `latest_indexed_date` two weeks before now. */
  function LoopStart(l: Ledger, h: ProjectsDb.Histories, now: int): McRun {
    McRun(l, h, [], 0, 0, now - 2 * Week, None)
  }

  /** The project's summary line after the loop. */
  function FoundLine(p: Project, storyCount: nat, pageCount: nat, maxStories: nat): string {
    ProjectHeader(p) + "    found " + NatToString(storyCount) + " new stories (over " + NatToString(pageCount)
    + " pages) " + Warnings(storyCount, maxStories) + "\n\n"
  }

  /** The count call and the loop after the window: a failed count skips the project with zero
      stories and pages and no listing, and its line shows the error (`showError` is Python's
      `str` of the exception); otherwise the loop runs from the first response, starting two
      weeks back, and the summary reports its counters: the stories admitted over the tasks
      enqueued, one page per task, and the watermark left at the latest `indexed_date` seen. */
  function CountAndPage(l: Ledger, h: ProjectsDb.Histories, p: Project, count: Result<nat>,
                        responses: seq<Result<McPage>>, maxStories: nat, now: int, o: Oracles,
                        showError: Failure -> string)
    : (r: (McRun, Result<ProjectResult>))
    requires Valid(l)
    requires EndsFrom(responses, 0)
    ensures Valid(r.0.ledger)
    ensures count.Err? ==>
      && r.0.ledger == l && r.0.histories == h && r.0.queued == []
      && r.1.Ok? && r.1.value.stories == 0 && r.1.value.pages == 0
      && r.1.value.emailText == ProjectHeader(p) + "    failed to count with " + showError(count.failure) + "\n\n"
    ensures count.Ok? ==> r.0 == PageLoop(LoopStart(l, h, now), p, responses, 0, maxStories, now, o)
    ensures r.1.Ok? <==> r.0.failure.None?
    ensures r.1.Ok? ==> r.1.value.stories == r.0.storyCount && r.1.value.pages == r.0.pageCount
    ensures count.Ok? && r.1.Ok? ==>
      && r.1.value.emailText == FoundLine(p, r.0.storyCount, r.0.pageCount, maxStories)
      && r.1.value.stories == AdmittedCount(r.0.queued)
      && r.1.value.pages == |r.0.queued|
      && r.0.latest >= now - 2 * Week
      && (r.1.value.pages > 0 ==>
            p.id in r.0.histories && ProjectsDb.Watermark(r.0.histories[p.id], MediaCloud) == Some(r.0.latest))
      && (r.1.value.pages == 0 ==> r.0 == LoopStart(l, h, now))
  {
    var start := LoopStart(l, h, now);
    match count
    case Err(f) =>
      (start, Ok(ProjectResult(ProjectHeader(p) + "    failed to count with " + showError(f) + "\n\n", 0, 0)))
    case Ok(_) =>
      PageLoopFacts(start, p, responses, 0, maxStories, now, o);
      var run := PageLoop(start, p, responses, 0, maxStories, now, o);
      assert run.queued[0..] == run.queued;
      if run.failure.Some? then (run, Err(run.failure.value))
      else (run, Ok(ProjectResult(FoundLine(p, run.storyCount, run.pageCount, maxStories), run.storyCount, run.pageCount)))
  }
}

=== FILE: models.dfy ===
/** The records that flow through the pipeline: the story dictionaries the
    fetchers build, the project configuration, the ledger row (`Story`) and the
    per-project watermark row (`ProjectHistory`), plus `Story.from_source`.
 */
module Models {
  import opened Base

  /** The messages of the exceptions raised here. */
  const NotSubscriptable := "Story object is not subscriptable"

  /** The `publish_date` key of a story dictionary: absent, `None`, a datetime, or text. */
  datatype PubDate = Missing | Null | At(t: int) | Text(s: string)

  /** Classifier scores attached to a story dictionary by the worker. */
  datatype Scores = Scores(modelScore: real, model1Score: Option<real>, model2Score: Option<real>)

  /** A story dictionary. Keys that some stages add and others lack are `Option`s;
      `entities` distinguishes an absent key (`None`) from a present `None` (`Some(None)`). */
  datatype StoryDict = StoryDict(
    url: string,
    projectId: int,
    source: Source,
    title: string,
    language: string,
    mediaUrl: string,
    mediaName: string,
    publishDate: PubDate,
    sourcePublishDate: Option<string>,
    storiesId: Option<int>,
    mediaId: Option<int>,
    storyTags: Option<seq<string>>,
    authors: Option<seq<string>>,
    storyText: Option<string>,
    extractedContentUrl: Option<string>,
    confidence: Option<real>,
    scores: Option<Scores>,
    entities: Option<Option<seq<string>>>,
    logDbId: Option<nat>)

  /** A fresh story dictionary carrying only the keys every fetcher sets. */
  function NewStoryDict(url: string, projectId: int, source: Source, title: string,
                        language: string, mediaUrl: string, mediaName: string): StoryDict
  {
    StoryDict(url, projectId, source, title, language, mediaUrl, mediaName, Missing,
              None, None, None, None, None, None, None, None, None, None, None)
  }

  /** The project configuration read from the central server (read-only here). */
  datatype Project = Project(
    id: int,
    title: string,
    language: string,
    languageModelId: int,
    languageModel: Option<string>,
    minConfidence: Option<real>,
    searchTerms: string,
    newscatcherCountry: Option<string>,
    mediaCollections: seq<int>,
    rssUrl: Option<string>,
    startDate: Option<string>,
    domains: Option<seq<string>>)

  /** A row of the `stories` table (the ledger). */
  datatype Story = Story(
    id: nat,
    storiesId: Option<int>,
    projectId: int,
    modelId: int,
    modelScore: Option<real>,
    model1Score: Option<real>,
    model2Score: Option<real>,
    publishedDate: int,
    queuedDate: int,
    processedDate: Option<int>,
    postedDate: Option<int>,
    aboveThreshold: bool,
    source: Source,
    url: string,
    normalizedUrl: string)

  /** What `Story.from_source` fills in; every other column is left for `add_stories`. */
  datatype Draft = Draft(storiesId: Option<int>, url: string, source: Source, publishedDate: int)

  /** A row of the `projects` table: the watermark per project. The ORM class declares
      `last_publish_date` and `last_url`; the per-source `latest_date_*` columns come from a
      later schema migration. */
  datatype ProjectHistory = ProjectHistory(
    id: int,
    lastPublishDate: Option<int>,
    lastUrl: Option<string>,
    latestDateMc: Option<int>,
    latestDateNc: Option<int>,
    latestDateWm: Option<int>,
    createdAt: Option<int>,
    updatedAt: Option<int>)

  /** Library calls the pipeline treats as black boxes: `dateutil`/`dateparser` parsing
      (`None` when it raises), `mcmetadata` URL normalization and canonical domains, and
      `str()` of a datetime. */
  datatype Oracles = Oracles(
    parseDate: string -> Option<int>,
    normalizeUrl: string -> string,
    canonicalDomain: string -> string,
    showDate: int -> string)

  /** True when `from_source` can read a publication date without falling back. */
  predicate DateReadable(d: PubDate, parse: string -> Option<int>) {
    match d
    case At(_) => true
    case Text(s) => parse(s).Some?
    case _ => false
  }

  /** `Story.from_source`: copies `url` and `source`, keeps `stories_id` for Media Cloud only,
      stores a datetime verbatim and parses text. The fallback for an unreadable date
      raises, because its warning subscripts the ORM object (`db_story['url']`). */
  function FromSource(story: StoryDict, source: Source, parse: string -> Option<int>): (r: Result<Draft>)
    ensures r.Ok? <==> (source != MediaCloud || story.storiesId.Some?) && DateReadable(story.publishDate, parse)
    ensures r.Ok? ==>
      && r.value.url == story.url
      && r.value.source == source
      && r.value.storiesId == (if source == MediaCloud then story.storiesId else None)
      && (story.publishDate.At? ==> r.value.publishedDate == story.publishDate.t)
      && (story.publishDate.Text? ==> parse(story.publishDate.s) == Some(r.value.publishedDate))
    ensures source == MediaCloud && story.storiesId.None? ==> r == Err(KeyError("stories_id"))
    ensures (source != MediaCloud || story.storiesId.Some?) && !DateReadable(story.publishDate, parse) ==>
      r.Err? && (story.publishDate.Missing? <==> r == Err(KeyError("publish_date")))
  {
    if source == MediaCloud && story.storiesId.None? then Err(KeyError("stories_id"))
    else
      var storiesId := if source == MediaCloud then story.storiesId else None;
      match story.publishDate
      case At(t) => Ok(Draft(storiesId, story.url, source, t))
      case Text(s) =>
        (match parse(s)
         case Some(t) => Ok(Draft(storiesId, story.url, source, t))
         case None => Err(TypeError(NotSubscriptable)))
      case Null => Err(TypeError(NotSubscriptable))
      case Missing => Err(KeyError("publish_date"))
  }
}

=== FILE: newscatcher.dfy ===
/** The Newscatcher fetcher (`scripts/queue_newscatcher_stories.py`): the projects with a
    country, the search parameters, one project's paging loop with its recent-URL screen, and
    the matching of fetched pages back to stories. The search API, the HTML fetcher and the
    text extractor are parameters.
 */
module Newscatcher {
  import opened Base
  import opened Models
  import opened Text
  import opened StoriesDb
  import ProjectsDb
  import Projects
  import Tasks
  import Seqs
  import Fetcher

  /** The messages of the exceptions raised here. */
  const NoCountries := "No projects with countries - bailing"
  const NoSplit := "'NoneType' object has no attribute 'split'"
  const EmptyMax := "max() arg is an empty sequence"
  const CompareNone := "'>' not supported between instances of 'NoneType' and 'datetime.datetime'"
  const UnpackTwo := "too many values to unpack (expected 2)"

  const PageSize: nat := 200
  const DayOffset: int := 0
  const DayWindow: int := 4
  const MaxStoriesPerProject: nat := 3000
  /** The look-back of `project_story_normalized_urls` for the recent-URL screen, in days. */
  const RecentDays: int := 14
  /** The watermark starts this far back: `timedelta(weeks=50)`. */
  const LookBack: int := 50 * Week

  // ---------------------------------------------------------------------------
  // Projects and search parameters
  // ---------------------------------------------------------------------------

  /** `load_projects`: the projects with a two-letter country; none at all raises. */
  function LoadProjects(projects: seq<Project>): (r: Result<seq<Project>>)
    ensures r.Err? <==> forall p :: p in projects ==> !Projects.HasCountry(p)
    ensures r.Err? ==> r.failure.RuntimeError?
    ensures r.Ok? ==> |r.value| > 0 && forall p :: p in r.value <==> p in projects && Projects.HasCountry(p)
  {
    var kept := Projects.WithCountries(projects);
    if |kept| == 0 then Err(RuntimeError(NoCountries))
    else
      assert kept[0] in kept;
      Ok(kept)
  }

  /** The `params` of `_fetch_results`; the two dates are the days `strftime("%Y-%m-%d")`
      names. */
  datatype SearchParams = SearchParams(q: string, lang: string, countries: seq<string>, pageSize: nat,
                                       from: int, to: int, page: nat)

  /** `_fetch_results`' parameters: curly quotes in the terms become straight ones, and the
      country string is split on commas with each part stripped. A project without a
      country cannot be split. */
  function FetchParams(p: Project, start: int, end: int, page: nat): (r: Result<SearchParams>)
    ensures r.Err? <==> p.newscatcherCountry.None?
    ensures r.Ok? ==>
      && r.value.q == ReplaceCurlies(p.searchTerms) && LeftCurly !in r.value.q && RightCurly !in r.value.q
      && r.value.lang == p.language && r.value.pageSize == PageSize && r.value.page == page
      && r.value.from == StartOfDay(start) && r.value.to == StartOfDay(end)
      && |r.value.countries| == |Split(p.newscatcherCountry.value, ',')|
      && forall i :: 0 <= i < |r.value.countries| ==>
           r.value.countries[i] == Strip(Split(p.newscatcherCountry.value, ',')[i])
           && ',' !in r.value.countries[i]
  {
    match p.newscatcherCountry
    case None => Err(AttributeError(NoSplit))
    case Some(c) =>
      var parts := Split(c, ',');
      var countries := seq(|parts|, i requires 0 <= i < |parts| => Strip(parts[i]));
      assert forall i :: 0 <= i < |parts| ==> ',' !in countries[i] by {
        forall i | 0 <= i < |parts| ensures ',' !in countries[i] {
          assert ',' !in parts[i];
        }
      }
      Ok(SearchParams(ReplaceCurlies(p.searchTerms), p.language, countries, PageSize,
                      StartOfDay(start), StartOfDay(end), page))
  }

  /** An article of a search response. */
  datatype Article = Article(link: string, publishedDate: string, title: string, authors: Option<seq<string>>)

  /** A search response: the total hit count and the page's articles. */
  datatype NcPage = NcPage(totalHits: int, articles: seq<Article>)

  /** The search API: the response to a parameter set; a call that raises is an `Err`. */
  type Search = SearchParams -> Result<NcPage>

  /** `_fetch_results`: the response for page `page` of the project's window. */
  function FetchResults(p: Project, start: int, end: int, page: nat, search: Search): (r: Result<NcPage>)
    ensures p.newscatcherCountry.None? ==> r.Err?
    ensures p.newscatcherCountry.Some? ==> r == search(FetchParams(p, start, end, page).value)
  {
    var params :- FetchParams(p, start, end, page);
    search(params)
  }

  /** The pages of the project's window by number, as the loop requests them. */
  function Pages(p: Project, start: int, end: int, search: Search): (r: nat -> Result<NcPage>)
    ensures forall n :: r(n) == FetchResults(p, start, end, n, search)
  {
    (n: nat) => FetchResults(p, start, end, n, search)
  }

  // ---------------------------------------------------------------------------
  // One page
  // ---------------------------------------------------------------------------

  /** The story dictionary built for an article. */
  function ItemStory(p: Project, a: Article, o: Oracles): (r: StoryDict)
    ensures r.url == a.link && r.source == Newscatcher && r.projectId == p.id && r.language == p.language
    ensures r.title == a.title && r.authors == a.authors && r.sourcePublishDate == Some(a.publishedDate)
    ensures r.mediaUrl == o.canonicalDomain(a.link) && r.mediaName == r.mediaUrl
    ensures r.publishDate.Missing? && r.logDbId.None?
  {
    NewStoryDict(a.link, p.id, Newscatcher, a.title, p.language, o.canonicalDomain(a.link), o.canonicalDomain(a.link))
      .(sourcePublishDate := Some(a.publishedDate), authors := a.authors)
  }

  /** The articles whose normalized link is not among the recently processed URLs, as
      stories, in order: the reference for what a page contributes. */
  function Kept(items: seq<Article>, p: Project, recent: set<string>, o: Oracles): (r: seq<StoryDict>)
    ensures |r| <= |items|
  {
    if |items| == 0 then []
    else if o.normalizeUrl(items[0].link) in recent then Kept(items[1..], p, recent, o)
    else [ItemStory(p, items[0], o)] + Kept(items[1..], p, recent, o)
  }

  /** The `for item in articles` loop: stop once more than the cap is collected, skip (and
      count) an article whose normalized link was processed recently, keep the rest. */
  function TakeItems(stories: seq<StoryDict>, skipped: nat, items: seq<Article>, p: Project, recent: set<string>,
                     o: Oracles): (r: (seq<StoryDict>, nat))
    ensures |stories| <= |r.0| && r.0[..|stories|] == stories
    ensures r.1 >= skipped
    ensures |stories| <= MaxStoriesPerProject + 1 ==> |r.0| <= MaxStoriesPerProject + 1
    ensures forall i :: |stories| <= i < |r.0| ==> o.normalizeUrl(r.0[i].url) !in recent
    decreases |items|
  {
    if |items| == 0 || |stories| > MaxStoriesPerProject then (stories, skipped)
    else if o.normalizeUrl(items[0].link) in recent then TakeItems(stories, skipped + 1, items[1..], p, recent, o)
    else TakeItems(stories + [ItemStory(p, items[0], o)], skipped, items[1..], p, recent, o)
  }

  /** The page adds the kept stories of the articles it examined — all of them unless the cap
      stopped it — and `skipped_dupes` grows by the examined articles it did not keep. */
  lemma {:induction false} TakeItemsExamines(stories: seq<StoryDict>, skipped: nat, items: seq<Article>, p: Project,
                                             recent: set<string>, o: Oracles)
    ensures var r := TakeItems(stories, skipped, items, p, recent, o);
      exists n :: 0 <= n <= |items|
        && r.0 == stories + Kept(items[..n], p, recent, o)
        && r.1 == skipped + (n - |Kept(items[..n], p, recent, o)|)
        && (n < |items| ==> |r.0| > MaxStoriesPerProject)
    decreases |items|
  {
    var r := TakeItems(stories, skipped, items, p, recent, o);
    if |items| == 0 || |stories| > MaxStoriesPerProject {
      assert items[..0] == [];
      assert r.0 == stories + Kept(items[..0], p, recent, o);
    } else {
      var rest := items[1..];
      var kept0 := if o.normalizeUrl(items[0].link) in recent then [] else [ItemStory(p, items[0], o)];
      var stories' := stories + kept0;
      var skipped' := if o.normalizeUrl(items[0].link) in recent then skipped + 1 else skipped;
      if o.normalizeUrl(items[0].link) in recent {
        assert stories' == stories;
      }
      assert r == TakeItems(stories', skipped', rest, p, recent, o);
      TakeItemsExamines(stories', skipped', rest, p, recent, o);
      var m :| 0 <= m <= |rest|
        && r.0 == stories' + Kept(rest[..m], p, recent, o)
        && r.1 == skipped' + (m - |Kept(rest[..m], p, recent, o)|)
        && (m < |rest| ==> |r.0| > MaxStoriesPerProject);
      KeptCons(items, m, p, recent, o);
      Seqs.AppendAssoc(stories, kept0, Kept(rest[..m], p, recent, o));
      assert r.0 == stories + Kept(items[..m + 1], p, recent, o);
    }
  }

  /** The kept stories of the first `m + 1` articles: the first one's, then the next `m`'s. */
  lemma KeptCons(items: seq<Article>, m: nat, p: Project, recent: set<string>, o: Oracles)
    requires m < |items|
    ensures Kept(items[..m + 1], p, recent, o)
         == (if o.normalizeUrl(items[0].link) in recent then [] else [ItemStory(p, items[0], o)])
            + Kept(items[1..][..m], p, recent, o)
  {
    var head := items[..m + 1];
    assert head[0] == items[0];
    assert head[1..] == items[1..][..m];
  }

  /** The parsed dates of a page's articles. `max` of an empty list raises `ValueError`;
      a date that does not parse is `None`, and comparing it raises `TypeError`. */
  function PageDates(items: seq<Article>, parse: string -> Option<int>): (r: Result<seq<int>>)
    ensures r.Ok? <==> |items| > 0 && forall i :: 0 <= i < |items| ==> parse(items[i].publishedDate).Some?
    ensures r.Ok? ==> (|r.value| == |items|
      && forall i :: 0 <= i < |items| ==> r.value[i] == parse(items[i].publishedDate).value)
  {
    if |items| == 0 then Err(ValueError(EmptyMax))
    else if exists i :: 0 <= i < |items| && parse(items[i].publishedDate).None? then
      Err(TypeError(CompareNone))
    else Ok(ParsedDates(items, parse))
  }

  function ParsedDates(items: seq<Article>, parse: string -> Option<int>): (r: seq<int>)
    requires forall i :: 0 <= i < |items| ==> parse(items[i].publishedDate).Some?
    ensures |r| == |items| && forall i :: 0 <= i < |items| ==> r[i] == parse(items[i].publishedDate).value
  {
    seq(|items|, i requires 0 <= i < |items| => parse(items[i].publishedDate).value)
  }

  // ---------------------------------------------------------------------------
  // The paging loop
  // ---------------------------------------------------------------------------

  /** `math.ceil(total_hits / PAGE_SIZE)` for a positive count. */
  function PageCount(totalHits: int): (r: nat)
    requires totalHits > 0
    ensures r >= 1 && (r - 1) * PageSize < totalHits <= r * PageSize
  {
    (totalHits + PageSize - 1) / PageSize
  }

  /** The loop's state: the collected stories, `skipped_dupes`, `latest_pub_date` and the
      number of the page in hand. */
  datatype NcRun = NcRun(stories: seq<StoryDict>, skipped: nat, latest: int, page: nat)

  /** The `while keep_going` loop over the page in hand, `current`: raise the watermark to
      the page's latest date, take its items, and go on to the next page only while pages
      remain and the cap is not passed; any exception escapes. */
  function Paging(st: NcRun, current: NcPage, pageCount: nat, p: Project, fetch: nat -> Result<NcPage>,
                  recent: set<string>, o: Oracles): (r: Result<NcRun>)
    requires st.page <= pageCount
    ensures r.Ok? ==> st.page <= r.value.page <= pageCount
    ensures r.Ok? ==> r.value.latest >= st.latest
    ensures r.Ok? ==> |st.stories| <= |r.value.stories| && r.value.stories[..|st.stories|] == st.stories
    ensures r.Ok? ==> forall i :: |st.stories| <= i < |r.value.stories| ==>
      o.normalizeUrl(r.value.stories[i].url) !in recent
    ensures r.Ok? && |st.stories| <= MaxStoriesPerProject + 1 ==> |r.value.stories| <= MaxStoriesPerProject + 1
    decreases pageCount - st.page
  {
    var dates :- PageDates(current.articles, o.parseDate);
    var latest := Max(st.latest, SeqMax(dates));
    var taken := TakeItems(st.stories, st.skipped, current.articles, p, recent, o);
    var done := NcRun(taken.0, taken.1, latest, st.page);
    if st.page < pageCount && |taken.0| <= MaxStoriesPerProject then
      var next :- fetch(st.page + 1);
      var r :- Paging(done.(page := st.page + 1), next, pageCount, p, fetch, recent, o);
      Ok(r)
    else Ok(done)
  }

  /** The loop stops early only because the cap was passed: it requests every page of the
      hit count unless more than the cap was collected first. */
  lemma {:induction false} PagingStopsAtCapOrEnd(st: NcRun, current: NcPage, pageCount: nat, p: Project,
                                                 fetch: nat -> Result<NcPage>, recent: set<string>, o: Oracles)
    requires st.page <= pageCount
    requires Paging(st, current, pageCount, p, fetch, recent, o).Ok?
    ensures var r := Paging(st, current, pageCount, p, fetch, recent, o).value;
      r.page < pageCount ==> |r.stories| > MaxStoriesPerProject
    decreases pageCount - st.page
  {
    var dates := PageDates(current.articles, o.parseDate).value;
    var taken := TakeItems(st.stories, st.skipped, current.articles, p, recent, o);
    var done := NcRun(taken.0, taken.1, Max(st.latest, SeqMax(dates)), st.page);
    if st.page < pageCount && |taken.0| <= MaxStoriesPerProject {
      var next := fetch(st.page + 1).value;
      PagingStopsAtCapOrEnd(done.(page := st.page + 1), next, pageCount, p, fetch, recent, o);
    }
  }

  /** Every date of a page that parses is at most the page's maximum. */
  lemma PageDatesBelowMax(items: seq<Article>, parse: string -> Option<int>)
    requires PageDates(items, parse).Ok?
    ensures forall a :: a in items ==>
      parse(a.publishedDate).Some? && parse(a.publishedDate).value <= SeqMax(PageDates(items, parse).value)
  {
    var dates := PageDates(items, parse).value;
    forall a | a in items
      ensures parse(a.publishedDate).Some? && parse(a.publishedDate).value <= SeqMax(dates)
    {
      var i :| 0 <= i < |items| && items[i] == a;
      assert dates[i] <= SeqMax(dates);
    }
  }

  /** `latest_pub_date` is at least every parsed date of the page in hand. */
  lemma PagingLatestCoversPage(st: NcRun, current: NcPage, pageCount: nat, p: Project, fetch: nat -> Result<NcPage>,
                               recent: set<string>, o: Oracles)
    requires st.page <= pageCount
    requires Paging(st, current, pageCount, p, fetch, recent, o).Ok?
    ensures forall a :: a in current.articles ==>
      && o.parseDate(a.publishedDate).Some?
      && o.parseDate(a.publishedDate).value <= Paging(st, current, pageCount, p, fetch, recent, o).value.latest
  {
    PageDatesBelowMax(current.articles, o.parseDate);
  }

  /** ... and of every page the loop requested after it. */
  lemma {:induction false} PagingLatestCoversRequested(st: NcRun, current: NcPage, pageCount: nat, p: Project,
                                                       fetch: nat -> Result<NcPage>, recent: set<string>,
                                                       o: Oracles)
    requires st.page <= pageCount
    requires Paging(st, current, pageCount, p, fetch, recent, o).Ok?
    ensures var r := Paging(st, current, pageCount, p, fetch, recent, o).value;
      forall n :: st.page < n <= r.page ==>
        && fetch(n).Ok?
        && forall a :: a in fetch(n).value.articles ==>
             o.parseDate(a.publishedDate).Some? && o.parseDate(a.publishedDate).value <= r.latest
    decreases pageCount - st.page
  {
    var dates := PageDates(current.articles, o.parseDate).value;
    var taken := TakeItems(st.stories, st.skipped, current.articles, p, recent, o);
    var done := NcRun(taken.0, taken.1, Max(st.latest, SeqMax(dates)), st.page);
    if st.page < pageCount && |taken.0| <= MaxStoriesPerProject {
      var st' := done.(page := st.page + 1);
      var next := fetch(st.page + 1).value;
      assert Paging(st, current, pageCount, p, fetch, recent, o)
          == Paging(st', next, pageCount, p, fetch, recent, o);
      PagingLatestCoversPage(st', next, pageCount, p, fetch, recent, o);
      PagingLatestCoversRequested(st', next, pageCount, p, fetch, recent, o);
      var r := Paging(st', next, pageCount, p, fetch, recent, o).value;
      forall n | st.page < n <= r.page
        ensures fetch(n).Ok?
        ensures forall a :: a in fetch(n).value.articles ==>
          o.parseDate(a.publishedDate).Some? && o.parseDate(a.publishedDate).value <= r.latest
      {
        if n == st'.page {
          assert fetch(n).value == next;
        }
      }
    }
  }

  // ---------------------------------------------------------------------------
  // The project worker
  // ---------------------------------------------------------------------------

  /** `_project_story_worker` as written: `query_start_end_dates` returns three values and the
      worker unpacks two, so every call raises before the first search. */
  function ProjectStoryWorker(p: Project, history: Option<ProjectHistory>, now: int, parse: string -> Option<int>)
    : (r: Result<seq<StoryDict>>)
    ensures r.Err?
    ensures Projects.QueryStartEndDates(p, history, now, DayOffset, DayWindow, Newscatcher, true, parse).Ok? ==>
      r.failure.ValueError?
  {
    var window :- Projects.QueryStartEndDates(p, history, now, DayOffset, DayWindow, Newscatcher, true, parse);
    Err(ValueError(UnpackTwo))
  }

  /** `fetch_project_stories`: the workers run project by project and the first exception
      escapes, so only an empty project list gets through. */
  function FetchProjectStories(projects: seq<Project>, histories: ProjectsDb.Histories, now: int,
                               parse: string -> Option<int>): (r: Result<seq<StoryDict>>)
    ensures r.Ok? <==> |projects| == 0
    ensures |projects| > 0 ==>
      r == ProjectStoryWorker(projects[0], ProjectsDb.GetHistory(histories, projects[0].id), now, parse)
  {
    if |projects| == 0 then Ok([])
    else
      // The first project's worker raises, and nothing catches it.
      var first := ProjectStoryWorker(projects[0], ProjectsDb.GetHistory(histories, projects[0].id), now, parse);
      Err(first.failure)
  }

  /** What one project's worker does with a window: the stories it returns, with the loop's
      counters and the histories after the watermark write. */
  datatype NcOutcome = NcOutcome(stories: seq<StoryDict>, skipped: nat, pages: nat, latest: Option<int>,
                                 histories: ProjectsDb.Histories)

  /** The worker after the window: the first page gives the hit count; without hits nothing
      else happens; otherwise the recent URLs are read, the pages are walked from the first,
      the Newscatcher watermark is written, and at most the cap of stories is returned. */
  function WorkerAfterWindow(l: Ledger, h: ProjectsDb.Histories, p: Project, start: int, end: int, search: Search,
                             now: int, o: Oracles): (r: Result<NcOutcome>)
    ensures r.Ok? ==> |r.value.stories| <= MaxStoriesPerProject
    ensures r.Ok? ==> forall i :: 0 <= i < |r.value.stories| ==>
      o.normalizeUrl(r.value.stories[i].url) !in ProjectStoryNormalizedUrls(l, p.id, RecentDays, now)
    ensures r.Ok? && r.value.latest.None? ==> r.value.stories == [] && r.value.histories == h && r.value.pages == 1
    ensures r.Ok? && r.value.latest.Some? ==>
      && r.value.latest.value >= now - LookBack
      && ProjectsDb.UpdateHistory(h, p.id, r.value.latest.value, Newscatcher, now).Ok?
      && r.value.histories == ProjectsDb.UpdateHistory(h, p.id, r.value.latest.value, Newscatcher, now).value
  {
    var first :- FetchResults(p, start, end, 1, search);
    if first.totalHits <= 0 then Ok(NcOutcome([], 0, 1, None, h))
    else
      var recent := ProjectStoryNormalizedUrls(l, p.id, RecentDays, now);
      var run :- Paging(NcRun([], 0, now - LookBack, 1), first, PageCount(first.totalHits), p,
                        Pages(p, start, end, search), recent, o);
      var h' :- ProjectsDb.UpdateHistory(h, p.id, run.latest, Newscatcher, now);
      var n := if |run.stories| < MaxStoriesPerProject then |run.stories| else MaxStoriesPerProject;
      Ok(NcOutcome(run.stories[..n], run.skipped, run.page, Some(run.latest), h'))
  }

  /** Zero hits: the first page is the only request, nothing is returned, and the history
      is not written. */
  lemma NoHitsNoHistory(l: Ledger, h: ProjectsDb.Histories, p: Project, start: int, end: int, search: Search,
                        now: int, o: Oracles)
    requires FetchResults(p, start, end, 1, search).Ok? && FetchResults(p, start, end, 1, search).value.totalHits <= 0
    ensures WorkerAfterWindow(l, h, p, start, end, search, now, o) == Ok(NcOutcome([], 0, 1, None, h))
  {
  }

  /** With hits, the worker requests no more pages than the hit count needs, and fewer only
      when more than the cap was collected. */
  lemma PagesWithinHitCount(l: Ledger, h: ProjectsDb.Histories, p: Project, start: int, end: int, search: Search,
                            now: int, o: Oracles)
    requires WorkerAfterWindow(l, h, p, start, end, search, now, o).Ok?
    requires FetchResults(p, start, end, 1, search).Ok? && FetchResults(p, start, end, 1, search).value.totalHits > 0
    ensures var r := WorkerAfterWindow(l, h, p, start, end, search, now, o).value;
      var pages := PageCount(FetchResults(p, start, end, 1, search).value.totalHits);
      && 1 <= r.pages <= pages
      && (r.pages < pages ==> |r.stories| == MaxStoriesPerProject)
  {
    var first := FetchResults(p, start, end, 1, search).value;
    var recent := ProjectStoryNormalizedUrls(l, p.id, RecentDays, now);
    PagingStopsAtCapOrEnd(NcRun([], 0, now - LookBack, 1), first, PageCount(first.totalHits), p,
                          Pages(p, start, end, search), recent, o);
  }

  // ---------------------------------------------------------------------------
  // Text fetching
  // ---------------------------------------------------------------------------

  /** The URLs of the stories. */
  function Urls(stories: seq<StoryDict>): (r: seq<string>)
    ensures |r| == |stories| && forall i :: 0 <= i < |stories| ==> r[i] == stories[i].url
  {
    seq(|stories|, i requires 0 <= i < |stories| => stories[i].url)
  }

  /** `list(set(urls))`: each URL once. */
  function RequestedUrls(stories: seq<StoryDict>): (r: seq<string>)
    ensures NoDuplicates(r)
    ensures forall u :: u in r <==> exists i :: 0 <= i < |stories| && stories[i].url == u
  {
    var urls := Urls(stories);
    assert forall i :: 0 <= i < |stories| ==> urls[i] == stories[i].url;
    Dedup(urls)
  }

  /** A story with the text and date extracted from its fetched page. */
  function WithText(s: StoryDict, e: Tasks.Extracted): (r: StoryDict)
    ensures r == s.(storyText := r.storyText, publishDate := r.publishDate)
    ensures r.storyText == Some(e.textContent)
    ensures r.publishDate.At? <==> e.publicationDate.Some?
    ensures e.publicationDate.Some? ==> r.publishDate == At(e.publicationDate.value)
    ensures e.publicationDate.None? ==> r.publishDate == Null
  {
    s.(storyText := Some(e.textContent),
       publishDate := match e.publicationDate case Some(t) => At(t) case None => Null)
  }

  /** The key `handle_parse` reads the page from: `response_data["content"]`. */
  const ContentKey := "content"

  /** What one call of `handle_parse` did: the stories it appended, and the exception it
      raised, if any (the spider logs it and carries on). */
  datatype Handled = Handled(appended: seq<StoryDict>, raised: Option<Failure>)

  /** The loop of `handle_parse` over the input stories with the response's URL, in input
      order — stories of several projects can share a URL. `content` is the page lookup
      `response_data[key]`, made for each matching story; a failed lookup raises before the
      story is appended. `extract` is `metadata.extract`, which can raise too; either
      exception ends the loop, so later matching stories are not appended. */
  function Matching(stories: seq<StoryDict>, url: string, content: Result<string>,
                    extract: (string, string) -> Result<Tasks.Extracted>): (r: Handled)
    ensures |r.appended| <= |stories|
  {
    if |stories| == 0 then Handled([], None)
    else
      var n := |stories| - 1;
      var prev := Matching(stories[..n], url, content, extract);
      if prev.raised.Some? || stories[n].url != url then prev
      else match content
        case Err(f) => Handled(prev.appended, Some(f))
        case Ok(c) =>
          match extract(stories[n].url, c)
          case Err(f) => Handled(prev.appended, Some(f))
          case Ok(e) => Handled(prev.appended + [WithText(stories[n], e)], None)
  }

  /** `handle_parse` on the dict the spider built, reading the page under `key`. */
  function HandleParse(stories: seq<StoryDict>, d: Fetcher.StoryData, key: string,
                       extract: (string, string) -> Result<Tasks.Extracted>): (r: Handled)
  {
    match Fetcher.Get(d, Fetcher.OriginalUrlKey)
    case Err(f) => Handled([], Some(f))
    case Ok(url) => Matching(stories, url, Fetcher.Get(d, key), extract)
  }

  /** The callbacks in the order of the requested URLs; a URL whose fetch failed gets no
      callback, and a callback that raised appends nothing more. */
  function Responses(urls: seq<string>, stories: seq<StoryDict>, fetchHtml: string -> Option<string>,
                     key: string, extract: (string, string) -> Result<Tasks.Extracted>): (r: seq<StoryDict>)
  {
    if |urls| == 0 then []
    else
      (match fetchHtml(urls[0])
       case None => []
       case Some(html) => HandleParse(stories, Fetcher.ParsedStory(html, urls[0], urls[0]), key, extract).appended)
      + Responses(urls[1..], stories, fetchHtml, key, extract)
  }

  /** `fetch_text` as written: the callback reads the page from `"content"`. */
  function FetchText(stories: seq<StoryDict>, fetchHtml: string -> Option<string>,
                     extract: (string, string) -> Result<Tasks.Extracted>): (r: seq<StoryDict>)
  {
    Responses(RequestedUrls(stories), stories, fetchHtml, ContentKey, extract)
  }

  /** `fetch_text` as evidently intended: the callback reads the page from the
      `"html_content"` key the spider sets. */
  function FetchTextIntended(stories: seq<StoryDict>, fetchHtml: string -> Option<string>,
                             extract: (string, string) -> Result<Tasks.Extracted>): (r: seq<StoryDict>)
  {
    Responses(RequestedUrls(stories), stories, fetchHtml, Fetcher.HtmlContentKey, extract)
  }

  /** When the page lookup fails, the first story with the response's URL raises its
      `KeyError` and nothing is appended; without such a story nothing is raised either. */
  lemma {:induction false} MatchingRaises(stories: seq<StoryDict>, url: string, content: Result<string>,
                                          extract: (string, string) -> Result<Tasks.Extracted>)
    requires content.Err?
    ensures var r := Matching(stories, url, content, extract);
      && r.appended == []
      && (r.raised.Some? <==> exists i :: 0 <= i < |stories| && stories[i].url == url)
      && (r.raised.Some? ==> r.raised.value == content.failure)
  {
    if |stories| > 0 {
      var n := |stories| - 1;
      MatchingRaises(stories[..n], url, content, extract);
      assert forall i :: 0 <= i < n ==> stories[..n][i] == stories[i];
    }
  }

  /** As written, every callback for a requested story raises `KeyError("content")`: the
      spider's dict has no such key. */
  lemma HandleParseRaises(stories: seq<StoryDict>, html: string, url: string,
                          extract: (string, string) -> Result<Tasks.Extracted>)
    requires exists i :: 0 <= i < |stories| && stories[i].url == url
    ensures HandleParse(stories, Fetcher.ParsedStory(html, url, url), ContentKey, extract)
      == Handled([], Some(KeyError(ContentKey)))
  {
    Fetcher.OnlySpiderKeys(html, url, url, ContentKey);
    MatchingRaises(stories, url, Fetcher.Get(Fetcher.ParsedStory(html, url, url), ContentKey), extract);
  }

  lemma {:induction false} ResponsesEmpty(urls: seq<string>, stories: seq<StoryDict>,
                                          fetchHtml: string -> Option<string>,
                                          extract: (string, string) -> Result<Tasks.Extracted>)
    ensures Responses(urls, stories, fetchHtml, ContentKey, extract) == []
  {
    if |urls| > 0 {
      ResponsesEmpty(urls[1..], stories, fetchHtml, extract);
      if fetchHtml(urls[0]).Some? {
        var html := fetchHtml(urls[0]).value;
        Fetcher.OnlySpiderKeys(html, urls[0], urls[0], ContentKey);
        MatchingRaises(stories, urls[0], Fetcher.Get(Fetcher.ParsedStory(html, urls[0], urls[0]), ContentKey), extract);
      }
    }
  }

  /** As written, `fetch_text` returns no story at all, whatever was fetched. */
  lemma FetchTextReturnsNothing(stories: seq<StoryDict>, fetchHtml: string -> Option<string>,
                                extract: (string, string) -> Result<Tasks.Extracted>)
    ensures FetchText(stories, fetchHtml, extract) == []
  {
    ResponsesEmpty(RequestedUrls(stories), stories, fetchHtml, extract);
  }

  /** The page of a story was fetched and `metadata.extract` read it without raising. */
  predicate Extracts(s: StoryDict, fetchHtml: string -> Option<string>,
                     extract: (string, string) -> Result<Tasks.Extracted>)
  {
    fetchHtml(s.url).Some? && extract(s.url, fetchHtml(s.url).value).Ok?
  }

  /** The text of a story whose page was fetched and read. */
  function Fetched(s: StoryDict, fetchHtml: string -> Option<string>,
                   extract: (string, string) -> Result<Tasks.Extracted>): StoryDict
    requires Extracts(s, fetchHtml, extract)
  {
    WithText(s, extract(s.url, fetchHtml(s.url).value).value)
  }

  /** When the page lookup succeeds, the outcome turns on whether `metadata.extract` reads
      the page: if it does, nothing is raised and exactly the stories with the response's
      URL are appended, each with the extracted text; if it raises, the first such story
      raises it and nothing is appended. Every matching story shares the URL and the page,
      so the extraction succeeds for all of them or for none. */
  lemma {:induction false} MatchingExactly(stories: seq<StoryDict>, url: string, content: string,
                                           extract: (string, string) -> Result<Tasks.Extracted>)
    ensures extract(url, content).Ok? ==> Matching(stories, url, Ok(content), extract).raised.None?
    ensures extract(url, content).Ok? ==>
      forall x :: x in Matching(stories, url, Ok(content), extract).appended <==>
        exists i :: 0 <= i < |stories| && stories[i].url == url && x == WithText(stories[i], extract(url, content).value)
    ensures extract(url, content).Err? ==>
      && Matching(stories, url, Ok(content), extract).appended == []
      && (Matching(stories, url, Ok(content), extract).raised.Some? <==>
          exists i :: 0 <= i < |stories| && stories[i].url == url)
  {
    if |stories| > 0 {
      var n := |stories| - 1;
      MatchingExactly(stories[..n], url, content, extract);
      assert forall i :: 0 <= i < n ==> stories[..n][i] == stories[i];
    }
  }

  lemma {:induction false} ResponsesExactly(urls: seq<string>, stories: seq<StoryDict>,
                                            fetchHtml: string -> Option<string>,
                                            extract: (string, string) -> Result<Tasks.Extracted>)
    ensures forall x :: x in Responses(urls, stories, fetchHtml, Fetcher.HtmlContentKey, extract) <==>
      exists i :: 0 <= i < |stories| && stories[i].url in urls && Extracts(stories[i], fetchHtml, extract)
                  && x == Fetched(stories[i], fetchHtml, extract)
  {
    if |urls| > 0 {
      ResponsesExactly(urls[1..], stories, fetchHtml, extract);
      var u := urls[0];
      if fetchHtml(u).Some? {
        Fetcher.OnlySpiderKeys(fetchHtml(u).value, u, u, Fetcher.HtmlContentKey);
        MatchingExactly(stories, u, fetchHtml(u).value, extract);
      }
      forall x ensures x in Responses(urls, stories, fetchHtml, Fetcher.HtmlContentKey, extract) <==>
        exists i :: 0 <= i < |stories| && stories[i].url in urls && Extracts(stories[i], fetchHtml, extract)
                    && x == Fetched(stories[i], fetchHtml, extract)
      {
        if exists i :: 0 <= i < |stories| && stories[i].url in urls && Extracts(stories[i], fetchHtml, extract)
                       && x == Fetched(stories[i], fetchHtml, extract) {
          var i :| 0 <= i < |stories| && stories[i].url in urls && Extracts(stories[i], fetchHtml, extract)
                   && x == Fetched(stories[i], fetchHtml, extract);
          if stories[i].url != u {
            assert stories[i].url in urls[1..];
          }
        }
      }
    }
  }

  /** Read from `"html_content"`, `fetch_text` would return exactly the input stories whose
      page was fetched and read, each with the text extracted from its page; a story whose
      fetch failed, or whose page `metadata.extract` could not read, is dropped. */
  lemma FetchTextIntendedExactly(stories: seq<StoryDict>, fetchHtml: string -> Option<string>,
                                 extract: (string, string) -> Result<Tasks.Extracted>)
    ensures forall x :: x in FetchTextIntended(stories, fetchHtml, extract) <==>
      exists i :: 0 <= i < |stories| && Extracts(stories[i], fetchHtml, extract) && x == Fetched(stories[i], fetchHtml, extract)
  {
    ResponsesExactly(RequestedUrls(stories), stories, fetchHtml, extract);
  }
}

=== FILE: projects.dfy ===
/** Project configuration helpers (`processor/projects.py`): the country filter, the
    confidence filter, the posting payload and guard, the query window and the history
    bootstrap of `load_project_list`.
 */
module Projects {
  import opened Base
  import opened Models
  import opened Seqs
  import ProjectsDb

  /** The messages of the exceptions raised here. */
  const PostFailed := "Tried to post to project but got an error code"
  const NoLatestDate := "'NoneType' object has no attribute 'latest_date'"

  // ---------------------------------------------------------------------------
  // Filters
  // ---------------------------------------------------------------------------

  /** A project Newscatcher can be asked about: its country is set and two letters long. */
  predicate HasCountry(p: Project) {
    p.newscatcherCountry.Some? && |p.newscatcherCountry.value| == 2
  }

  /** `with_countries`: the projects with a two-letter country, in their original order. */
  function WithCountries(projects: seq<Project>): (r: seq<Project>)
    ensures forall p :: p in r <==> p in projects && HasCountry(p)
    ensures forall p :: multiset(r)[p] == if HasCountry(p) then multiset(projects)[p] else 0
  {
    var r := Filter(projects, HasCountry);
    forall p ensures multiset(r)[p] == if HasCountry(p) then multiset(projects)[p] else 0 {
      FilterMultiset(projects, HasCountry, p);
    }
    r
  }

  /** Whether a story scored at least the threshold; a story without `confidence` does not. */
  predicate Confident(threshold: real, s: StoryDict) {
    s.confidence.Some? && s.confidence.value >= threshold
  }

  /** `remove_low_confidence_stories`: the stories scored at least the threshold, in order.
      The comprehension reads `confidence` from every story, so one without it raises. */
  function RemoveLowConfidenceStories(threshold: real, stories: seq<StoryDict>): (r: Result<seq<StoryDict>>)
    ensures r.Ok? <==> forall i :: 0 <= i < |stories| ==> stories[i].confidence.Some?
    ensures r.Err? ==> r.failure == KeyError("confidence")
    ensures r.Ok? ==> forall s :: s in r.value <==> s in stories && s.confidence.value >= threshold
    ensures r.Ok? ==> forall s :: multiset(r.value)[s] == if Confident(threshold, s) then multiset(stories)[s] else 0
  {
    if exists i :: 0 <= i < |stories| && stories[i].confidence.None? then Err(KeyError("confidence"))
    else
      var kept := Filter(stories, (s: StoryDict) => Confident(threshold, s));
      forall s ensures multiset(kept)[s] == if Confident(threshold, s) then multiset(stories)[s] else 0 {
        FilterMultiset(stories, (s: StoryDict) => Confident(threshold, s), s);
      }
      Ok(kept)
  }

  /** On stories that all carry a confidence, the filter is the stable filter by
      `Confident`. */
  lemma RemoveLowConfidenceIsFilter(threshold: real, stories: seq<StoryDict>)
    requires forall i :: 0 <= i < |stories| ==> stories[i].confidence.Some?
    ensures RemoveLowConfidenceStories(threshold, stories) == Ok(Filter(stories, (s: StoryDict) => Confident(threshold, s)))
  {
  }

  /** The filter keeps order: filtering two batches one after the other is filtering their
      concatenation. */
  lemma RemoveLowConfidenceAppend(threshold: real, a: seq<StoryDict>, b: seq<StoryDict>)
    requires RemoveLowConfidenceStories(threshold, a).Ok? && RemoveLowConfidenceStories(threshold, b).Ok?
    ensures var ab := RemoveLowConfidenceStories(threshold, a + b);
      && ab.Ok?
      && ab.value == RemoveLowConfidenceStories(threshold, a).value + RemoveLowConfidenceStories(threshold, b).value
  {
    var f := (s: StoryDict) => Confident(threshold, s);
    forall i | 0 <= i < |a + b| ensures (a + b)[i].confidence.Some? {
      if i >= |a| {
        assert (a + b)[i] == b[i - |a|];
      }
    }
    RemoveLowConfidenceIsFilter(threshold, a);
    RemoveLowConfidenceIsFilter(threshold, b);
    RemoveLowConfidenceIsFilter(threshold, a + b);
    FilterAppend(a, b, f);
  }

  /** Filtering the kept stories again keeps them all. */
  lemma RemoveLowConfidenceIdempotent(threshold: real, stories: seq<StoryDict>)
    requires RemoveLowConfidenceStories(threshold, stories).Ok?
    ensures var once := RemoveLowConfidenceStories(threshold, stories).value;
      RemoveLowConfidenceStories(threshold, once) == Ok(once)
  {
    var f := (s: StoryDict) => Confident(threshold, s);
    RemoveLowConfidenceIsFilter(threshold, stories);
    var once := Filter(stories, f);
    RemoveLowConfidenceIsFilter(threshold, once);
    FilterIdempotent(stories, f);
  }

  // ---------------------------------------------------------------------------
  // Posting
  // ---------------------------------------------------------------------------

  /** One story as sent to the central server. */
  datatype PostedStory = PostedStory(
    source: Source,
    language: string,
    mediaId: Option<int>,
    mediaUrl: string,
    mediaName: string,
    publishDate: PubDate,
    storyTags: Option<seq<string>>,
    title: string,
    url: string,
    entities: Option<seq<string>>,
    confidence: real,
    logDbId: nat,
    projectId: int,
    languageModelId: int)

  /** The payload entry for one story, or the key its dictionary lacks. */
  function PrepStory(p: Project, s: StoryDict): (r: Result<PostedStory>)
    ensures r.Ok? <==> s.publishDate != Missing && s.confidence.Some? && s.logDbId.Some?
  {
    if s.publishDate == Missing then Err(KeyError("publish_date"))
    else if s.confidence.None? then Err(KeyError("confidence"))
    else if s.logDbId.None? then Err(KeyError("log_db_id"))
    else Ok(PostedStory(s.source, s.language, s.mediaId, s.mediaUrl, s.mediaName, s.publishDate, s.storyTags,
                        s.title, s.url, s.entities.GetOr(None), s.confidence.value, s.logDbId.value,
                        p.id, p.languageModelId))
  }

  /** `prep_stories_for_posting`: one payload entry per story, in order. The project's id and
      model id are stamped on each; confidence and `log_db_id` come from the story; absent
      `media_id`, `story_tags` and `entities` become `None`. */
  function PrepStoriesForPosting(p: Project, stories: seq<StoryDict>): (r: Result<seq<PostedStory>>)
    ensures r.Ok? <==> forall i :: 0 <= i < |stories| ==> PrepStory(p, stories[i]).Ok?
    ensures r.Ok? ==> |r.value| == |stories|
    ensures r.Ok? ==> forall i :: 0 <= i < |stories| ==>
      && r.value[i].projectId == p.id
      && r.value[i].languageModelId == p.languageModelId
      && Some(r.value[i].confidence) == stories[i].confidence
      && Some(r.value[i].logDbId) == stories[i].logDbId
      && r.value[i].url == stories[i].url
      && r.value[i].mediaId == stories[i].mediaId
      && r.value[i].storyTags == stories[i].storyTags
      && (stories[i].entities.None? ==> r.value[i].entities.None?)
      && (stories[i].entities.Some? ==> r.value[i].entities == stories[i].entities.value)
  {
    if |stories| == 0 then Ok([])
    else
      var n := |stories| - 1;
      assert forall i :: 0 <= i < n ==> stories[..n][i] == stories[i];
      match PrepStoriesForPosting(p, stories[..n])
      case Err(f) => Err(f)
      case Ok(prev) =>
        match PrepStory(p, stories[n])
        case Err(f) => Err(f)
        case Ok(x) => Ok(prev + [x])
  }

  /** What the central server's endpoint does with a post. */
  datatype PostReply = Accepted | Rejected(status: int) | Unreachable(what: string)

  /** Whether `post_results` sent anything. */
  datatype PostOutcome = NothingToSend | Sent

  /** `post_results`: an empty list is not sent; otherwise the stories are posted and a reply
      that is not ok raises, as does a request that fails. */
  function PostResults(p: Project, stories: seq<PostedStory>, reply: PostReply): (r: Result<PostOutcome>)
    ensures |stories| == 0 <==> r == Ok(NothingToSend)
    ensures r == Ok(Sent) <==> |stories| > 0 && reply == Accepted
    ensures r.Err? ==> |stories| > 0 && reply != Accepted
    ensures |stories| > 0 && reply.Rejected? ==> r.Err? && r.failure.RuntimeError?
    ensures |stories| > 0 && reply.Unreachable? ==> r == Err(RemoteError(reply.what))
  {
    if |stories| == 0 then Ok(NothingToSend)
    else
      match reply
      case Accepted => Ok(Sent)
      case Rejected(_) => Err(RuntimeError(PostFailed))
      case Unreachable(what) => Err(RemoteError(what))
  }

  // ---------------------------------------------------------------------------
  // Query window
  // ---------------------------------------------------------------------------

  /** The triple `query_start_end_dates` returns. */
  datatype Window = Window(start: int, end: int, history: Option<ProjectHistory>)

  /** The project's own start date, when it is set and parses. */
  function ProjectStart(p: Project, parse: string -> Option<int>): Option<int> {
    match p.startDate
    case None => None
    case Some(s) => parse(s)
  }

  /** `query_start_end_dates`: `end` is `day_offset` days before now; `start` is `day_window`
      days before `end`, raised to the project's start date when that parses, and, when
      `use_last_date` is set and the history has a date for the source, raised to one day
      before that date. The source's column is read before the `None` check on the history,
      so a missing history with `use_last_date` and a source that has a column raises. */
  function QueryStartEndDates(p: Project, history: Option<ProjectHistory>, now: int, dayOffset: int,
                              dayWindow: int, source: Source, useLastDate: bool,
                              parse: string -> Option<int>): (r: Result<Window>)
    ensures r.Err? <==> useLastDate && source != GoogleAlerts && history.None?
    ensures r.Err? ==> r.failure.AttributeError?
    ensures r.Ok? ==> r.value.end == now - dayOffset * Day && r.value.history == history
    ensures r.Ok? ==> r.value.start >= r.value.end - dayWindow * Day
    ensures r.Ok? && ProjectStart(p, parse).Some? ==> r.value.start >= ProjectStart(p, parse).value
    ensures r.Ok? && useLastDate && history.Some? && ProjectsDb.Watermark(history.value, source).Some? ==>
      r.value.start >= ProjectsDb.Watermark(history.value, source).value - Day
    ensures r.Ok? ==>
      || r.value.start == r.value.end - dayWindow * Day
      || (ProjectStart(p, parse).Some? && r.value.start == ProjectStart(p, parse).value)
      || (useLastDate && history.Some? && ProjectsDb.Watermark(history.value, source).Some?
          && r.value.start == ProjectsDb.Watermark(history.value, source).value - Day)
  {
    var end := now - dayOffset * Day;
    var start := match ProjectStart(p, parse)
      case Some(t) => Max(end - dayWindow * Day, t)
      case None => end - dayWindow * Day;
    if useLastDate && source != GoogleAlerts && history.None? then
      Err(AttributeError(NoLatestDate))
    else
      var lastDate := if useLastDate && source != GoogleAlerts then ProjectsDb.Watermark(history.value, source) else None;
      match lastDate
      case Some(d) => Ok(Window(Max(d - Day, start), end, history))
      case None => Ok(Window(start, end, history))
  }

  /** Without `use_last_date`, or for Google Alerts, the stored watermark plays no part:
      the window depends only on the clock and the project. */
  lemma WindowIgnoresHistoryWithoutLastDate(p: Project, h1: Option<ProjectHistory>, h2: Option<ProjectHistory>,
                                            now: int, dayOffset: int, dayWindow: int, source: Source,
                                            useLastDate: bool, parse: string -> Option<int>)
    requires !useLastDate || source == GoogleAlerts
    ensures var w1 := QueryStartEndDates(p, h1, now, dayOffset, dayWindow, source, useLastDate, parse);
      var w2 := QueryStartEndDates(p, h2, now, dayOffset, dayWindow, source, useLastDate, parse);
      w1.Ok? && w2.Ok? && w1.value.start == w2.value.start && w1.value.end == w2.value.end
  {
  }

  // ---------------------------------------------------------------------------
  // History bootstrap of `load_project_list`
  // ---------------------------------------------------------------------------

  /** The loop of `load_project_list` over the loaded projects: a project without a history
      row gets one, and with `overwrite_last_story` every project gets `add_history` again,
      which fails on a project whose row exists (the caller then exits). */
  function LoadHistories(h: ProjectsDb.Histories, projects: seq<Project>, overwrite: bool, now: int)
    : (r: Result<ProjectsDb.Histories>)
    ensures r.Ok? ==> forall i :: 0 <= i < |projects| ==> projects[i].id in r.value
    ensures r.Ok? ==> h.Keys <= r.value.Keys && forall q :: q in h ==> r.value[q] == h[q]
    ensures r.Ok? ==> forall q :: q in r.value && q !in h ==> r.value[q].createdAt == Some(now)
    ensures !overwrite ==> r.Ok?
    ensures overwrite && (exists i :: 0 <= i < |projects| && projects[i].id in h) ==> r.Err?
    decreases |projects|
  {
    if |projects| == 0 then Ok(h)
    else
      var n := |projects| - 1;
      match LoadHistories(h, projects[..n], overwrite, now)
      case Err(f) => Err(f)
      case Ok(prev) =>
        var id := projects[n].id;
        if ProjectsDb.GetHistory(prev, id).None? || overwrite then
          match ProjectsDb.AddHistory(prev, id, now)
          case Err(f) => Err(f)
          case Ok(next) => Ok(next)
        else Ok(prev)
  }
}

=== FILE: projects_db.dfy ===
/** The `projects` table of watermarks, one `ProjectHistory` row per project id
    (`processor/database/projects_db.py`). The table is a finite map from project id to row.
 */
module ProjectsDb {
  import opened Base
  import opened Models

  /** The first attribute `update_history` writes on the row for a source: its watermark
      column, or `updated_at` for a source without one. */
  function FirstWritten(source: Source): string {
    match source
    case MediaCloud => "latest_date_mc"
    case Newscatcher => "latest_date_nc"
    case WaybackMachine => "latest_date_wm"
    case GoogleAlerts => "updated_at"
  }

  /** The message of the `AttributeError` raised by writing `attribute` on `None`. */
  function NoAttribute(attribute: string): string {
    "'NoneType' object has no attribute '" + attribute + "'"
  }

  type Histories = map<int, ProjectHistory>

  /** The watermark column a source writes; Google Alerts has none. */
  function Watermark(h: ProjectHistory, source: Source): (r: Option<int>)
    ensures source == GoogleAlerts ==> r == None
  {
    match source
    case MediaCloud => h.latestDateMc
    case Newscatcher => h.latestDateNc
    case WaybackMachine => h.latestDateWm
    case GoogleAlerts => None
  }

  /** `add_history`: inserts a row for the project with every date unset except
      `created_at = updated_at = now`. The id is the primary key, so a second row for the
      same project fails the commit. */
  function AddHistory(h: Histories, projectId: int, now: int): (r: Result<Histories>)
    ensures r.Ok? <==> projectId !in h
    ensures r.Err? ==> r.failure == IntegrityError
    ensures r.Ok? ==> r.value.Keys == h.Keys + {projectId}
    ensures r.Ok? ==> forall q :: q in h ==> r.value[q] == h[q]
    ensures r.Ok? ==>
      && r.value[projectId].id == projectId
      && r.value[projectId].createdAt == Some(now)
      && r.value[projectId].updatedAt == Some(now)
      && r.value[projectId].lastPublishDate.None?
      && r.value[projectId].lastUrl.None?
      && (forall s: Source :: Watermark(r.value[projectId], s).None?)
  {
    if projectId in h then Err(IntegrityError)
    else Ok(h[projectId := ProjectHistory(projectId, None, None, None, None, None, Some(now), Some(now))])
  }

  /** `update_history`: writes `lastDate` into the column of its source, as given (no max
      with the stored value), and stamps `updated_at`; every other column and every other
      row stays. A source without a column only stamps `updated_at`. An unknown project id
      reads `None` from the session and the attribute write on it raises. */
  function UpdateHistory(h: Histories, projectId: int, lastDate: int, source: Source, now: int): (r: Result<Histories>)
    ensures r.Ok? <==> projectId in h
    ensures r.Err? ==> r.failure == AttributeError(NoAttribute(FirstWritten(source)))
    ensures r.Ok? ==> r.value.Keys == h.Keys
    ensures r.Ok? ==> forall q :: q in h && q != projectId ==> r.value[q] == h[q]
    ensures r.Ok? ==>
      && r.value[projectId].updatedAt == Some(now)
      && r.value[projectId].id == h[projectId].id
      && r.value[projectId].createdAt == h[projectId].createdAt
      && r.value[projectId].lastPublishDate == h[projectId].lastPublishDate
      && r.value[projectId].lastUrl == h[projectId].lastUrl
    ensures r.Ok? ==> forall s: Source ::
      Watermark(r.value[projectId], s) == (if s == source && s != GoogleAlerts then Some(lastDate)
                                           else Watermark(h[projectId], s))
  {
    if projectId !in h then Err(AttributeError(NoAttribute(FirstWritten(source))))
    else
      var row := h[projectId];
      var row' := match source
        case MediaCloud => row.(latestDateMc := Some(lastDate))
        case Newscatcher => row.(latestDateNc := Some(lastDate))
        case WaybackMachine => row.(latestDateWm := Some(lastDate))
        case GoogleAlerts => row;
      Ok(h[projectId := row'.(updatedAt := Some(now))])
  }

  /** `get_history`: the project's row, or `None` for an unknown id. */
  function GetHistory(h: Histories, projectId: int): (r: Option<ProjectHistory>)
    ensures r.Some? <==> projectId in h
    ensures r.Some? ==> r.value == h[projectId]
  {
    if projectId in h then Some(h[projectId]) else None
  }

  /** Whether every row sits under its own project id, as `add_history` writes it. */
  predicate KeyedById(h: Histories) {
    forall q :: q in h ==> h[q].id == q
  }

  /** Both writers keep every row under its own id, so `get_history` returns the row of the
      project asked for. */
  lemma WritersKeepKeyedById(h: Histories, projectId: int, lastDate: int, source: Source, now: int)
    requires KeyedById(h)
    ensures AddHistory(h, projectId, now).Ok? ==> KeyedById(AddHistory(h, projectId, now).value)
    ensures UpdateHistory(h, projectId, lastDate, source, now).Ok? ==>
      KeyedById(UpdateHistory(h, projectId, lastDate, source, now).value)
    ensures forall q :: GetHistory(h, q).Some? ==> GetHistory(h, q).value.id == q
  {
  }

  /** Reading back right after an update gives the value written, for a source with a column. */
  lemma UpdateThenGet(h: Histories, projectId: int, lastDate: int, source: Source, now: int)
    requires projectId in h && source != GoogleAlerts
    ensures var r := UpdateHistory(h, projectId, lastDate, source, now);
      && r.Ok?
      && GetHistory(r.value, projectId).Some?
      && Watermark(GetHistory(r.value, projectId).value, source) == Some(lastDate)
  {
  }

  /** Because the write is not a max, a later update with an older date moves the watermark
      back. */
  lemma UpdateCanMoveBackwards(h: Histories, projectId: int, older: int, source: Source, now: int)
    requires projectId in h && source != GoogleAlerts
    requires Watermark(h[projectId], source).Some? && older < Watermark(h[projectId], source).value
    ensures var r := UpdateHistory(h, projectId, older, source, now);
      r.Ok? && Watermark(r.value[projectId], source).value < Watermark(h[projectId], source).value
  {
  }

  /** A Google Alerts update only stamps `updated_at`. */
  lemma GoogleAlertsOnlyStamps(h: Histories, projectId: int, lastDate: int, now: int)
    requires projectId in h
    ensures var r := UpdateHistory(h, projectId, lastDate, GoogleAlerts, now);
      r.Ok? && r.value == h[projectId := h[projectId].(updatedAt := Some(now))]
  {
  }

  /** Neither writer ever sets `last_url` or `last_publish_date`: starting from rows without
      them, every row stays without them. */
  lemma WritersNeverSetLastUrl(h: Histories, projectId: int, lastDate: int, source: Source, now: int)
    requires forall q :: q in h ==> h[q].lastUrl.None? && h[q].lastPublishDate.None?
    ensures var r := AddHistory(h, projectId, now);
      r.Ok? ==> forall q :: q in r.value ==> r.value[q].lastUrl.None? && r.value[q].lastPublishDate.None?
    ensures var r := UpdateHistory(h, projectId, lastDate, source, now);
      r.Ok? ==> forall q :: q in r.value ==> r.value[q].lastUrl.None? && r.value[q].lastPublishDate.None?
  {
  }
}

=== FILE: seqs.dfy ===
/** Sequence helpers the pipeline uses in several places: Python's list-comprehension
    filter and `util.chunks`.
 */
module Seqs {

  /** `[x for x in s if f(x)]`. */
  function Filter<T>(s: seq<T>, f: T -> bool): (r: seq<T>)
    ensures |r| <= |s|
    ensures forall i :: 0 <= i < |r| ==> f(r[i])
    ensures forall i :: 0 <= i < |r| ==> r[i] in s
    ensures forall i :: 0 <= i < |s| && f(s[i]) ==> s[i] in r
  {
    if |s| == 0 then []
    else
      var n := |s| - 1;
      assert forall i :: 0 <= i < n ==> s[..n][i] == s[i];
      Filter(s[..n], f) + (if f(s[n]) then [s[n]] else [])
  }

  /** Filtering keeps relative order: the filter of a concatenation is the concatenation of
      the filters. */
  lemma {:induction false} FilterAppend<T>(a: seq<T>, b: seq<T>, f: T -> bool)
    ensures Filter(a + b, f) == Filter(a, f) + Filter(b, f)
    decreases |b|
  {
    if |b| > 0 {
      var n := |b| - 1;
      assert (a + b)[..|a + b| - 1] == a + b[..n];
      assert (a + b)[|a + b| - 1] == b[n];
      FilterAppend(a, b[..n], f);
    } else {
      assert a + b == a;
    }
  }

  /** Each element is kept as many times as it occurs when it passes, and dropped
      otherwise. */
  lemma {:induction false} FilterMultiset<T>(s: seq<T>, f: T -> bool, x: T)
    ensures multiset(Filter(s, f))[x] == if f(x) then multiset(s)[x] else 0
  {
    if |s| > 0 {
      var n := |s| - 1;
      FilterMultiset(s[..n], f, x);
      assert s == s[..n] + [s[n]];
    }
  }

  /** A sequence whose every element passes is its own filter. */
  lemma {:induction false} FilterKeepsAll<T>(s: seq<T>, f: T -> bool)
    requires forall i :: 0 <= i < |s| ==> f(s[i])
    ensures Filter(s, f) == s
  {
    if |s| > 0 {
      var n := |s| - 1;
      FilterKeepsAll(s[..n], f);
      assert s == s[..n] + [s[n]];
    }
  }

  /** Filtering twice by the same predicate is filtering once. */
  lemma FilterIdempotent<T>(s: seq<T>, f: T -> bool)
    ensures Filter(Filter(s, f), f) == Filter(s, f)
  {
    FilterKeepsAll(Filter(s, f), f);
  }

  /** Concatenation is associative. */
  lemma AppendAssoc<T>(a: seq<T>, b: seq<T>, c: seq<T>)
    ensures a + (b + c) == (a + b) + c
  {
  }

  /** A prefix of a prefix is a prefix. */
  lemma PrefixOfPrefix<T>(s: seq<T>, m: seq<T>, t: seq<T>)
    requires |s| <= |m| <= |t| && m[..|s|] == s && t[..|m|] == m
    ensures t[..|s|] == s
  {
    assert t[..|m|][..|s|] == t[..|s|];
  }

  /** What follows a prefix `s` of `t` that is itself followed by `e` begins with `e`. */
  lemma SuffixAfterOne<T>(s: seq<T>, e: T, t: seq<T>)
    requires |s| + 1 <= |t| && t[..|s| + 1] == s + [e]
    ensures t[|s|..] == [e] + t[|s| + 1..]
  {
    assert t[|s|] == (s + [e])[|s|];
  }

  /** A slice of `s` that starts at `k + 1`, with `s[k]` put in front, is the slice
      starting at `k`. */
  lemma ConsSlice<T>(s: seq<T>, k: nat, rest: seq<T>)
    requires k + 1 + |rest| <= |s| && rest == s[k + 1..k + 1 + |rest|]
    ensures [s[k]] + rest == s[k..k + 1 + |rest|]
  {
  }

  /** A prefix of `[x] + t` longer than one is `x` in front of a prefix of `t`. */
  lemma ConsPrefix<T>(x: T, t: seq<T>, k: nat)
    requires k <= |t|
    ensures ([x] + t)[..k + 1] == [x] + t[..k]
  {
  }

  /** The concatenation of a sequence of sequences. */
  function Flatten<T>(ss: seq<seq<T>>): (r: seq<T>)
    ensures |ss| == 0 ==> r == []
  {
    if |ss| == 0 then [] else Flatten(ss[..|ss| - 1]) + ss[|ss| - 1]
  }

  /** `util.chunks(s, n)`: consecutive slices of `n` elements, the last one shorter. */
  function Chunks<T>(s: seq<T>, n: nat): (r: seq<seq<T>>)
    requires n > 0
    ensures forall k :: 0 <= k < |r| ==> 0 < |r[k]| <= n
    ensures |s| == 0 <==> |r| == 0
    ensures forall k :: 0 <= k < |r| - 1 ==> |r[k]| == n
    decreases |s|
  {
    if |s| == 0 then []
    else if |s| <= n then [s]
    else [s[..n]] + Chunks(s[n..], n)
  }

  /** Concatenating the chunks gives back the sequence. */
  lemma {:induction false} FlattenChunks<T>(s: seq<T>, n: nat)
    requires n > 0
    ensures Flatten(Chunks(s, n)) == s
    decreases |s|
  {
    if |s| > n {
      FlattenChunks(s[n..], n);
      FlattenCons(s[..n], Chunks(s[n..], n));
      assert s == s[..n] + s[n..];
    } else if |s| > 0 {
      assert Chunks(s, n) == [s];
      assert Flatten([s]) == Flatten([s][..0]) + s;
    }
  }

  /** Flattening distributes over putting a sequence in front. */
  lemma {:induction false} FlattenCons<T>(x: seq<T>, ss: seq<seq<T>>)
    ensures Flatten([x] + ss) == x + Flatten(ss)
    decreases |ss|
  {
    if |ss| == 0 {
      assert [x] + ss == [x];
      assert Flatten([x]) == Flatten([x][..0]) + x;
    } else {
      var n := |ss| - 1;
      assert ([x] + ss)[..|[x] + ss| - 1] == [x] + ss[..n];
      FlattenCons(x, ss[..n]);
    }
  }
}

=== FILE: stories_db.dfy ===
/** The story ledger (`processor/database/stories_db.py`): the `stories` table with its
    unique key `(project_id, normalized_url)`, the admission of a page of candidates,
    the lifecycle updates, the retention sweep and the count queries.
 */
module StoriesDb {
  import opened Base
  import opened Models
  import Seqs

  /** The `stories` table, its rows in id order, and the next value of the id sequence. */
  datatype Ledger = Ledger(rows: seq<Story>, nextId: nat)

  /** A new table: no rows, and the id sequence starts at 1. */
  const EmptyLedger: Ledger := Ledger([], 1)

  /** No two rows of one project share a normalized URL. */
  predicate UniqueKeys(rows: seq<Story>) {
    forall i, j :: 0 <= i < j < |rows| && rows[i].projectId == rows[j].projectId ==>
      rows[i].normalizedUrl != rows[j].normalizedUrl
  }

  /** The table's integrity: ids come from the sequence (which starts at 1) in increasing
      order, and the unique key holds. */
  predicate Valid(l: Ledger) {
    && l.nextId >= 1
    && (forall i :: 0 <= i < |l.rows| ==> 1 <= l.rows[i].id < l.nextId)
    && (forall i, j :: 0 <= i < j < |l.rows| ==> l.rows[i].id < l.rows[j].id)
    && UniqueKeys(l.rows)
  }

  /** Some row of the project already holds this normalized URL. */
  predicate HasKey(rows: seq<Story>, projectId: int, u: string) {
    exists i :: 0 <= i < |rows| && rows[i].projectId == projectId && rows[i].normalizedUrl == u
  }

  lemma HasKeyAppend(rows: seq<Story>, row: Story)
    ensures forall q, u :: HasKey(rows + [row], q, u) <==>
      HasKey(rows, q, u) || (row.projectId == q && row.normalizedUrl == u)
  {
    var r := rows + [row];
    assert forall i :: 0 <= i < |rows| ==> r[i] == rows[i];
    assert r[|rows|] == row;
  }

  /** Appending a row with a larger id and a key its project does not hold keeps a ledger valid. */
  lemma AppendKeepsValid(rows: seq<Story>, x: Story, nextId: nat)
    requires Valid(Ledger(rows, nextId))
    requires 1 <= x.id < nextId
    requires forall i :: 0 <= i < |rows| ==> rows[i].id < x.id
    requires !HasKey(rows, x.projectId, x.normalizedUrl)
    ensures Valid(Ledger(rows + [x], nextId))
  {
    var r := rows + [x];
    assert forall i :: 0 <= i < |rows| ==> r[i] == rows[i];
    assert r[|rows|] == x;
  }

  /** Two row lists agree on everything the integrity of the table depends on. */
  predicate SameShape(rows: seq<Story>, rows': seq<Story>) {
    && |rows'| == |rows|
    && forall i :: 0 <= i < |rows| ==>
         && rows'[i].id == rows[i].id
         && rows'[i].projectId == rows[i].projectId
         && rows'[i].normalizedUrl == rows[i].normalizedUrl
  }

  // ---------------------------------------------------------------------------
  // Admission (`add_stories`)
  // ---------------------------------------------------------------------------

  /** The normalized URL of each candidate, in page order. */
  function UrlKeys(page: seq<StoryDict>, norm: string -> string): (keys: seq<string>)
    ensures |keys| == |page|
    ensures forall i :: 0 <= i < |page| ==> keys[i] == norm(page[i].url)
  {
    if |page| == 0 then [] else UrlKeys(page[..|page| - 1], norm) + [norm(page[|page| - 1].url)]
  }

  /** Candidate `i` is new: no row of the project holds its key and no earlier candidate of
      the page uses it. */
  predicate IsFresh(keys: seq<string>, rows: seq<Story>, projectId: int, i: nat)
    requires i < |keys|
  {
    !HasKey(rows, projectId, keys[i]) && forall j :: 0 <= j < i ==> keys[j] != keys[i]
  }

  /** The positions of the new candidates in increasing order: the reference definition of
      what a page admits. */
  function FreshPositions(keys: seq<string>, rows: seq<Story>, projectId: int): (r: seq<nat>)
    ensures |r| <= |keys|
    ensures forall k :: 0 <= k < |r| ==> r[k] < |keys|
    ensures forall k, m :: 0 <= k < m < |r| ==> r[k] < r[m]
    ensures forall i :: 0 <= i < |keys| ==> (i in r <==> IsFresh(keys, rows, projectId, i))
  {
    if |keys| == 0 then []
    else
      var n := |keys| - 1;
      var prev := FreshPositions(keys[..n], rows, projectId);
      assert forall i :: 0 <= i < n ==> (IsFresh(keys[..n], rows, projectId, i) <==> IsFresh(keys, rows, projectId, i));
      assert IsFresh(keys, rows, projectId, n) <==> !HasKey(rows, projectId, keys[n]) && keys[n] !in keys[..n];
      if !HasKey(rows, projectId, keys[n]) && keys[n] !in keys[..n] then prev + [n] else prev
  }

  /** The row `add_stories` writes for an admitted candidate. */
  function NewRow(d: Draft, id: nat, p: Project, now: int, normalizedUrl: string): Story {
    Story(id, d.storiesId, p.id, p.languageModelId, None, None, None, d.publishedDate, now,
          None, None, false, d.source, d.url, normalizedUrl)
  }

  /** A row exactly as a successful `add_stories` leaves it: scores, processed and posted
      dates unset, below threshold, queued now, owned by the project and its model. */
  predicate FreshlyQueued(row: Story, p: Project, now: int) {
    && row.projectId == p.id
    && row.modelId == p.languageModelId
    && row.queuedDate == now
    && !row.aboveThreshold
    && row.modelScore.None? && row.model1Score.None? && row.model2Score.None?
    && row.processedDate.None? && row.postedDate.None?
  }

  /** The result of an admission: the ledger, the admitted stories tagged with
      `log_db_id`, and how many candidates were ignored as duplicates. */
  datatype Admission = Admission(ledger: Ledger, admitted: seq<StoryDict>, ignored: nat)

  /** One candidate: insert it unless its key is taken (the `IntegrityError` branch). The
      insert draws its id from the sequence before the key is checked, so a rejected insert
      still uses up one id. */
  function InsertOne(l: Ledger, s: StoryDict, d: Draft, p: Project, now: int, nu: string): Admission {
    if HasKey(l.rows, p.id, nu) then Admission(l.(nextId := l.nextId + 1), [], 1)
    else Admission(Ledger(l.rows + [NewRow(d, l.nextId, p, now, nu)], l.nextId + 1), [s.(logDbId := Some(l.nextId))], 0)
  }

  /** `from_source` for every candidate; `add_stories` builds all of them before it inserts
      anything, so the first failure aborts the whole page. */
  function Drafts(page: seq<StoryDict>, source: Source, parse: string -> Option<int>): (r: Result<seq<Draft>>)
    ensures r.Ok? <==> forall i :: 0 <= i < |page| ==> FromSource(page[i], source, parse).Ok?
    ensures r.Ok? ==> |r.value| == |page|
    ensures r.Ok? ==> forall i :: 0 <= i < |page| ==> FromSource(page[i], source, parse) == Ok(r.value[i])
  {
    if |page| == 0 then Ok([])
    else
      match FromSource(page[0], source, parse)
      case Err(f) => Err(f)
      case Ok(d) =>
        match Drafts(page[1..], source, parse)
        case Err(f) => Err(f)
        case Ok(ds) =>
          assert forall i :: 1 <= i < |page| ==> page[i] == page[1..][i - 1];
          Ok([d] + ds)
  }

  /** The insertion loop of `add_stories`, one commit per candidate: the existing rows stay
      as they were, one new row follows them per admitted candidate, and every candidate is
      either admitted or ignored. */
  function InsertAll(l: Ledger, page: seq<StoryDict>, drafts: seq<Draft>, p: Project, now: int,
                     norm: string -> string): (r: Admission)
    requires |drafts| == |page|
    ensures |r.ledger.rows| == |l.rows| + |r.admitted| && r.ledger.rows[..|l.rows|] == l.rows
    ensures r.ledger.nextId == l.nextId + |page|
    ensures r.ignored + |r.admitted| == |page|
    decreases |page|
  {
    if |page| == 0 then Admission(l, [], 0)
    else
      var n := |page| - 1;
      var prev := InsertAll(l, page[..n], drafts[..n], p, now, norm);
      var last := InsertOne(prev.ledger, page[n], drafts[n], p, now, norm(page[n].url));
      assert last.ledger.rows[..|l.rows|] == prev.ledger.rows[..|l.rows|];
      Admission(last.ledger, prev.admitted + last.admitted, prev.ignored + last.ignored)
  }

  /** One step of `InsertAll`: the last candidate is either skipped or appended. */
  lemma InsertAllUnfold(l: Ledger, page: seq<StoryDict>, drafts: seq<Draft>, p: Project, now: int,
                        norm: string -> string)
    requires |drafts| == |page| && |page| > 0
    ensures var n := |page| - 1;
      var prev := InsertAll(l, page[..n], drafts[..n], p, now, norm);
      var r := InsertAll(l, page, drafts, p, now, norm);
      var nu := norm(page[n].url);
      && r.ledger.nextId == prev.ledger.nextId + 1
      && (HasKey(prev.ledger.rows, p.id, nu) ==> r.admitted == prev.admitted && r.ledger.rows == prev.ledger.rows)
      && (!HasKey(prev.ledger.rows, p.id, nu) ==>
            && r.ledger.rows == prev.ledger.rows + [NewRow(drafts[n], prev.ledger.nextId, p, now, nu)]
            && r.admitted == prev.admitted + [page[n].(logDbId := Some(prev.ledger.nextId))])
  {
  }

  /** After the insertion loop the project holds exactly its old keys plus the page's, and
      every other project's keys are unchanged. */
  lemma {:induction false} InsertAllKeys(l: Ledger, page: seq<StoryDict>, drafts: seq<Draft>, p: Project, now: int,
                                         norm: string -> string)
    requires |drafts| == |page|
    ensures var r := InsertAll(l, page, drafts, p, now, norm);
      forall u :: HasKey(r.ledger.rows, p.id, u) <==> HasKey(l.rows, p.id, u) || u in UrlKeys(page, norm)
    ensures var r := InsertAll(l, page, drafts, p, now, norm);
      forall q, u :: q != p.id ==> (HasKey(r.ledger.rows, q, u) <==> HasKey(l.rows, q, u))
    decreases |page|
  {
    if |page| > 0 {
      var n := |page| - 1;
      InsertAllKeys(l, page[..n], drafts[..n], p, now, norm);
      InsertAllUnfold(l, page, drafts, p, now, norm);
      var prev := InsertAll(l, page[..n], drafts[..n], p, now, norm);
      var nu := norm(page[n].url);
      assert UrlKeys(page, norm) == UrlKeys(page[..n], norm) + [nu];
      if !HasKey(prev.ledger.rows, p.id, nu) {
        HasKeyAppend(prev.ledger.rows, NewRow(drafts[n], prev.ledger.nextId, p, now, nu));
      }
    }
  }

  /** The insertion loop keeps the table valid: each new row takes the next id and a key the
      project does not hold. */
  lemma {:induction false} InsertAllValid(l: Ledger, page: seq<StoryDict>, drafts: seq<Draft>, p: Project, now: int,
                                          norm: string -> string)
    requires Valid(l)
    requires |drafts| == |page|
    ensures Valid(InsertAll(l, page, drafts, p, now, norm).ledger)
    decreases |page|
  {
    if |page| > 0 {
      var n := |page| - 1;
      InsertAllValid(l, page[..n], drafts[..n], p, now, norm);
      InsertAllUnfold(l, page, drafts, p, now, norm);
      var prev := InsertAll(l, page[..n], drafts[..n], p, now, norm);
      var r := InsertAll(l, page, drafts, p, now, norm);
      var nu := norm(page[n].url);
      InsertKeepsValid(prev.ledger, r.ledger, NewRow(drafts[n], prev.ledger.nextId, p, now, nu));
    }
  }

  /** One insert keeps the table valid: the new id is past every row, and the row is
      written only when its key is free. */
  lemma InsertKeepsValid(prev: Ledger, r: Ledger, row: Story)
    requires Valid(prev) && row.id == prev.nextId && r.nextId == prev.nextId + 1
    requires HasKey(prev.rows, row.projectId, row.normalizedUrl) ==> r.rows == prev.rows
    requires !HasKey(prev.rows, row.projectId, row.normalizedUrl) ==> r.rows == prev.rows + [row]
    ensures Valid(r)
  {
    if !HasKey(prev.rows, row.projectId, row.normalizedUrl) {
      AppendKeepsValid(prev.rows, row, prev.nextId + 1);
      assert r == Ledger(prev.rows + [row], prev.nextId + 1);
    } else {
      assert r == Ledger(prev.rows, prev.nextId + 1);
    }
  }

  /** The admitted stories are the candidates at `pos`, in order, each tagged with the id of
      the row written for it, and that row is the candidate's draft completed by `add_stories`.
      The candidate at page position `i` drew id `nextId + i`. */
  predicate AdmitsAt(l: Ledger, page: seq<StoryDict>, drafts: seq<Draft>, p: Project, now: int,
                     norm: string -> string, r: Admission, pos: seq<nat>)
  {
    && |r.admitted| == |pos|
    && |l.rows| + |pos| <= |r.ledger.rows|
    && (forall k :: 0 <= k < |pos| ==> pos[k] < |page| && pos[k] < |drafts|)
    && (forall k :: 0 <= k < |pos| ==>
          && r.admitted[k] == page[pos[k]].(logDbId := Some(l.nextId + pos[k]))
          && r.ledger.rows[|l.rows| + k] == NewRow(drafts[pos[k]], l.nextId + pos[k], p, now, norm(page[pos[k]].url)))
  }

  /** The admitted stories are exactly the fresh candidates in page order. */
  lemma {:induction false} InsertAllAdmitsFresh(l: Ledger, page: seq<StoryDict>, drafts: seq<Draft>, p: Project,
                                                now: int, norm: string -> string)
    requires |drafts| == |page|
    ensures AdmitsAt(l, page, drafts, p, now, norm, InsertAll(l, page, drafts, p, now, norm),
                     FreshPositions(UrlKeys(page, norm), l.rows, p.id))
    decreases |page|
  {
    if |page| > 0 {
      var n := |page| - 1;
      InsertAllAdmitsFresh(l, page[..n], drafts[..n], p, now, norm);
      InsertAllAdmitsFreshStep(l, page, drafts, p, now, norm);
    }
  }

  /** One more candidate keeps the admitted stories those at `FreshPositions`. */
  lemma InsertAllAdmitsFreshStep(l: Ledger, page: seq<StoryDict>, drafts: seq<Draft>, p: Project,
                                 now: int, norm: string -> string)
    requires |drafts| == |page| && |page| > 0
    requires var n := |page| - 1;
      AdmitsAt(l, page[..n], drafts[..n], p, now, norm, InsertAll(l, page[..n], drafts[..n], p, now, norm),
               FreshPositions(UrlKeys(page[..n], norm), l.rows, p.id))
    ensures AdmitsAt(l, page, drafts, p, now, norm, InsertAll(l, page, drafts, p, now, norm),
                     FreshPositions(UrlKeys(page, norm), l.rows, p.id))
  {
    {
      var n := |page| - 1;
      var keys := UrlKeys(page, norm);
      InsertAllUnfold(l, page, drafts, p, now, norm);
      InsertAllKeys(l, page[..n], drafts[..n], p, now, norm);
      var prev := InsertAll(l, page[..n], drafts[..n], p, now, norm);
      var r := InsertAll(l, page, drafts, p, now, norm);
      var nu := norm(page[n].url);
      assert keys == UrlKeys(page[..n], norm) + [nu];
      assert keys[..n] == UrlKeys(page[..n], norm);
      var prevPos := FreshPositions(keys[..n], l.rows, p.id);
      assert AdmitsAt(l, page[..n], drafts[..n], p, now, norm, prev, prevPos);
      assert |prev.ledger.rows| == |l.rows| + |prevPos| && prev.ledger.nextId == l.nextId + n;
      var pos := FreshPositions(keys, l.rows, p.id);
      assert HasKey(prev.ledger.rows, p.id, nu) == (HasKey(l.rows, p.id, nu) || nu in keys[..n]);
      if HasKey(prev.ledger.rows, p.id, nu) {
        assert pos == prevPos;
        AdmitsAtSkip(l, page, drafts, p, now, norm, prev, r, prevPos);
      } else {
        assert pos == prevPos + [n];
        AdmitsAtAppend(l, page, drafts, p, now, norm, prev, r, prevPos);
      }
    }
  }

  /** A skipped last candidate leaves the admitted prefix as it was. */
  lemma AdmitsAtSkip(l: Ledger, page: seq<StoryDict>, drafts: seq<Draft>, p: Project, now: int,
                     norm: string -> string, prev: Admission, r: Admission, pos: seq<nat>)
    requires |page| > 0 && |drafts| == |page|
    requires AdmitsAt(l, page[..|page| - 1], drafts[..|page| - 1], p, now, norm, prev, pos)
    requires r.admitted == prev.admitted && r.ledger.rows == prev.ledger.rows
    ensures AdmitsAt(l, page, drafts, p, now, norm, r, pos)
  {
    var n := |page| - 1;
    forall k | 0 <= k < |pos|
      ensures r.admitted[k] == page[pos[k]].(logDbId := Some(l.nextId + pos[k]))
      ensures r.ledger.rows[|l.rows| + k] == NewRow(drafts[pos[k]], l.nextId + pos[k], p, now, norm(page[pos[k]].url))
    {
      var j := pos[k];
      assert j < n;
      assert page[..n][j] == page[j] && drafts[..n][j] == drafts[j];
    }
  }

  /** An admitted last candidate extends the admitted list and the new rows by one. */
  lemma AdmitsAtAppend(l: Ledger, page: seq<StoryDict>, drafts: seq<Draft>, p: Project, now: int,
                       norm: string -> string, prev: Admission, r: Admission, pos: seq<nat>)
    requires |page| > 0 && |drafts| == |page|
    requires AdmitsAt(l, page[..|page| - 1], drafts[..|page| - 1], p, now, norm, prev, pos)
    requires |prev.ledger.rows| == |l.rows| + |pos| && prev.ledger.nextId == l.nextId + |page| - 1
    requires r.ledger.rows == prev.ledger.rows +
      [NewRow(drafts[|page| - 1], prev.ledger.nextId, p, now, norm(page[|page| - 1].url))]
    requires r.admitted == prev.admitted + [page[|page| - 1].(logDbId := Some(prev.ledger.nextId))]
    ensures AdmitsAt(l, page, drafts, p, now, norm, r, pos + [|page| - 1])
  {
    var n := |page| - 1;
    var pos' := pos + [n];
    forall k | 0 <= k < |pos'|
      ensures r.admitted[k] == page[pos'[k]].(logDbId := Some(l.nextId + pos'[k]))
    {
      if k < |pos| {
        var j := pos[k];
        assert j < n && pos'[k] == j;
        assert page[..n][j] == page[j];
        assert r.admitted[k] == prev.admitted[k];
      } else {
        assert pos'[k] == n;
      }
    }
    forall k | 0 <= k < |pos'|
      ensures r.ledger.rows[|l.rows| + k] == NewRow(drafts[pos'[k]], l.nextId + pos'[k], p, now, norm(page[pos'[k]].url))
    {
      if k < |pos| {
        var j := pos[k];
        assert j < n && pos'[k] == j;
        assert page[..n][j] == page[j] && drafts[..n][j] == drafts[j];
        assert r.ledger.rows[|l.rows| + k] == prev.ledger.rows[|l.rows| + k];
      } else {
        assert pos'[k] == n;
      }
    }
  }

  /** A row as `add_stories` writes it for an admitted candidate: the next id, the
      candidate's URL and key, the page's source, freshly queued. */
  predicate QueuedFor(row: Story, story: StoryDict, id: nat, p: Project, source: Source, now: int, key: string) {
    && row.id == id
    && FreshlyQueued(row, p, now)
    && row.url == story.url
    && row.normalizedUrl == key
    && row.source == source
  }

  /** The admitted stories are the candidates at `pos` of the page, in order: the one at
      page position `i` is tagged with id `nextId + i`, the id its insert drew, and the row
      at that id is queued for it. */
  predicate QueuedAt(l: Ledger, page: seq<StoryDict>, p: Project, source: Source, now: int,
                     norm: string -> string, r: Admission, pos: seq<nat>)
  {
    && |r.admitted| == |pos|
    && |l.rows| + |pos| <= |r.ledger.rows|
    && (forall k :: 0 <= k < |pos| ==> pos[k] < |page|)
    && (forall k :: 0 <= k < |pos| ==> r.admitted[k] == page[pos[k]].(logDbId := Some(l.nextId + pos[k])))
    && (forall k :: 0 <= k < |pos| ==>
          QueuedFor(r.ledger.rows[|l.rows| + k], page[pos[k]], l.nextId + pos[k], p, source, now, norm(page[pos[k]].url)))
  }

  /** Each row written for an admitted candidate is queued for that candidate. */
  lemma AdmittedRows(l: Ledger, page: seq<StoryDict>, drafts: seq<Draft>, p: Project, source: Source, now: int,
                     norm: string -> string, r: Admission, pos: seq<nat>)
    requires |drafts| == |page|
    requires forall i :: 0 <= i < |page| ==> drafts[i].url == page[i].url && drafts[i].source == source
    requires AdmitsAt(l, page, drafts, p, now, norm, r, pos)
    ensures QueuedAt(l, page, p, source, now, norm, r, pos)
  {
    forall k | 0 <= k < |pos|
      ensures QueuedFor(r.ledger.rows[|l.rows| + k], page[pos[k]], l.nextId + pos[k], p, source, now, norm(page[pos[k]].url))
    {
      var j := pos[k];
      assert r.ledger.rows[|l.rows| + k] == NewRow(drafts[j], l.nextId + j, p, now, norm(page[j].url));
      assert drafts[j].url == page[j].url && drafts[j].source == source;
    }
  }

  /** `add_stories`: every candidate's `from_source` first (any failure raises before a row is
      written), then one insert per candidate in page order. The table stays valid and its
      existing rows stay as they were. */
  function AddStories(l: Ledger, page: seq<StoryDict>, p: Project, source: Source, now: int, o: Oracles): (r: Result<Admission>)
    requires Valid(l)
    ensures r.Ok? <==> forall i :: 0 <= i < |page| ==> FromSource(page[i], source, o.parseDate).Ok?
    ensures r.Ok? ==> Valid(r.value.ledger)
    ensures r.Ok? ==> |l.rows| <= |r.value.ledger.rows| && r.value.ledger.rows[..|l.rows|] == l.rows
  {
    match Drafts(page, source, o.parseDate)
    case Err(f) => Err(f)
    case Ok(drafts) =>
      InsertAllValid(l, page, drafts, p, now, o.normalizeUrl);
      Ok(InsertAll(l, page, drafts, p, now, o.normalizeUrl))
  }

  /** A candidate is admitted exactly when its `(project_id, normalized_url)` key is neither
      in the ledger nor used by an earlier candidate of the page; the admitted candidates come
      back in page order, each tagged with the id its insert drew from the sequence, and the
      row with that id is freshly queued for it. Every candidate, admitted or not, draws one
      id. */
  lemma AddStoriesAdmitsFresh(l: Ledger, page: seq<StoryDict>, p: Project, source: Source, now: int, o: Oracles)
    requires Valid(l)
    requires AddStories(l, page, p, source, now, o).Ok?
    ensures var r := AddStories(l, page, p, source, now, o).value;
      var pos := FreshPositions(UrlKeys(page, o.normalizeUrl), l.rows, p.id);
      && |r.ledger.rows| == |l.rows| + |pos|
      && r.ledger.nextId == l.nextId + |page|
      && r.ignored + |pos| == |page|
      && QueuedAt(l, page, p, source, now, o.normalizeUrl, r, pos)
  {
    var drafts := Drafts(page, source, o.parseDate).value;
    var pos := FreshPositions(UrlKeys(page, o.normalizeUrl), l.rows, p.id);
    var r := InsertAll(l, page, drafts, p, now, o.normalizeUrl);
    forall i | 0 <= i < |page| ensures drafts[i].url == page[i].url && drafts[i].source == source {
      assert FromSource(page[i], source, o.parseDate) == Ok(drafts[i]);
    }
    InsertAllAdmitsFresh(l, page, drafts, p, now, o.normalizeUrl);
    AdmittedRows(l, page, drafts, p, source, now, o.normalizeUrl, r, pos);
  }

  /** What `add_stories` returns are candidates of the page, each tagged with a row id, and
      no more of them than the page holds. */
  lemma AddStoriesAdmitsFromPage(l: Ledger, page: seq<StoryDict>, p: Project, source: Source, now: int, o: Oracles)
    requires Valid(l)
    requires AddStories(l, page, p, source, now, o).Ok?
    ensures var r := AddStories(l, page, p, source, now, o).value;
      && |r.admitted| + r.ignored == |page|
      && forall k :: 0 <= k < |r.admitted| ==>
           && r.admitted[k].logDbId.Some?
           && exists i :: 0 <= i < |page| && r.admitted[k] == page[i].(logDbId := r.admitted[k].logDbId)
  {
    AddStoriesAdmitsFresh(l, page, p, source, now, o);
    var r := AddStories(l, page, p, source, now, o).value;
    var pos := FreshPositions(UrlKeys(page, o.normalizeUrl), l.rows, p.id);
    forall k | 0 <= k < |r.admitted|
      ensures exists i :: 0 <= i < |page| && r.admitted[k] == page[i].(logDbId := r.admitted[k].logDbId)
    {
      assert r.admitted[k] == page[pos[k]].(logDbId := r.admitted[k].logDbId);
    }
  }

  /** After `add_stories` the project holds exactly its old keys and the page's keys; other
      projects' keys are untouched. */
  lemma AddStoriesKeys(l: Ledger, page: seq<StoryDict>, p: Project, source: Source, now: int, o: Oracles)
    requires Valid(l)
    requires AddStories(l, page, p, source, now, o).Ok?
    ensures var r := AddStories(l, page, p, source, now, o).value;
      forall q, u :: HasKey(r.ledger.rows, q, u) <==>
        HasKey(l.rows, q, u) || (q == p.id && u in UrlKeys(page, o.normalizeUrl))
  {
    var drafts := Drafts(page, source, o.parseDate).value;
    InsertAllKeys(l, page, drafts, p, now, o.normalizeUrl);
  }

  /** Re-adding a page after it was added admits nothing, ignores every candidate and
      leaves the ledger unchanged. */
  lemma ReAddIsIdempotent(l: Ledger, page: seq<StoryDict>, p: Project, source: Source, now: int, now': int, o: Oracles)
    requires Valid(l)
    requires AddStories(l, page, p, source, now, o).Ok?
    ensures var l1 := AddStories(l, page, p, source, now, o).value.ledger;
      var again := AddStories(l1, page, p, source, now', o);
      && again.Ok?
      && again.value.admitted == []
      && again.value.ignored == |page|
      && again.value.ledger.rows == l1.rows
  {
    var l1 := AddStories(l, page, p, source, now, o).value.ledger;
    var drafts := Drafts(page, source, o.parseDate).value;
    AddStoriesKeys(l, page, p, source, now, o);
    InsertAllAllTaken(l1, page, drafts, p, now', o.normalizeUrl);
  }

  /** When the project already holds every candidate's key, the insertion loop ignores them all. */
  lemma {:induction false} InsertAllAllTaken(l: Ledger, page: seq<StoryDict>, drafts: seq<Draft>, p: Project, now: int,
                                             norm: string -> string)
    requires |drafts| == |page|
    requires forall u :: u in UrlKeys(page, norm) ==> HasKey(l.rows, p.id, u)
    ensures var r := InsertAll(l, page, drafts, p, now, norm);
      r.admitted == [] && r.ignored == |page| && r.ledger.rows == l.rows
    decreases |page|
  {
    if |page| > 0 {
      var n := |page| - 1;
      assert UrlKeys(page, norm) == UrlKeys(page[..n], norm) + [norm(page[n].url)];
      InsertAllAllTaken(l, page[..n], drafts[..n], p, now, norm);
      InsertAllUnfold(l, page, drafts, p, now, norm);
    }
  }

  /** A page of distinct URLs none of which the project holds is admitted whole. */
  lemma AddDistinctAdmitsAll(l: Ledger, page: seq<StoryDict>, p: Project, source: Source, now: int, o: Oracles)
    requires Valid(l)
    requires AddStories(l, page, p, source, now, o).Ok?
    requires forall i, j :: 0 <= i < j < |page| ==> o.normalizeUrl(page[i].url) != o.normalizeUrl(page[j].url)
    requires forall i :: 0 <= i < |page| ==> !HasKey(l.rows, p.id, o.normalizeUrl(page[i].url))
    ensures var r := AddStories(l, page, p, source, now, o).value;
      |r.admitted| == |page| && r.ignored == 0 && |r.ledger.rows| == |l.rows| + |page|
  {
    var keys := UrlKeys(page, o.normalizeUrl);
    var pos := FreshPositions(keys, l.rows, p.id);
    AddStoriesAdmitsFresh(l, page, p, source, now, o);
    forall i | 0 <= i < |page| ensures i in pos {
      assert IsFresh(keys, l.rows, p.id, i);
    }
    PositionsCoverAll(pos, |page|);
  }

  /** An increasing list of positions below `n` that contains each of them has length `n`. */
  lemma {:induction false} PositionsCoverAll(pos: seq<nat>, n: nat)
    requires forall k :: 0 <= k < |pos| ==> pos[k] < n
    requires forall k, m :: 0 <= k < m < |pos| ==> pos[k] < pos[m]
    requires forall i :: 0 <= i < n ==> i in pos
    ensures |pos| == n
    decreases n
  {
    if n > 0 {
      assert n - 1 in pos;
      var k :| 0 <= k < |pos| && pos[k] == n - 1;
      var last := |pos| - 1;
      assert pos[k] <= pos[last];
      var rest := pos[..last];
      assert forall i :: 0 <= i < n - 1 ==> i in rest by {
        forall i | 0 <= i < n - 1 ensures i in rest {
          assert i in pos;
          var m :| 0 <= m < |pos| && pos[m] == i;
          assert m != last;
        }
      }
      PositionsCoverAll(rest, n - 1);
    }
  }

  // ---------------------------------------------------------------------------
  // Lifecycle updates
  // ---------------------------------------------------------------------------

  /** Every story naming a row carries scores (the `KeyError` guard of the score update). */
  predicate AllScored(stories: seq<StoryDict>) {
    forall i :: 0 <= i < |stories| && stories[i].logDbId.Some? ==> stories[i].scores.Some?
  }

  /** The scores of the last story naming row `id`: later updates overwrite earlier ones. */
  function ScoresFor(stories: seq<StoryDict>, id: nat): (r: Option<Scores>)
    requires AllScored(stories)
    ensures r.Some? <==> exists i :: 0 <= i < |stories| && stories[i].logDbId == Some(id)
  {
    if |stories| == 0 then None
    else
      var n := |stories| - 1;
      assert forall i :: 0 <= i < n ==> stories[..n][i] == stories[i];
      if stories[n].logDbId == Some(id) then stories[n].scores else ScoresFor(stories[..n], id)
  }

  /** A row after its scores and processed date were written. */
  function Scored(row: Story, sc: Scores, now: int): Story {
    row.(modelScore := Some(sc.modelScore), model1Score := sc.model1Score,
         model2Score := sc.model2Score, processedDate := Some(now))
  }

  /** The per-story update loop of `update_stories_processed_date_score`, one statement each. */
  function WriteScores(rows: seq<Story>, stories: seq<StoryDict>, now: int): (r: seq<Story>)
    requires AllScored(stories)
    ensures SameShape(rows, r)
    ensures forall i :: 0 <= i < |rows| && ScoresFor(stories, rows[i].id).None? ==> r[i] == rows[i]
    ensures forall i :: 0 <= i < |rows| && ScoresFor(stories, rows[i].id).Some? ==>
      r[i] == Scored(rows[i], ScoresFor(stories, rows[i].id).value, now)
  {
    if |stories| == 0 then rows
    else
      var n := |stories| - 1;
      var prev := WriteScores(rows, stories[..n], now);
      match stories[n].logDbId
      case None => prev
      case Some(id) =>
        seq(|prev|, i requires 0 <= i < |prev| =>
          if prev[i].id == id then Scored(prev[i], stories[n].scores.value, now) else prev[i])
  }

  /** `update_stories_processed_date_score`: each story that carries `log_db_id` writes its
      three scores and the one shared `processed_date` to that row (the last such story wins);
      stories without the key, and every row no story names, are untouched. A named story
      without scores raises `KeyError` before the commit, so nothing is written. */
  function UpdateProcessedDateScore(l: Ledger, stories: seq<StoryDict>, now: int): (r: Result<Ledger>)
    ensures r.Ok? <==> AllScored(stories)
    ensures r.Ok? ==> r.value.nextId == l.nextId && SameShape(l.rows, r.value.rows)
    ensures r.Ok? ==> forall i :: 0 <= i < |l.rows| ==>
      (if exists j :: 0 <= j < |stories| && stories[j].logDbId == Some(l.rows[i].id)
       then r.value.rows[i].processedDate == Some(now)
         && Some(Scores(r.value.rows[i].modelScore.GetOr(0.0), r.value.rows[i].model1Score, r.value.rows[i].model2Score))
            == ScoresFor(stories, l.rows[i].id)
       else r.value.rows[i] == l.rows[i])
  {
    if AllScored(stories) then Ok(Ledger(WriteScores(l.rows, stories, now), l.nextId))
    else Err(KeyError("model_score"))
  }

  /** `update_stories_above_threshold`: sets `above_threshold` on exactly the listed rows. */
  function UpdateAboveThreshold(l: Ledger, ids: seq<nat>): (r: Ledger)
    ensures r.nextId == l.nextId && SameShape(l.rows, r.rows)
    ensures forall i :: 0 <= i < |l.rows| ==>
      r.rows[i] == (if l.rows[i].id in ids then l.rows[i].(aboveThreshold := true) else l.rows[i])
  {
    Ledger(seq(|l.rows|, i requires 0 <= i < |l.rows| =>
             if l.rows[i].id in ids then l.rows[i].(aboveThreshold := true) else l.rows[i]), l.nextId)
  }

  /** `update_stories_posted_date`: sets `posted_date` to now on exactly the listed rows. */
  function UpdatePostedDate(l: Ledger, ids: seq<nat>, now: int): (r: Ledger)
    ensures r.nextId == l.nextId && SameShape(l.rows, r.rows)
    ensures forall i :: 0 <= i < |l.rows| ==>
      r.rows[i] == (if l.rows[i].id in ids then l.rows[i].(postedDate := Some(now)) else l.rows[i])
  {
    Ledger(seq(|l.rows|, i requires 0 <= i < |l.rows| =>
             if l.rows[i].id in ids then l.rows[i].(postedDate := Some(now)) else l.rows[i]), l.nextId)
  }

  /** Marking no row posted leaves the table as it was. */
  lemma UpdatePostedDateNothing(l: Ledger, now: int)
    ensures UpdatePostedDate(l, [], now) == l
  {
    assert UpdatePostedDate(l, [], now).rows == l.rows;
  }

  /** Marking two batches posted with the same timestamp, one after the other, is marking
      their union. The worker's per-chunk commits each read the clock, so they add up to one
      update only when those readings agree. */
  lemma UpdatePostedDateTwice(l: Ledger, a: seq<nat>, b: seq<nat>, now: int)
    ensures UpdatePostedDate(UpdatePostedDate(l, a, now), b, now) == UpdatePostedDate(l, a + b, now)
  {
    var two := UpdatePostedDate(UpdatePostedDate(l, a, now), b, now);
    var one := UpdatePostedDate(l, a + b, now);
    assert |two.rows| == |one.rows|;
    forall i | 0 <= i < |one.rows| ensures two.rows[i] == one.rows[i] {
      assert l.rows[i].id in a + b <==> l.rows[i].id in a || l.rows[i].id in b;
    }
  }

  /** The updates never touch ids or keys, so they keep the table valid and every project's
      keys as they were. */
  lemma SameShapeKeepsValid(l: Ledger, l': Ledger)
    requires Valid(l) && l'.nextId == l.nextId && SameShape(l.rows, l'.rows)
    ensures Valid(l')
    ensures forall q, u :: HasKey(l'.rows, q, u) <==> HasKey(l.rows, q, u)
  {
    forall q, u | HasKey(l.rows, q, u) ensures HasKey(l'.rows, q, u) {
      var i :| 0 <= i < |l.rows| && l.rows[i].projectId == q && l.rows[i].normalizedUrl == u;
      assert l'.rows[i].projectId == q && l'.rows[i].normalizedUrl == u;
    }
  }

  // ---------------------------------------------------------------------------
  // Retention sweep
  // ---------------------------------------------------------------------------

  /** `delete_old_stories`' default age in days; the nightly schedule passes 30. */
  const DefaultRetentionDays: int := 62

  function KeepQueuedSince(rows: seq<Story>, cutoff: int): (r: seq<Story>)
    ensures forall x :: x in r <==> x in rows && x.queuedDate >= cutoff
    ensures |r| <= |rows|
  {
    if |rows| == 0 then []
    else
      var n := |rows| - 1;
      var prev := KeepQueuedSince(rows[..n], cutoff);
      assert rows == rows[..n] + [rows[n]];
      if rows[n].queuedDate >= cutoff then prev + [rows[n]] else prev
  }

  /** `delete_old_stories`: removes exactly the rows queued before `now - age` days, whatever
      their threshold or posting state; every newer row stays as it was. */
  function DeleteOldStories(l: Ledger, now: int, age: int): (r: Ledger)
    ensures r.nextId == l.nextId
    ensures forall x :: x in r.rows <==> x in l.rows && x.queuedDate >= now - age * Day
  {
    Ledger(KeepQueuedSince(l.rows, now - age * Day), l.nextId)
  }

  /** The sweep keeps the table valid: what survives keeps its ids in order and its keys
      unique. */
  lemma {:induction false} DeleteKeepsValid(l: Ledger, now: int, age: int)
    requires Valid(l)
    ensures Valid(DeleteOldStories(l, now, age))
  {
    KeepQueuedSinceValid(l.rows, now - age * Day, l.nextId);
  }

  lemma {:induction false} KeepQueuedSinceValid(rows: seq<Story>, cutoff: int, nextId: nat)
    requires Valid(Ledger(rows, nextId))
    ensures Valid(Ledger(KeepQueuedSince(rows, cutoff), nextId))
  {
    if |rows| > 0 {
      var n := |rows| - 1;
      assert forall i :: 0 <= i < n ==> rows[..n][i] == rows[i];
      KeepQueuedSinceValid(rows[..n], cutoff, nextId);
      var prev := KeepQueuedSince(rows[..n], cutoff);
      if rows[n].queuedDate >= cutoff {
        var x := rows[n];
        assert KeepQueuedSince(rows, cutoff) == prev + [x];
        forall i | 0 <= i < |prev|
          ensures prev[i].id < x.id
          ensures prev[i].projectId == x.projectId ==> prev[i].normalizedUrl != x.normalizedUrl
        {
          assert prev[i] in rows[..n];
          var j :| 0 <= j < n && rows[..n][j] == prev[i];
          assert rows[j] == prev[i];
        }
        assert !HasKey(prev, x.projectId, x.normalizedUrl);
        AppendKeepsValid(prev, x, nextId);
      } else {
        assert KeepQueuedSince(rows, cutoff) == prev;
      }
    }
  }

  /** Sweeping twice at the same moment removes nothing more. */
  lemma {:induction false} DeleteOldStoriesIdempotent(l: Ledger, now: int, age: int)
    ensures DeleteOldStories(DeleteOldStories(l, now, age), now, age) == DeleteOldStories(l, now, age)
  {
    var once := KeepQueuedSince(l.rows, now - age * Day);
    KeepAllWhenNoneOld(once, now - age * Day);
  }

  lemma {:induction false} KeepAllWhenNoneOld(rows: seq<Story>, cutoff: int)
    requires forall i :: 0 <= i < |rows| ==> rows[i].queuedDate >= cutoff
    ensures KeepQueuedSince(rows, cutoff) == rows
  {
    if |rows| > 0 {
      var n := |rows| - 1;
      KeepAllWhenNoneOld(rows[..n], cutoff);
      assert rows == rows[..n] + [rows[n]];
    }
  }

  // ---------------------------------------------------------------------------
  // Queries
  // ---------------------------------------------------------------------------

  /** `project_story_normalized_urls`: the normalized URLs of this project's rows queued in
      the last `lastNDays` days that have been processed, and only those. A row not yet
      processed never contributes its URL (see `UnprocessedNotReported`), and admitting a
      page changes nothing here (see `AddStoriesKeepsRecentUrls`). */
  function ProjectStoryNormalizedUrls(l: Ledger, projectId: int, lastNDays: int, now: int): (r: set<string>)
    ensures forall u :: u in r ==> HasKey(l.rows, projectId, u)
    ensures forall u :: u in r <==>
      exists i :: 0 <= i < |l.rows| && RecentlyProcessed(l.rows[i], projectId, lastNDays, now) && l.rows[i].normalizedUrl == u
  {
    set i | 0 <= i < |l.rows| && RecentlyProcessed(l.rows[i], projectId, lastNDays, now) :: l.rows[i].normalizedUrl
  }

  /** The row belongs to the project, was queued strictly after `now` minus `lastNDays`
      days, and has been processed. */
  predicate RecentlyProcessed(row: Story, projectId: int, lastNDays: int, now: int) {
    row.projectId == projectId && row.queuedDate > now - lastNDays * Day && row.processedDate.Some?
  }

  /** Rows that `add_stories` writes are not processed yet, so admitting a page changes
      no project's recently processed URLs. */
  lemma AddStoriesKeepsRecentUrls(l: Ledger, page: seq<StoryDict>, p: Project, source: Source, now: int, o: Oracles,
                                  projectId: int, lastNDays: int, t: int)
    requires Valid(l)
    requires AddStories(l, page, p, source, now, o).Ok?
    ensures ProjectStoryNormalizedUrls(AddStories(l, page, p, source, now, o).value.ledger, projectId, lastNDays, t)
         == ProjectStoryNormalizedUrls(l, projectId, lastNDays, t)
  {
    AddStoriesRowsUnprocessed(l, page, p, source, now, o);
    var r := AddStories(l, page, p, source, now, o).value;
    UnprocessedRowsAddNoUrls(l, r.ledger, projectId, lastNDays, t);
  }

  /** Every row `add_stories` appends is queued but not processed. */
  lemma AddStoriesRowsUnprocessed(l: Ledger, page: seq<StoryDict>, p: Project, source: Source, now: int, o: Oracles)
    requires Valid(l)
    requires AddStories(l, page, p, source, now, o).Ok?
    ensures var rows := AddStories(l, page, p, source, now, o).value.ledger.rows;
      forall i :: |l.rows| <= i < |rows| ==> rows[i].processedDate.None? && rows[i].queuedDate == now
  {
    AddStoriesAdmitsFresh(l, page, p, source, now, o);
    QueuedRowsUnprocessed(l, page, p, source, now, o.normalizeUrl, AddStories(l, page, p, source, now, o).value,
                          FreshPositions(UrlKeys(page, o.normalizeUrl), l.rows, p.id));
  }

  /** The rows queued for admitted candidates are not processed and were queued now. */
  lemma QueuedRowsUnprocessed(l: Ledger, page: seq<StoryDict>, p: Project, source: Source, now: int,
                              norm: string -> string, r: Admission, pos: seq<nat>)
    requires QueuedAt(l, page, p, source, now, norm, r, pos)
    requires |r.ledger.rows| == |l.rows| + |pos|
    ensures forall i :: |l.rows| <= i < |r.ledger.rows| ==>
      r.ledger.rows[i].processedDate.None? && r.ledger.rows[i].queuedDate == now
  {
    forall i | |l.rows| <= i < |r.ledger.rows|
      ensures r.ledger.rows[i].processedDate.None? && r.ledger.rows[i].queuedDate == now
    {
      var k := i - |l.rows|;
      assert QueuedFor(r.ledger.rows[|l.rows| + k], page[pos[k]], l.nextId + pos[k], p, source, now, norm(page[pos[k]].url));
    }
  }

  /** Rows appended unprocessed add no recently processed URL. */
  lemma UnprocessedRowsAddNoUrls(l: Ledger, l': Ledger, projectId: int, lastNDays: int, t: int)
    requires |l.rows| <= |l'.rows| && l'.rows[..|l.rows|] == l.rows
    requires forall i :: |l.rows| <= i < |l'.rows| ==> l'.rows[i].processedDate.None?
    ensures ProjectStoryNormalizedUrls(l', projectId, lastNDays, t) == ProjectStoryNormalizedUrls(l, projectId, lastNDays, t)
  {
    forall i | 0 <= i < |l.rows| ensures l'.rows[i] == l.rows[i] {
      assert l'.rows[..|l.rows|][i] == l'.rows[i];
    }
  }

  /** In a valid ledger a row that has not been processed never has its URL reported, so a
      story queued again before it is classified is not filtered out as already seen. */
  lemma UnprocessedNotReported(l: Ledger, projectId: int, lastNDays: int, now: int, i: nat)
    requires Valid(l)
    requires i < |l.rows| && l.rows[i].projectId == projectId && l.rows[i].processedDate.None?
    ensures l.rows[i].normalizedUrl !in ProjectStoryNormalizedUrls(l, projectId, lastNDays, now)
  {
    forall j | 0 <= j < |l.rows| && l.rows[j].projectId == projectId && l.rows[j].processedDate.Some?
      ensures l.rows[j].normalizedUrl != l.rows[i].normalizedUrl
    {
      assert i != j;
    }
  }

  /** `select count(1) ... where`: the number of rows satisfying a column predicate. */
  function CountIf(rows: seq<Story>, keep: Story -> bool): (n: nat)
    ensures n <= |rows|
    ensures n == 0 <==> forall i :: 0 <= i < |rows| ==> !keep(rows[i])
    ensures n == |rows| <==> forall i :: 0 <= i < |rows| ==> keep(rows[i])
  {
    if |rows| == 0 then 0
    else
      var m := |rows| - 1;
      assert forall i :: 0 <= i < m ==> rows[..m][i] == rows[i];
      CountIf(rows[..m], keep) + (if keep(rows[m]) then 1 else 0)
  }

  /** The count is the length of the list comprehension with the same condition, the
      reference definition of what the `where` clause selects. */
  lemma {:induction false} CountIfIsFilter(rows: seq<Story>, keep: Story -> bool)
    ensures CountIf(rows, keep) == |Seqs.Filter(rows, keep)|
  {
    if |rows| > 0 {
      CountIfIsFilter(rows[..|rows| - 1], keep);
    }
  }

  predicate IsPostedAbove(row: Story, projectId: int) {
    row.projectId == projectId && row.postedDate.Some? && row.aboveThreshold
  }

  predicate IsBelow(row: Story, projectId: int) {
    row.projectId == projectId && !row.aboveThreshold
  }

  /** `posted_above_story_count`: this project's rows that are above threshold and posted. */
  function PostedAboveStoryCount(l: Ledger, projectId: int): (r: nat)
    ensures r <= |l.rows|
    ensures r == 0 <==> forall i :: 0 <= i < |l.rows| ==> !IsPostedAbove(l.rows[i], projectId)
    ensures r == |l.rows| <==> forall i :: 0 <= i < |l.rows| ==> IsPostedAbove(l.rows[i], projectId)
  {
    CountIf(l.rows, (row: Story) => IsPostedAbove(row, projectId))
  }

  /** `below_story_count`: this project's rows that are not above threshold. */
  function BelowStoryCount(l: Ledger, projectId: int): (r: nat)
    ensures r <= |l.rows|
    ensures r == 0 <==> forall i :: 0 <= i < |l.rows| ==> !IsBelow(l.rows[i], projectId)
    ensures r == |l.rows| <==> forall i :: 0 <= i < |l.rows| ==> IsBelow(l.rows[i], projectId)
  {
    CountIf(l.rows, (row: Story) => IsBelow(row, projectId))
  }

  /** `unposted_above_story_count`: despite its name it counts rows whose `posted_date` is
      set; with a non-zero `limit` only those posted on or after midnight `limit` days before
      today. */
  function UnpostedAboveStoryCount(l: Ledger, projectId: int, limit: Option<int>, now: int): (r: nat)
    ensures r <= PostedAboveStoryCount(l, projectId)
    ensures r == 0 <==> forall i :: 0 <= i < |l.rows| ==>
      !(IsPostedAbove(l.rows[i], projectId)
        && (limit.None? || limit.value == 0 || l.rows[i].postedDate.value >= StartOfDay(now) - limit.value * Day))
  {
    var earliest := StartOfDay(now) - limit.GetOr(0) * Day;
    var keep := (row: Story) => IsPostedAbove(row, projectId)
      && (limit.None? || limit.value == 0 || row.postedDate.value >= earliest);
    CountIfSubset(l.rows, keep, (row: Story) => IsPostedAbove(row, projectId));
    CountIf(l.rows, keep)
  }

  /** `unposted_stories`: asks for rows whose `posted_date` is null and also at or after a
      date, a filter no row satisfies. */
  function UnpostedStories(l: Ledger, projectId: int, limit: int, now: int): (r: set<nat>)
    ensures r == {}
  {
    var earliest := StartOfDay(now) - limit * Day;
    set i | 0 <= i < |l.rows| && l.rows[i].projectId == projectId && l.rows[i].postedDate.None?
      && l.rows[i].aboveThreshold
      && (match l.rows[i].postedDate case Some(t) => t >= earliest case None => false)
  }

  /** Counting under a predicate that implies another gives no more rows. */
  lemma {:induction false} CountIfSubset(rows: seq<Story>, f: Story -> bool, g: Story -> bool)
    requires forall i :: 0 <= i < |rows| ==> f(rows[i]) ==> g(rows[i])
    ensures CountIf(rows, f) <= CountIf(rows, g)
  {
    if |rows| > 0 {
      var n := |rows| - 1;
      CountIfSubset(rows[..n], f, g);
    }
  }

  /** Counting under two predicates that agree on every row gives the same number. */
  lemma {:induction false} CountIfSame(rows: seq<Story>, f: Story -> bool, g: Story -> bool)
    requires forall i :: 0 <= i < |rows| ==> f(rows[i]) == g(rows[i])
    ensures CountIf(rows, f) == CountIf(rows, g)
  {
    if |rows| > 0 {
      var n := |rows| - 1;
      CountIfSame(rows[..n], f, g);
    }
  }

  /** Rows matching one of two exclusive predicates are no more than the rows matching a
      predicate both imply. */
  lemma {:induction false} CountIfDisjoint(rows: seq<Story>, f: Story -> bool, g: Story -> bool, h: Story -> bool)
    requires forall i :: 0 <= i < |rows| ==> !(f(rows[i]) && g(rows[i]))
    requires forall i :: 0 <= i < |rows| ==> (f(rows[i]) || g(rows[i])) ==> h(rows[i])
    ensures CountIf(rows, f) + CountIf(rows, g) <= CountIf(rows, h)
  {
    if |rows| > 0 {
      var n := |rows| - 1;
      CountIfDisjoint(rows[..n], f, g, h);
    }
  }

  /** Without a limit (or with limit 0) the "unposted" count is exactly the posted-above count. */
  lemma UnpostedAboveCountsPosted(l: Ledger, projectId: int, limit: Option<int>, now: int)
    requires limit.None? || limit == Some(0)
    ensures UnpostedAboveStoryCount(l, projectId, limit, now) == PostedAboveStoryCount(l, projectId)
  {
    var earliest := StartOfDay(now) - limit.GetOr(0) * Day;
    CountIfSame(l.rows, (row: Story) => IsPostedAbove(row, projectId)
      && (limit.None? || limit.value == 0 || row.postedDate.value >= earliest),
      (row: Story) => IsPostedAbove(row, projectId));
  }

  /** A project's posted-above and below counts count disjoint sets of its rows. */
  lemma CountsPartitionProjectRows(l: Ledger, projectId: int)
    ensures PostedAboveStoryCount(l, projectId) + BelowStoryCount(l, projectId)
      <= CountIf(l.rows, (row: Story) => row.projectId == projectId)
  {
    CountIfDisjoint(l.rows, (row: Story) => IsPostedAbove(row, projectId), (row: Story) => IsBelow(row, projectId),
                    (row: Story) => row.projectId == projectId);
  }
}

=== FILE: tasks.dfy ===
/** The hand-off from the fetchers to the classifier (`scripts/tasks.py`): matching stories
    to projects, admitting them into the ledger, enqueueing the worker, moving the
    watermark; plus text fetching and the summary message.
 */
module Tasks {
  import opened Base
  import opened Models
  import opened Text
  import opened StoriesDb
  import ProjectsDb
  import Seqs

  /** The messages of the exceptions raised here. */
  const UnknownFormat := "Unknown string format"

  // ---------------------------------------------------------------------------
  // Matching and admission
  // ---------------------------------------------------------------------------

  /** The non-null stories that name the project, in order. */
  function ProjectStories(stories: seq<Option<StoryDict>>, projectId: int): (r: seq<StoryDict>)
    ensures |r| <= |stories|
    ensures forall s :: s in r <==> Some(s) in stories && s.projectId == projectId
    ensures forall s :: multiset(r)[s] == if s.projectId == projectId then multiset(stories)[Some(s)] else 0
  {
    if |stories| == 0 then []
    else
      var n := |stories| - 1;
      var prev := ProjectStories(stories[..n], projectId);
      assert stories == stories[..n] + [stories[n]];
      assert multiset(stories) == multiset(stories[..n]) + multiset{stories[n]};
      match stories[n]
      case Some(s) => if s.projectId == projectId then prev + [s] else prev
      case None => prev
  }

  /** Where a fetcher guessed a publication date, it replaces `publish_date`. */
  function UseSourcePublishDate(stories: seq<StoryDict>): (r: seq<StoryDict>)
    ensures |r| == |stories|
    ensures forall i :: 0 <= i < |stories| ==>
      && r[i] == stories[i].(publishDate := r[i].publishDate)
      && (stories[i].sourcePublishDate.Some? ==> r[i].publishDate == Text(stories[i].sourcePublishDate.value))
      && (stories[i].sourcePublishDate.None? ==> r[i] == stories[i])
  {
    seq(|stories|, i requires 0 <= i < |stories| =>
      match stories[i].sourcePublishDate
      case Some(d) => stories[i].(publishDate := Text(d))
      case None => stories[i])
  }

  /** `max(dateutil.parser.parse(s["source_publish_date"]) for s in stories)`: a story
      without the key, or a date that does not parse, raises. */
  function LatestSourceDate(stories: seq<StoryDict>, parse: string -> Option<int>): (r: Result<int>)
    requires |stories| > 0
    ensures r.Ok? <==> forall i :: 0 <= i < |stories| ==>
      stories[i].sourcePublishDate.Some? && parse(stories[i].sourcePublishDate.value).Some?
    ensures r.Ok? ==> forall i :: 0 <= i < |stories| ==> parse(stories[i].sourcePublishDate.value).value <= r.value
    ensures r.Ok? ==> exists i :: 0 <= i < |stories| && parse(stories[i].sourcePublishDate.value) == Some(r.value)
  {
    var n := |stories| - 1;
    var s := stories[n];
    if s.sourcePublishDate.None? then
      if n > 0 && LatestSourceDate(stories[..n], parse).Err? then LatestSourceDate(stories[..n], parse)
      else Err(KeyError("source_publish_date"))
    else
      match parse(s.sourcePublishDate.value)
      case None =>
        if n > 0 && LatestSourceDate(stories[..n], parse).Err? then LatestSourceDate(stories[..n], parse)
        else Err(ValueError(UnknownFormat))
      case Some(t) =>
        if n == 0 then Ok(t)
        else
          assert forall i :: 0 <= i < n ==> stories[..n][i] == stories[i];
          match LatestSourceDate(stories[..n], parse)
          case Err(f) => Err(f)
          case Ok(m) => Ok(Max(m, t))
  }

  /** A worker task put on the queue: the project and the stories it receives. */
  datatype Enqueued = Enqueued(project: Project, stories: seq<StoryDict>)

  /** The state of `queue_stories_for_classification` between projects, with the number of
      projects the loop has begun. An exception ends the loop; what was committed and
      enqueued before it stays. */
  datatype QueueRun = QueueRun(
    ledger: Ledger,
    histories: ProjectsDb.Histories,
    queued: seq<Enqueued>,
    emailText: string,
    stories: nat,
    failure: Option<Failure>,
    reached: nat)

  /** The summary line for one project. */
  function ProjectLine(p: Project, n: nat): string {
    "Project " + IntToString(p.id) + " - " + p.title + ": " + IntToString(n) + " stories\n"
  }

  /** After some stories were admitted: the worker is enqueued with exactly the admitted
      list, and only then is the watermark for the source moved to their latest guessed
      date. Parsing those dates or finding the history row may raise, after the enqueue. */
  function EnqueueAndMark(st: QueueRun, p: Project, admitted: seq<StoryDict>, source: Source, now: int,
                          parseSource: string -> Option<int>): (r: QueueRun)
    requires |admitted| > 0 && st.failure.None?
    ensures r.ledger == st.ledger && r.stories == st.stories && r.emailText == st.emailText
    ensures r.queued == st.queued + [Enqueued(p, admitted)]
    ensures r.failure.None? <==>
      && LatestSourceDate(admitted, parseSource).Ok?
      && p.id in st.histories
    ensures r.failure.None? ==>
      r.histories == ProjectsDb.UpdateHistory(st.histories, p.id, LatestSourceDate(admitted, parseSource).value,
                                              source, now).value
    ensures r.failure.Some? ==> r.histories == st.histories
  {
    var st1 := st.(queued := st.queued + [Enqueued(p, admitted)]);
    match LatestSourceDate(admitted, parseSource)
    case Err(f) => st1.(failure := Some(f))
    case Ok(latest) =>
      match ProjectsDb.UpdateHistory(st1.histories, p.id, latest, source, now)
      case Err(f) => st1.(failure := Some(f))
      case Ok(h) => st1.(histories := h)
  }

  /** The ledger part of a turn with matched stories: they are added to the ledger. An
      exception from the ledger leaves the run as it was, apart from the exception.
      Otherwise the ledger is the one `AddStories` left, and when some stories are admitted
      exactly one task, holding exactly those, is enqueued and the watermark moves
      (`EnqueueAndMark`); the turn raises exactly when the ledger or the watermark update
      does. */
  function AdmitAndEnqueue(st: QueueRun, p: Project, page: seq<StoryDict>, source: Source, now: int,
                           o: Oracles, parseSource: string -> Option<int>): (r: QueueRun)
    requires Valid(st.ledger) && st.failure.None?
    ensures Valid(r.ledger)
    ensures r.stories == st.stories && r.emailText == st.emailText
    ensures var added := AddStories(st.ledger, page, p, source, now, o);
      added.Err? ==>
        r.ledger == st.ledger && r.queued == st.queued && r.histories == st.histories && r.failure == Some(added.failure)
    ensures var added := AddStories(st.ledger, page, p, source, now, o);
      added.Ok? ==> r.ledger == added.value.ledger
    ensures var added := AddStories(st.ledger, page, p, source, now, o);
      added.Ok? && |added.value.admitted| == 0 ==>
        r.queued == st.queued && r.histories == st.histories && r.failure.None?
    ensures var added := AddStories(st.ledger, page, p, source, now, o);
      added.Ok? && |added.value.admitted| > 0 ==> r.queued == st.queued + [Enqueued(p, added.value.admitted)]
    ensures var added := AddStories(st.ledger, page, p, source, now, o);
      r.failure.Some? <==>
        || added.Err?
        || (&& |added.value.admitted| > 0
            && (LatestSourceDate(added.value.admitted, parseSource).Err? || p.id !in st.histories))
    ensures var added := AddStories(st.ledger, page, p, source, now, o);
      added.Ok? && |added.value.admitted| > 0 && r.failure.None? ==>
        r.histories == ProjectsDb.UpdateHistory(st.histories, p.id, LatestSourceDate(added.value.admitted, parseSource).value,
                                                source, now).value
    ensures r.failure.Some? ==> r.histories == st.histories
  {
    match AddStories(st.ledger, page, p, source, now, o)
    case Err(f) => st.(failure := Some(f))
    case Ok(added) =>
      var st1 := st.(ledger := added.ledger);
      if |added.admitted| == 0 then st1
      else EnqueueAndMark(st1, p, added.admitted, source, now, parseSource)
  }

  /** One project of the loop: its matched stories are counted and the project's line is
      added to the summary; with no match nothing else happens, and otherwise the stories,
      with their guessed dates, go through `AdmitAndEnqueue`. */
  function QueueProject(st: QueueRun, p: Project, stories: seq<Option<StoryDict>>, source: Source, now: int,
                        o: Oracles, parseSource: string -> Option<int>): (r: QueueRun)
    requires Valid(st.ledger) && st.failure.None?
    ensures Valid(r.ledger)
    ensures r.stories == st.stories + |ProjectStories(stories, p.id)|
    ensures r.emailText == st.emailText + ProjectLine(p, |ProjectStories(stories, p.id)|)
    ensures |ProjectStories(stories, p.id)| == 0 ==>
      r.ledger == st.ledger && r.queued == st.queued && r.histories == st.histories && r.failure.None?
    ensures |ProjectStories(stories, p.id)| > 0 ==>
      var page := UseSourcePublishDate(ProjectStories(stories, p.id));
      var turn := AdmitAndEnqueue(st, p, page, source, now, o, parseSource);
      r.ledger == turn.ledger && r.queued == turn.queued && r.histories == turn.histories && r.failure == turn.failure
  {
    var ps := ProjectStories(stories, p.id);
    var turn := if |ps| == 0 then st else AdmitAndEnqueue(st, p, UseSourcePublishDate(ps), source, now, o, parseSource);
    turn.(emailText := st.emailText + ProjectLine(p, |ps|), stories := st.stories + |ps|)
  }

  /** How many stories match each of the first `n` projects, summed over those projects. */
  function MatchedTotal(projects: seq<Project>, n: nat, stories: seq<Option<StoryDict>>): nat
    requires n <= |projects|
  {
    if n == 0 then 0 else MatchedTotal(projects, n - 1, stories) + |ProjectStories(stories, projects[n - 1].id)|
  }

  /** The summary lines of the first `n` projects, in project order. */
  function EmailLines(projects: seq<Project>, n: nat, stories: seq<Option<StoryDict>>): string
    requires n <= |projects|
  {
    if n == 0 then ""
    else EmailLines(projects, n - 1, stories) + ProjectLine(projects[n - 1], |ProjectStories(stories, projects[n - 1].id)|)
  }

  /** The stories of a task name its project and carry the id of their ledger row. */
  predicate TaskLogged(e: Enqueued) {
    forall s :: s in e.stories ==> s.projectId == e.project.id && s.logDbId.Some?
  }

  /** The tasks go to the first `n` projects, at most one each; none is empty, and each
      holds logged stories of its project. */
  predicate TasksCover(q: seq<Enqueued>, projects: seq<Project>, n: nat)
    requires n <= |projects|
  {
    && |q| <= n
    && (forall k :: 0 <= k < |q| ==> |q[k].stories| > 0 && exists j :: 0 <= j < n && q[k].project == projects[j])
    && forall k :: 0 <= k < |q| ==> TaskLogged(q[k])
  }

  /** What holds of a run that has reached the first `n` projects: the tasks go to
      projects reached, carry no more stories than the total, and the total and summary
      lines cover exactly those projects. */
  predicate RunCovers(r: QueueRun, projects: seq<Project>, n: nat, stories: seq<Option<StoryDict>>)
    requires n <= |projects|
  {
    && r.reached == n
    && TasksCover(r.queued, projects, n)
    && QueuedCount(r.queued) <= r.stories
    && r.stories == MatchedTotal(projects, n, stories)
    && r.emailText == EmailLines(projects, n, stories)
  }

  /** The message of the guard of `TurnOf`, which the loop never reaches. */
  const OutsideLoop := "project turn outside the loop"

  /** A turn of the loop: the run after the `k`-th project (counting from 1), given the run
      before it. */
  type Turn = (QueueRun, nat) -> QueueRun

  /** The loop over the first `n` turns, stopping at the first exception: a run that raised
      is passed on untouched. */
  function Loop(init: QueueRun, n: nat, turn: Turn): (r: QueueRun)
    ensures r == init || r.reached <= n
  {
    if n == 0 then init
    else
      var prev := Loop(init, n - 1, turn);
      if prev.failure.Some? then prev else turn(prev, n).(reached := n)
  }

  /** The turn of the `k`-th project: `QueueProject`. The loop only turns from a run with a
      valid ledger and no exception, within the projects, so the guard always holds where it
      is used. */
  function TurnOf(projects: seq<Project>, stories: seq<Option<StoryDict>>, source: Source, now: int,
                  o: Oracles, parseSource: string -> Option<int>): Turn
  {
    (prev: QueueRun, k: nat) =>
      if Valid(prev.ledger) && prev.failure.None? && 0 < k <= |projects| then
        QueueProject(prev, projects[k - 1], stories, source, now, o, parseSource)
      else prev.(failure := Some(RuntimeError(OutsideLoop)))
  }

  /** Every turn within the projects keeps the ledger valid and adds what `TurnAdds` says. */
  ghost predicate AddsPerProject(turn: Turn, projects: seq<Project>, stories: seq<Option<StoryDict>>) {
    forall prev: QueueRun, k: nat :: Valid(prev.ledger) && prev.failure.None? && 0 < k <= |projects| ==>
      Valid(turn(prev, k).ledger) && TurnAdds(prev, turn(prev, k), projects, k, stories)
  }

  /** `QueueProject` adds, for its project, the matched stories, the summary line, and at most
      one non-empty task of logged stories holding no more than were matched. */
  lemma TurnOfAdds(projects: seq<Project>, stories: seq<Option<StoryDict>>, source: Source, now: int,
                   o: Oracles, parseSource: string -> Option<int>)
    ensures AddsPerProject(TurnOf(projects, stories, source, now, o, parseSource), projects, stories)
  {
    var turn := TurnOf(projects, stories, source, now, o, parseSource);
    forall prev: QueueRun, k: nat | Valid(prev.ledger) && prev.failure.None? && 0 < k <= |projects|
      ensures Valid(turn(prev, k).ledger) && TurnAdds(prev, turn(prev, k), projects, k, stories)
    {
      QueueProjectAdds(prev, projects, k, stories, source, now, o, parseSource);
    }
  }

  /** `QueueProject` for the `k`-th project adds what `TurnAdds` says. */
  lemma QueueProjectAdds(prev: QueueRun, projects: seq<Project>, k: nat, stories: seq<Option<StoryDict>>,
                         source: Source, now: int, o: Oracles, parseSource: string -> Option<int>)
    requires Valid(prev.ledger) && prev.failure.None? && 0 < k <= |projects|
    ensures var r := QueueProject(prev, projects[k - 1], stories, source, now, o, parseSource);
      Valid(r.ledger) && TurnAdds(prev, r, projects, k, stories)
  {
    QueueProjectWithinMatched(prev, projects[k - 1], stories, source, now, o, parseSource);
    EnqueuedStoriesAreLogged(prev, projects[k - 1], stories, source, now, o, parseSource);
  }

  /** The run at the start: nothing queued, counted or written, no project reached. */
  function Start(l: Ledger, h: ProjectsDb.Histories): QueueRun {
    QueueRun(l, h, [], "", 0, None, 0)
  }

  /** With turns that add per project, the loop reaches all `n` projects unless one raises,
      and then the raising project is the last one reached; the run covers exactly the
      projects reached. */
  lemma {:induction false} LoopCovers(l: Ledger, h: ProjectsDb.Histories, projects: seq<Project>, n: nat,
                                      stories: seq<Option<StoryDict>>, turn: Turn)
    requires Valid(l) && n <= |projects| && AddsPerProject(turn, projects, stories)
    ensures var r := Loop(Start(l, h), n, turn);
      && Valid(r.ledger)
      && r.reached <= n && (r.failure.None? ==> r.reached == n) && (r.failure.Some? ==> r.reached > 0)
      && RunCovers(r, projects, r.reached, stories)
  {
    if n > 0 {
      LoopCovers(l, h, projects, n - 1, stories, turn);
      var prev := Loop(Start(l, h), n - 1, turn);
      if prev.failure.None? {
        CoversStep(prev, turn(prev, n), projects, n, stories);
      }
    }
  }

  /** After a turn raises, no later turn is run: for every `m` from the raising turn on, the
      run up to `m` is the run as the exception left it, ledger and watermarks included. */
  lemma {:induction false} LoopSkips(init: QueueRun, turn: Turn, failing: nat, m: nat)
    requires failing <= m
    requires Loop(init, failing, turn).failure.Some?
    ensures Loop(init, m, turn) == Loop(init, failing, turn)
    decreases m
  {
    if m > failing {
      LoopSkips(init, turn, failing, m - 1);
    }
  }

  /** The loop over the first `n` projects, each turn being `QueueProject`, stopping at the
      first exception. It reaches all `n` unless one raises, and then the raising project is
      the last one reached. The tasks go to projects reached, and the total and the summary
      lines cover exactly those projects. */
  function QueueUpTo(l: Ledger, h: ProjectsDb.Histories, projects: seq<Project>, n: nat, stories: seq<Option<StoryDict>>,
                     source: Source, now: int, o: Oracles, parseSource: string -> Option<int>): (r: QueueRun)
    requires Valid(l) && n <= |projects|
    ensures Valid(r.ledger)
    ensures r.reached <= n && (r.failure.None? ==> r.reached == n) && (r.failure.Some? ==> r.reached > 0)
    ensures RunCovers(r, projects, r.reached, stories)
  {
    TurnOfAdds(projects, stories, source, now, o, parseSource);
    LoopCovers(l, h, projects, n, stories, TurnOf(projects, stories, source, now, o, parseSource));
    Loop(Start(l, h), n, TurnOf(projects, stories, source, now, o, parseSource))
  }

  /** After a project raises, no later one is run: for every `m` from the raising project
      to the last, the run up to `m` is the run up to the raising project. */
  lemma QueueUpToSkips(l: Ledger, h: ProjectsDb.Histories, projects: seq<Project>,
                       stories: seq<Option<StoryDict>>, source: Source, now: int,
                       o: Oracles, parseSource: string -> Option<int>, failing: nat, m: nat)
    requires Valid(l)
    requires failing <= m <= |projects|
    requires QueueUpTo(l, h, projects, failing, stories, source, now, o, parseSource).failure.Some?
    ensures QueueUpTo(l, h, projects, m, stories, source, now, o, parseSource)
         == QueueUpTo(l, h, projects, failing, stories, source, now, o, parseSource)
  {
    LoopSkips(Start(l, h), TurnOf(projects, stories, source, now, o, parseSource), failing, m);
  }

  /** What one turn adds to the run, for the `n`-th project. */
  predicate TurnAdds(prev: QueueRun, r: QueueRun, projects: seq<Project>, n: nat, stories: seq<Option<StoryDict>>)
    requires 0 < n <= |projects|
  {
    && LineAdded(prev.emailText, r.emailText, prev.stories, r.stories, projects, n, stories)
    && TaskAdded(prev.queued, r.queued, projects, n)
    && QueuedCount(r.queued) <= QueuedCount(prev.queued) + |ProjectStories(stories, projects[n - 1].id)|
  }

  /** The turn for the `n`-th project adds its matched stories to the total and its line
      to the summary. */
  predicate LineAdded(textBefore: string, textAfter: string, totalBefore: nat, totalAfter: nat,
                      projects: seq<Project>, n: nat, stories: seq<Option<StoryDict>>)
    requires 0 < n <= |projects|
  {
    var matched := |ProjectStories(stories, projects[n - 1].id)|;
    textAfter == textBefore + ProjectLine(projects[n - 1], matched) && totalAfter == totalBefore + matched
  }

  /** The turn for the `n`-th project adds at most one task, for that project, not empty. */
  predicate TaskAdded(before: seq<Enqueued>, after: seq<Enqueued>, projects: seq<Project>, n: nat)
    requires 0 < n <= |projects|
  {
    && (after == before || (|after| > 0 && after == before + [after[|after| - 1]]))
    && (|after| != |before| ==>
          after[|before|].project == projects[n - 1] && |after[|before|].stories| > 0 && TaskLogged(after[|before|]))
  }

  /** One turn of the loop keeps `RunCovers`, one project further on. */
  lemma CoversStep(prev: QueueRun, r: QueueRun, projects: seq<Project>, n: nat, stories: seq<Option<StoryDict>>)
    requires 0 < n <= |projects|
    requires prev.reached == n - 1 && RunCovers(prev, projects, prev.reached, stories)
    requires TurnAdds(prev, r, projects, n, stories)
    ensures RunCovers(r.(reached := n), projects, n, stories)
  {
    TasksStep(prev.queued, r.queued, projects, n);
    LinesStep(prev.emailText, r.emailText, prev.stories, r.stories, projects, prev.reached, n, stories);
  }

  /** The total and the summary of one turn further on. */
  lemma LinesStep(textBefore: string, textAfter: string, totalBefore: nat, totalAfter: nat,
                  projects: seq<Project>, m: nat, n: nat, stories: seq<Option<StoryDict>>)
    requires 0 < n <= |projects| && m == n - 1
    requires textBefore == EmailLines(projects, m, stories) && totalBefore == MatchedTotal(projects, m, stories)
    requires LineAdded(textBefore, textAfter, totalBefore, totalAfter, projects, n, stories)
    ensures textAfter == EmailLines(projects, n, stories) && totalAfter == MatchedTotal(projects, n, stories)
  {
  }

  /** The task part of `CoversStep`: the tasks so far go to the first `n - 1` projects, and
      the turn adds at most one, for project `n`. */
  lemma TasksStep(before: seq<Enqueued>, after: seq<Enqueued>, projects: seq<Project>, n: nat)
    requires 0 < n <= |projects|
    requires TasksCover(before, projects, n - 1) && TaskAdded(before, after, projects, n)
    ensures TasksCover(after, projects, n)
  {
    forall k | 0 <= k < |after|
      ensures |after[k].stories| > 0 && TaskLogged(after[k])
      ensures exists j :: 0 <= j < n && after[k].project == projects[j]
    {
      if k < |before| {
        assert after[k] == before[k];
      } else {
        assert after[k].project == projects[n - 1];
      }
    }
  }

  /** The loop over all the projects (`QueueUpTo` all of them). Without an exception, every
      project contributes its summary line and its matched stories to the total. */
  function QueueAll(l: Ledger, h: ProjectsDb.Histories, projects: seq<Project>, stories: seq<Option<StoryDict>>,
                    source: Source, now: int, o: Oracles, parseSource: string -> Option<int>): (r: QueueRun)
    requires Valid(l)
    ensures Valid(r.ledger)
    ensures |r.queued| <= |projects|
    ensures forall k :: 0 <= k < |r.queued| ==> |r.queued[k].stories| > 0 && r.queued[k].project in projects
    ensures forall k :: 0 <= k < |r.queued| ==>
      forall s :: s in r.queued[k].stories ==> s.projectId == r.queued[k].project.id && s.logDbId.Some?
    ensures r.failure.None? ==>
      r.stories == MatchedTotal(projects, |projects|, stories) && r.emailText == EmailLines(projects, |projects|, stories)
  {
    QueueUpTo(l, h, projects, |projects|, stories, source, now, o, parseSource)
  }

  /** The dictionary `queue_stories_for_classification` returns. */
  datatype Summary = Summary(emailText: string, projectCount: nat, stories: nat)

  /** `queue_stories_for_classification`: the summary, the ledger, the watermarks and the
      enqueued tasks; an exception from any project is raised with the effects so far. */
  function QueueStoriesForClassification(l: Ledger, h: ProjectsDb.Histories, projects: seq<Project>,
                                         stories: seq<Option<StoryDict>>, source: Source, now: int, o: Oracles,
                                         parseSource: string -> Option<int>): (r: (QueueRun, Result<Summary>))
    requires Valid(l)
    ensures r.1.Ok? <==> r.0.failure.None?
    ensures r.1.Ok? ==> r.1.value.projectCount == |projects| && r.1.value.stories == r.0.stories
    ensures r.1.Ok? ==> r.1.value.stories == MatchedTotal(projects, |projects|, stories)
    ensures r.1.Ok? ==> r.1.value.emailText == EmailLines(projects, |projects|, stories)
    ensures Valid(r.0.ledger)
    ensures |r.0.queued| <= |projects|
    ensures forall k :: 0 <= k < |r.0.queued| ==> |r.0.queued[k].stories| > 0 && r.0.queued[k].project in projects
    ensures forall k :: 0 <= k < |r.0.queued| ==>
      forall s :: s in r.0.queued[k].stories ==> s.projectId == r.0.queued[k].project.id && s.logDbId.Some?
  {
    var run := QueueAll(l, h, projects, stories, source, now, o, parseSource);
    (run, if run.failure.Some? then Err(run.failure.value)
          else Ok(Summary(run.emailText, |projects|, run.stories)))
  }

  /** The reported total counts matched stories before deduplication, so it is at least the
      number of stories handed to workers, whether or not a project raised. */
  lemma QueuedWithinTotal(l: Ledger, h: ProjectsDb.Histories, projects: seq<Project>,
                          stories: seq<Option<StoryDict>>, source: Source, now: int, o: Oracles,
                          parseSource: string -> Option<int>)
    requires Valid(l)
    ensures var r := QueueAll(l, h, projects, stories, source, now, o, parseSource);
      QueuedCount(r.queued) <= r.stories
  {
    var r := QueueUpTo(l, h, projects, |projects|, stories, source, now, o, parseSource);
    assert RunCovers(r, projects, r.reached, stories);
  }

  /** One project adds at most its matched stories to the queue. */
  lemma QueueProjectWithinMatched(st: QueueRun, p: Project, stories: seq<Option<StoryDict>>, source: Source, now: int,
                                  o: Oracles, parseSource: string -> Option<int>)
    requires Valid(st.ledger) && st.failure.None?
    ensures var r := QueueProject(st, p, stories, source, now, o, parseSource);
      QueuedCount(r.queued) <= QueuedCount(st.queued) + |ProjectStories(stories, p.id)|
  {
    if |ProjectStories(stories, p.id)| > 0 {
      AdmitWithinPage(st, p, UseSourcePublishDate(ProjectStories(stories, p.id)), source, now, o, parseSource);
    }
  }

  /** A turn with matched stories adds at most the page to the queue. */
  lemma AdmitWithinPage(st: QueueRun, p: Project, page: seq<StoryDict>, source: Source, now: int,
                        o: Oracles, parseSource: string -> Option<int>)
    requires Valid(st.ledger) && st.failure.None?
    ensures QueuedCount(AdmitAndEnqueue(st, p, page, source, now, o, parseSource).queued)
            <= QueuedCount(st.queued) + |page|
  {
    var added := AddStories(st.ledger, page, p, source, now, o);
    if added.Ok? && |added.value.admitted| > 0 {
      AdmittedWithinPage(st.ledger, page, p, source, now, o);
      QueuedCountAppend(st.queued, Enqueued(p, added.value.admitted));
    }
  }

  /** The ledger admits no more stories than the page holds. */
  lemma AdmittedWithinPage(l: Ledger, page: seq<StoryDict>, p: Project, source: Source, now: int, o: Oracles)
    requires Valid(l)
    ensures var added := AddStories(l, page, p, source, now, o);
      added.Ok? ==> |added.value.admitted| <= |page|
  {
    if AddStories(l, page, p, source, now, o).Ok? {
      AddStoriesAdmitsFromPage(l, page, p, source, now, o);
    }
  }

  /** How many stories a list of tasks carries. */
  function QueuedCount(q: seq<Enqueued>): nat {
    if |q| == 0 then 0 else QueuedCount(q[..|q| - 1]) + |q[|q| - 1].stories|
  }

  lemma QueuedCountAppend(q: seq<Enqueued>, e: Enqueued)
    ensures QueuedCount(q + [e]) == QueuedCount(q) + |e.stories|
  {
    assert (q + [e])[..|q|] == q;
  }

  /** The stories the ledger admits from a page of the project's stories carry the
      project's id and the id of their ledger row. */
  lemma AdmittedAreLogged(l: Ledger, p: Project, page: seq<StoryDict>, source: Source, now: int, o: Oracles)
    requires Valid(l)
    requires AddStories(l, page, p, source, now, o).Ok?
    requires forall i :: 0 <= i < |page| ==> page[i].projectId == p.id
    ensures forall s :: s in AddStories(l, page, p, source, now, o).value.admitted ==>
      s.projectId == p.id && s.logDbId.Some?
  {
    AddStoriesAdmitsFromPage(l, page, p, source, now, o);
    var admitted := AddStories(l, page, p, source, now, o).value.admitted;
    forall s | s in admitted ensures s.projectId == p.id && s.logDbId.Some? {
      var k :| 0 <= k < |admitted| && admitted[k] == s;
      var i :| 0 <= i < |page| && admitted[k] == page[i].(logDbId := admitted[k].logDbId);
    }
  }

  /** Every story of a project's page names the project. */
  lemma MatchedPageIsTheProjects(stories: seq<Option<StoryDict>>, p: Project)
    ensures var page := UseSourcePublishDate(ProjectStories(stories, p.id));
      forall i :: 0 <= i < |page| ==> page[i].projectId == p.id
  {
    var matched := ProjectStories(stories, p.id);
    forall i | 0 <= i < |matched| ensures matched[i].projectId == p.id {
      assert matched[i] in matched;
    }
  }

  /** The task a turn with matched stories enqueues holds stories of the project, each with
      the id of its ledger row. */
  lemma AdmitLogs(st: QueueRun, p: Project, page: seq<StoryDict>, source: Source, now: int,
                  o: Oracles, parseSource: string -> Option<int>)
    requires Valid(st.ledger) && st.failure.None?
    requires forall i :: 0 <= i < |page| ==> page[i].projectId == p.id
    ensures var r := AdmitAndEnqueue(st, p, page, source, now, o, parseSource);
      |r.queued| != |st.queued| ==>
        forall s :: s in r.queued[|st.queued|].stories ==> s.projectId == p.id && s.logDbId.Some?
  {
    if AddStories(st.ledger, page, p, source, now, o).Ok? {
      AdmittedAreLogged(st.ledger, p, page, source, now, o);
    }
  }

  /** The stories enqueued for a project all carry its id and the id of their ledger row. */
  lemma EnqueuedStoriesAreLogged(st: QueueRun, p: Project, stories: seq<Option<StoryDict>>, source: Source, now: int,
                                 o: Oracles, parseSource: string -> Option<int>)
    requires Valid(st.ledger) && st.failure.None?
    ensures var r := QueueProject(st, p, stories, source, now, o, parseSource);
      |r.queued| != |st.queued| ==>
        forall s :: s in r.queued[|st.queued|].stories ==> s.projectId == p.id && s.logDbId.Some?
  {
    if |ProjectStories(stories, p.id)| > 0 {
      MatchedPageIsTheProjects(stories, p);
      AdmitLogs(st, p, UseSourcePublishDate(ProjectStories(stories, p.id)), source, now, o, parseSource);
    }
  }

  /** After a project's stories are enqueued without error, its watermark for the source is
      the latest guessed date among them: none lies after it, and one equals it. */
  lemma WatermarkIsLatestEnqueued(st: QueueRun, p: Project, admitted: seq<StoryDict>, source: Source,
                                  now: int, parseSource: string -> Option<int>)
    requires |admitted| > 0 && st.failure.None? && source != GoogleAlerts
    ensures var r := EnqueueAndMark(st, p, admitted, source, now, parseSource);
      r.failure.None? ==>
        && p.id in r.histories
        && var w := ProjectsDb.Watermark(r.histories[p.id], source);
        && w.Some?
        && (forall s :: s in admitted ==>
             s.sourcePublishDate.Some? && parseSource(s.sourcePublishDate.value).Some?
             && parseSource(s.sourcePublishDate.value).value <= w.value)
        && exists s :: s in admitted && parseSource(s.sourcePublishDate.value) == w
  {
    var r := EnqueueAndMark(st, p, admitted, source, now, parseSource);
    if r.failure.None? {
      var latest := LatestSourceDate(admitted, parseSource).value;
      ProjectsDb.UpdateThenGet(st.histories, p.id, latest, source, now);
      forall s | s in admitted
        ensures s.sourcePublishDate.Some? && parseSource(s.sourcePublishDate.value).Some?
        ensures parseSource(s.sourcePublishDate.value).value <= latest
      {
        var k :| 0 <= k < |admitted| && admitted[k] == s;
      }
      var i :| 0 <= i < |admitted| && parseSource(admitted[i].sourcePublishDate.value) == Some(latest);
      assert admitted[i] in admitted;
    }
  }

  // ---------------------------------------------------------------------------
  // Text fetching
  // ---------------------------------------------------------------------------

  /** What `mcmetadata.extract` yields for a URL: its text and its publication date (`None`
      when none was found). */
  datatype Extracted = Extracted(textContent: string, publicationDate: Option<int>)

  /** `fetch_text_task`: `None` when extraction fails; otherwise a copy of the story with
      `story_text` and `publish_date` from the extraction and every other key as it was. */
  function FetchTextTask(story: StoryDict, extract: string -> Option<Extracted>): (r: Option<StoryDict>)
    ensures r.None? <==> extract(story.url).None?
    ensures r.Some? ==> r.value == story.(storyText := r.value.storyText, publishDate := r.value.publishDate)
    ensures r.Some? ==> r.value.storyText == Some(extract(story.url).value.textContent)
    ensures r.Some? ==> (r.value.publishDate.At? <==> extract(story.url).value.publicationDate.Some?)
    ensures r.Some? && extract(story.url).value.publicationDate.Some? ==>
      r.value.publishDate == At(extract(story.url).value.publicationDate.value)
    ensures r.Some? && extract(story.url).value.publicationDate.None? ==> r.value.publishDate == Null
  {
    match extract(story.url)
    case None => None
    case Some(e) =>
      Some(story.(storyText := Some(e.textContent),
                  publishDate := match e.publicationDate case Some(t) => At(t) case None => Null))
  }

  /** The date a page gave does not reach the ledger for a story that carries a
      `source_publish_date`, as every Google Alerts story does: before `add_stories` the
      queueing step puts that date in `publish_date`, whatever `fetch_text_task` found, and
      the row's date is the one parsed from it. */
  lemma FetchedDateIsOverwritten(story: StoryDict, extract: string -> Option<Extracted>, source: Source,
                                 parse: string -> Option<int>)
    requires FetchTextTask(story, extract).Some?
    requires story.sourcePublishDate.Some?
    requires source != MediaCloud
    ensures var s := UseSourcePublishDate([FetchTextTask(story, extract).value])[0];
      && s.publishDate == Text(story.sourcePublishDate.value)
      && s.storyText == Some(extract(story.url).value.textContent)
    ensures var d := FromSource(UseSourcePublishDate([FetchTextTask(story, extract).value])[0], source, parse);
      && (d.Ok? <==> parse(story.sourcePublishDate.value).Some?)
      && (d.Ok? ==> Some(d.value.publishedDate) == parse(story.sourcePublishDate.value))
  {
    var f := FetchTextTask(story, extract).value;
    assert f.sourcePublishDate == story.sourcePublishDate;
    var s := UseSourcePublishDate([f])[0];
    assert s.publishDate == Text(story.sourcePublishDate.value);
  }

  // ---------------------------------------------------------------------------
  // Summary messages
  // ---------------------------------------------------------------------------

  /** `_get_combined_text`. */
  function CombinedText(projectCount: nat, emailText: string, storyCount: nat, dataSource: Source): (r: string)
    ensures |r| == |CombinedHead(projectCount)| + |emailText| + |CombinedTail(storyCount, dataSource)|
    ensures r[..|CombinedHead(projectCount)|] == CombinedHead(projectCount)
    ensures r[|CombinedHead(projectCount)|..|CombinedHead(projectCount)| + |emailText|] == emailText
    ensures r[|CombinedHead(projectCount)| + |emailText|..] == CombinedTail(storyCount, dataSource)
  {
    CombinedHead(projectCount) + emailText + CombinedTail(storyCount, dataSource)
  }

  /** The fixed parts of the summary text. */
  const CheckingLabel := "Checking "
  const ProjectsLabel := " projects.\n\n"
  const PulledLabel := "\nDone - pulled "
  const SignOffLabel := " stories.\n\n(An automated email from your friendly neighborhood "
  const ProcessorLabel := " story processor)"

  function CombinedHead(projectCount: nat): string {
    CheckingLabel + NatToString(projectCount) + ProjectsLabel
  }

  function CombinedTail(storyCount: nat, dataSource: Source): string {
    PulledLabel + NatToString(storyCount) + SignOff(dataSource)
  }

  function SignOff(dataSource: Source): string {
    SignOffLabel + dataSource.Name() + ProcessorLabel
  }

  /** The project count reads back from the head of the message: the digits after
      "Checking ". */
  lemma ProjectCountReadsBack(projectCount: nat)
    ensures var h := CombinedHead(projectCount); var n := |NatToString(projectCount)|;
      && |CheckingLabel| + n <= |h| && h[..|CheckingLabel|] == CheckingLabel
      && (forall i :: |CheckingLabel| <= i < |CheckingLabel| + n ==> '0' <= h[i] <= '9')
      && DigitsValue(h[|CheckingLabel|..|CheckingLabel| + n]) == projectCount
  {
    NumberReadsBack(CheckingLabel, projectCount, ProjectsLabel);
  }

  /** The story count reads back from the tail of the message: the digits after
      "Done - pulled ". */
  lemma StoryCountReadsBack(storyCount: nat, dataSource: Source)
    ensures var t := CombinedTail(storyCount, dataSource); var m := |NatToString(storyCount)|;
      && |PulledLabel| + m <= |t| && t[..|PulledLabel|] == PulledLabel
      && (forall i :: |PulledLabel| <= i < |PulledLabel| + m ==> '0' <= t[i] <= '9')
      && DigitsValue(t[|PulledLabel|..|PulledLabel| + m]) == storyCount
  {
    NumberReadsBack(PulledLabel, storyCount, SignOff(dataSource));
  }

  /** The per-project entry of the fetchers' summaries. */
  datatype ProjectDetail = ProjectDetail(emailText: string, stories: nat)

  /** The total and the concatenated text `send_project_list_email` and
      `send_project_list_slack_message` pass on. */
  function ListTotals(details: seq<ProjectDetail>): (r: (nat, string))
    ensures |details| == 0 ==> r == (0, "")
  {
    if |details| == 0 then (0, "")
    else
      var prev := ListTotals(details[..|details| - 1]);
      (prev.0 + details[|details| - 1].stories, prev.1 + details[|details| - 1].emailText)
  }

  /** Totals split over any cut of the list: the sum and the text are taken in order. */
  lemma {:induction false} ListTotalsAppend(a: seq<ProjectDetail>, b: seq<ProjectDetail>)
    ensures ListTotals(a + b).0 == ListTotals(a).0 + ListTotals(b).0
    ensures ListTotals(a + b).1 == ListTotals(a).1 + ListTotals(b).1
    decreases |b|
  {
    if |b| == 0 {
      assert a + b == a;
    } else {
      var n := |b| - 1;
      assert (a + b)[..|a + b| - 1] == a + b[..n];
      ListTotalsAppend(a, b[..n]);
    }
  }

  /** The message of `send_project_list_email` / `send_project_list_slack_message`. */
  function ProjectListMessage(details: seq<ProjectDetail>, dataSource: Source): (r: string)
    ensures var head := CombinedHead(|details|);
      && |head| + |ListTotals(details).1| <= |r| && r[..|head|] == head
      && r[|head|..|head| + |ListTotals(details).1|] == ListTotals(details).1
    ensures var tail := CombinedTail(ListTotals(details).0, dataSource);
      |tail| <= |r| && r[|r| - |tail|..] == tail
  {
    var totals := ListTotals(details);
    CombinedText(|details|, totals.1, totals.0, dataSource)
  }
}

=== FILE: text.dfy ===
/** The string and list primitives the pipeline leans on: Python's
    `str.replace` of curly quotes, `str.split`, `str.strip`, `str.lower`,
    `str(int)`, `list(set(...))` and `max(...)`.
 */
module Text {

  const LeftCurly: char := '\U{201C}'
  const RightCurly: char := '\U{201D}'

  /** `terms.replace("“", '"').replace("”", '"')`: both curly double quotes become `"`. */
  function ReplaceCurlies(s: string): (r: string)
    ensures |r| == |s|
    ensures forall i :: 0 <= i < |s| ==>
      r[i] == (if s[i] == LeftCurly || s[i] == RightCurly then '"' else s[i])
    ensures LeftCurly !in r && RightCurly !in r
  {
    if |s| == 0 then ""
    else [if s[0] == LeftCurly || s[0] == RightCurly then '"' else s[0]] + ReplaceCurlies(s[1..])
  }

  /** `str.split(sep)` with an explicit one-character separator. */
  function Split(s: string, sep: char): (r: seq<string>)
    ensures |r| >= 1
    ensures forall i :: 0 <= i < |r| ==> sep !in r[i]
  {
    if |s| == 0 then [""]
    else if s[0] == sep then [""] + Split(s[1..], sep)
    else
      var rest := Split(s[1..], sep);
      [[s[0]] + rest[0]] + rest[1..]
  }

  /** `sep.join(parts)`. */
  function Join(parts: seq<string>, sep: char): string {
    if |parts| == 0 then ""
    else if |parts| == 1 then parts[0]
    else parts[0] + [sep] + Join(parts[1..], sep)
  }

  /** Splitting and re-joining on the same separator gives the string back. */
  lemma {:induction false} JoinSplit(s: string, sep: char)
    ensures Join(Split(s, sep), sep) == s
  {
    if |s| == 0 {
    } else if s[0] == sep {
      JoinSplit(s[1..], sep);
      assert Split(s, sep) == [""] + Split(s[1..], sep);
      assert s == [sep] + s[1..];
    } else {
      var rest := Split(s[1..], sep);
      JoinSplit(s[1..], sep);
      var parts := [[s[0]] + rest[0]] + rest[1..];
      assert Split(s, sep) == parts;
      if |rest| == 1 {
        assert Join(parts, sep) == [s[0]] + rest[0];
        assert rest[0] == s[1..];
      } else {
        assert parts[1..] == rest[1..];
        assert Join(rest, sep) == rest[0] + [sep] + Join(rest[1..], sep);
        assert Join(parts, sep) == [s[0]] + rest[0] + [sep] + Join(rest[1..], sep);
      }
      assert s == [s[0]] + s[1..];
    }
  }

  /** The characters Python's `str.isspace` accepts. */
  predicate IsSpace(c: char) {
    || ('\t' <= c <= '\r')
    || ('\U{1C}' <= c <= ' ')
    || c == '\U{85}' || c == '\U{A0}' || c == '\U{1680}'
    || ('\U{2000}' <= c <= '\U{200A}')
    || c == '\U{2028}' || c == '\U{2029}' || c == '\U{202F}' || c == '\U{205F}' || c == '\U{3000}'
  }

  /** The first position at or after `i` holding a character `IsSpace` rejects, or `|s|`. */
  function StripStart(s: string, i: nat): (n: nat)
    requires i <= |s|
    ensures i <= n <= |s|
    ensures forall k :: i <= k < n ==> IsSpace(s[k])
    ensures n < |s| ==> !IsSpace(s[n])
    decreases |s| - i
  {
    if i < |s| && IsSpace(s[i]) then StripStart(s, i + 1) else i
  }

  /** The position just past the last character before `j` that `IsSpace` rejects, and no
      lower than `lo`. */
  function StripEnd(s: string, lo: nat, j: nat): (n: nat)
    requires lo <= j <= |s|
    ensures lo <= n <= j
    ensures forall k :: n <= k < j ==> IsSpace(s[k])
    ensures n > lo ==> !IsSpace(s[n - 1])
    decreases j
  {
    if j > lo && IsSpace(s[j - 1]) then StripEnd(s, lo, j - 1) else j
  }

  /** `str.strip()`: the longest infix that neither starts nor ends with whitespace,
      dropping only whitespace on either side. */
  function Strip(s: string): (r: string)
    ensures var i := StripStart(s, 0);
      && i + |r| <= |s| && r == s[i..i + |r|]
      && (forall k :: 0 <= k < i ==> IsSpace(s[k]))
      && (forall k :: i + |r| <= k < |s| ==> IsSpace(s[k]))
    ensures |r| > 0 ==> !IsSpace(r[0]) && !IsSpace(r[|r| - 1])
  {
    var i := StripStart(s, 0);
    var j := StripEnd(s, i, |s|);
    var r := s[i..j];
    assert |r| > 0 ==> r[0] == s[i] && r[|r| - 1] == s[j - 1];
    r
  }

  /** A capital letter with a one-letter lower case: ASCII, the Latin-1 capitals (without
      the multiplication sign), the Greek capitals of the basic block (Alpha to Omega, with
      and without tonos or dialytika), and the basic Cyrillic capitals. */
  predicate IsUpper(c: char) {
    || 'A' <= c <= 'Z'
    || ('\U{00C0}' <= c <= '\U{00DE}' && c != '\U{00D7}')
    || c == '\U{0386}' || '\U{0388}' <= c <= '\U{038A}' || c == '\U{038C}' || '\U{038E}' <= c <= '\U{038F}'
    || ('\U{0391}' <= c <= '\U{03AB}' && c != '\U{03A2}')
    || '\U{0400}' <= c <= '\U{042F}'
  }

  /** `str.lower()` on one character, for the capitals `IsUpper` names (Unicode's simple
      lower-case mapping); every other character is kept. */
  function LowerChar(c: char): (r: char)
    ensures IsUpper(c) <==> r != c
    ensures !IsUpper(r)
  {
    if '\U{0400}' <= c <= '\U{040F}' then (c as int + 80) as char
    else if c == '\U{0386}' then '\U{03AC}'
    else if '\U{0388}' <= c <= '\U{038A}' then (c as int + 37) as char
    else if c == '\U{038C}' then '\U{03CC}'
    else if '\U{038E}' <= c <= '\U{038F}' then (c as int + 63) as char
    else if IsUpper(c) then (c as int + 32) as char
    else c
  }

  /** `str.lower()`, character by character. */
  function Lower(s: string): (r: string)
    ensures |r| == |s|
    ensures forall i :: 0 <= i < |s| ==> r[i] == LowerChar(s[i])
  {
    if |s| == 0 then "" else [LowerChar(s[0])] + Lower(s[1..])
  }

  /** Lower-cased text has no capitals left, lower-casing is idempotent, and it changes
      exactly the capitals. */
  lemma LowerHasNoCapitals(s: string)
    ensures forall i :: 0 <= i < |Lower(s)| ==> !IsUpper(Lower(s)[i])
    ensures Lower(Lower(s)) == Lower(s)
    ensures Lower(s) == s <==> forall i :: 0 <= i < |s| ==> !IsUpper(s[i])
  {
    if Lower(s) == s {
      forall i | 0 <= i < |s| ensures !IsUpper(s[i]) {
        assert Lower(s)[i] == s[i];
      }
    }
  }

  /** `str(n)` for an integer: optional minus sign, then decimal digits without leading zeros. */
  function Digit(d: int): char
    requires 0 <= d < 10
  {
    ('0' as int + d) as char
  }

  function NatToString(n: nat): (r: string)
    ensures |r| >= 1
    ensures forall i :: 0 <= i < |r| ==> '0' <= r[i] <= '9'
    decreases n
  {
    if n < 10 then [Digit(n)] else NatToString(n / 10) + [Digit(n % 10)]
  }

  function IntToString(n: int): string {
    if n < 0 then "-" + NatToString(-n) else NatToString(n)
  }

  /** The value of a string of decimal digits: the inverse of `NatToString`. */
  function DigitsValue(s: string): int
    requires forall i :: 0 <= i < |s| ==> '0' <= s[i] <= '9'
  {
    if |s| == 0 then 0 else DigitsValue(s[..|s| - 1]) * 10 + (s[|s| - 1] as int - '0' as int)
  }

  lemma {:induction false} NatToStringRoundTrip(n: nat)
    ensures DigitsValue(NatToString(n)) == n
    decreases n
  {
    if n >= 10 {
      NatToStringRoundTrip(n / 10);
      var s := NatToString(n);
      assert s == NatToString(n / 10) + [Digit(n % 10)];
      assert s[..|s| - 1] == NatToString(n / 10);
      assert s[|s| - 1] as int - '0' as int == n % 10;
    }
  }

  /** A number written between two strings reads back from its place. */
  lemma NumberReadsBack(pre: string, n: nat, post: string)
    ensures var r := pre + NatToString(n) + post; var k := |NatToString(n)|;
      && |pre| + k <= |r| && r[..|pre|] == pre
      && (forall i :: |pre| <= i < |pre| + k ==> '0' <= r[i] <= '9')
      && DigitsValue(r[|pre|..|pre| + k]) == n
  {
    var r := pre + NatToString(n) + post;
    assert r[|pre|..|pre| + |NatToString(n)|] == NatToString(n);
    NatToStringRoundTrip(n);
  }

  /** No element occurs twice. */
  predicate NoDuplicates<T(==)>(s: seq<T>) {
    forall i, j :: 0 <= i < j < |s| ==> s[i] != s[j]
  }

  /** `list(set(xs))`, fixing Python's arbitrary set order to first-occurrence order. */
  function Dedup<T(==,!new)>(s: seq<T>): (r: seq<T>)
    ensures NoDuplicates(r)
    ensures forall x :: x in r <==> x in s
    ensures |r| <= |s|
  {
    if |s| == 0 then []
    else
      var r := Dedup(s[..|s| - 1]);
      if s[|s| - 1] in r then r else r + [s[|s| - 1]]
  }

  /** `max(xs)` on a non-empty list. */
  function SeqMax(s: seq<int>): (m: int)
    requires |s| > 0
    ensures m in s
    ensures forall i :: 0 <= i < |s| ==> s[i] <= m
  {
    if |s| == 1 then s[0]
    else
      var m := SeqMax(s[1..]);
      assert forall i :: 1 <= i < |s| ==> s[i] == s[1..][i - 1];
      if s[0] >= m then s[0] else m
  }
}

=== FILE: wayback.dfy ===
/** The Wayback Machine fetcher (`scripts/queue_wayback_stories.py`): the query string, one
    project's window and capped collection of search results, the project's domains, and
    the matching of fetched article JSON back to stories. The search provider and the
    fetcher are parameters. The script's `_domains_for_collection`, `_domains_for_project`
    and `fetch_domains_for_projects` are the directory client's, modelled there.
 */
module Wayback {
  import opened Base
  import opened Models
  import opened Text
  import ProjectsDb
  import Seqs
  import Fetcher

  /** The messages of the exceptions raised here. */
  const NoLastPublishDate := "'NoneType' object has no attribute 'last_publish_date'"

  const DayOffset: int := 4
  const DayWindow: int := 3
  const PageSize: nat := 1000
  const MaxStoriesPerProject: nat := 5000

  // ---------------------------------------------------------------------------
  // Query and window
  // ---------------------------------------------------------------------------

  /** `_query_builder`: the terms with straight quotes, and the language clause. */
  function QueryBuilder(terms: string, language: string): (r: string)
    ensures |r| == |terms| + |language| + 18
    ensures r[1..1 + |terms|] == ReplaceCurlies(terms)
    ensures r[|r| - 1 - |language|..|r| - 1] == language
    ensures LeftCurly in r <==> LeftCurly in language
    ensures RightCurly in r <==> RightCurly in language
  {
    var q := ReplaceCurlies(terms);
    var r := "(" + q + ") AND (language:" + language + ")";
    assert forall c :: c in r <==> c in "(" || c in q || c in ") AND (language:" || c in language || c in ")";
    r
  }

  /** The window of `_project_story_worker`: `end` is four days back, `start` seven days
      before that, raised to one day before the history's `last_publish_date` when that is
      set and later. The history row is read outside the `try`, so a project without one
      raises. */
  function WorkerWindow(history: Option<ProjectHistory>, now: int): (r: Result<(int, int)>)
    ensures r.Err? <==> history.None?
    ensures r.Ok? ==> r.value.1 == now - DayOffset * Day
    ensures r.Ok? ==> r.value.0 >= r.value.1 - (DayOffset + DayWindow) * Day
    ensures r.Ok? && history.value.lastPublishDate.Some? ==> r.value.0 >= history.value.lastPublishDate.value - Day
    ensures r.Ok? ==>
      || r.value.0 == r.value.1 - (DayOffset + DayWindow) * Day
      || (history.value.lastPublishDate.Some? && r.value.0 == history.value.lastPublishDate.value - Day)
  {
    var end := now - DayOffset * Day;
    match history
    case None => Err(AttributeError(NoLastPublishDate))
    case Some(hist) =>
      var start := end - (DayOffset + DayWindow) * Day;
      match hist.lastPublishDate
      case Some(d) => Ok((Max(d - Day, start), end))
      case None => Ok((start, end))
  }

  // ---------------------------------------------------------------------------
  // Collecting the search results
  // ---------------------------------------------------------------------------

  /** A search result of the provider. */
  datatype WmItem = WmItem(id: string, articleUrl: string, url: string, publishDate: int, title: string,
                           language: string, mediaUrl: string, mediaName: string, archivedUrl: string)

  /** The provider: the hit count of a query over a window and domains, and the pages
      `all_items` yields for it; a call or a page that raises is an `Err`. */
  datatype Provider = Provider(
    count: (string, int, int, seq<string>) -> Result<int>,
    allItems: (string, int, int, seq<string>) -> seq<Result<seq<WmItem>>>)

  /** The story dictionary built for a search result. The language is the result's own. */
  function ItemStory(p: Project, item: WmItem, showDate: int -> string): (r: StoryDict)
    ensures r.url == item.url && r.source == WaybackMachine && r.projectId == p.id
    ensures r.authors.None? && r.sourcePublishDate == Some(showDate(item.publishDate))
    ensures r.extractedContentUrl == Some(item.articleUrl)
    ensures r.title == item.title && r.language == item.language
    ensures r.mediaUrl == item.mediaUrl && r.mediaName == item.mediaName
  {
    NewStoryDict(item.url, p.id, WaybackMachine, item.title, item.language, item.mediaUrl, item.mediaName)
      .(sourcePublishDate := Some(showDate(item.publishDate)), extractedContentUrl := Some(item.articleUrl))
  }

  /** The stories of a list of results, in order. */
  function Stories(items: seq<WmItem>, p: Project, showDate: int -> string): (r: seq<StoryDict>)
    ensures |r| == |items| && forall i :: 0 <= i < |items| ==> r[i] == ItemStory(p, items[i], showDate)
  {
    seq(|items|, i requires 0 <= i < |items| => ItemStory(p, items[i], showDate))
  }

  /** The inner `for item in page` loop: append while no more than the cap is collected. */
  function TakePage(stories: seq<StoryDict>, items: seq<WmItem>, p: Project, showDate: int -> string)
    : (r: seq<StoryDict>)
    decreases |items|
  {
    if |items| == 0 || |stories| > MaxStoriesPerProject then stories
    else TakePage(stories + [ItemStory(p, items[0], showDate)], items[1..], p, showDate)
  }

  /** The outer `for page in all_items(...)` loop; a page that raises ends the loop, and the
      `except` keeps what was collected. */
  function TakePages(stories: seq<StoryDict>, pages: seq<Result<seq<WmItem>>>, p: Project, showDate: int -> string)
    : (r: seq<StoryDict>)
    decreases |pages|
  {
    if |pages| == 0 || |stories| > MaxStoriesPerProject then stories
    else
      match pages[0]
      case Err(_) => stories
      case Ok(items) => TakePages(TakePage(stories, items, p, showDate), pages[1..], p, showDate)
  }

  /** The results the provider yields before its first error. */
  function Readable(pages: seq<Result<seq<WmItem>>>): (r: seq<WmItem>) {
    if |pages| == 0 || pages[0].Err? then [] else pages[0].value + Readable(pages[1..])
  }

  /** How many more stories the cap lets in: the `>` test before each append admits one past
      `MAX_STORIES_PER_PROJECT`. */
  function Room(stories: seq<StoryDict>, available: nat): (r: nat)
    requires |stories| <= MaxStoriesPerProject + 1
    ensures r <= available && |stories| + r <= MaxStoriesPerProject + 1
    ensures r == available || |stories| + r == MaxStoriesPerProject + 1
  {
    if available < MaxStoriesPerProject + 1 - |stories| then available else MaxStoriesPerProject + 1 - |stories|
  }

  lemma StoriesAppend(a: seq<WmItem>, b: seq<WmItem>, p: Project, showDate: int -> string)
    ensures Stories(a + b, p, showDate) == Stories(a, p, showDate) + Stories(b, p, showDate)
  {
  }

  /** A page contributes its first results up to the cap, in order. */
  lemma {:induction false} TakePageExactly(stories: seq<StoryDict>, items: seq<WmItem>, p: Project,
                                           showDate: int -> string)
    requires |stories| <= MaxStoriesPerProject + 1
    ensures TakePage(stories, items, p, showDate)
         == stories + Stories(items, p, showDate)[..Room(stories, |items|)]
    decreases |items|
  {
    if |items| == 0 || |stories| > MaxStoriesPerProject {
      assert Stories(items, p, showDate)[..Room(stories, |items|)] == [];
    } else {
      var s := ItemStory(p, items[0], showDate);
      var stories' := stories + [s];
      TakePageExactly(stories', items[1..], p, showDate);
      var k := Room(stories', |items| - 1);
      assert Room(stories, |items|) == k + 1;
      var tail := Stories(items[1..], p, showDate);
      assert Stories(items, p, showDate) == [s] + tail;
      Seqs.ConsPrefix(s, tail, k);
      Seqs.AppendAssoc(stories, [s], tail[..k]);
    }
  }

  /** The collected stories are exactly the first results the provider yields before its
      first error, up to one past the cap. */
  lemma {:induction false} TakePagesExactly(stories: seq<StoryDict>, pages: seq<Result<seq<WmItem>>>, p: Project,
                                            showDate: int -> string)
    requires |stories| <= MaxStoriesPerProject + 1
    ensures TakePages(stories, pages, p, showDate)
         == stories + Stories(Readable(pages), p, showDate)[..Room(stories, |Readable(pages)|)]
    decreases |pages|
  {
    var all := Readable(pages);
    if |pages| == 0 || pages[0].Err? || |stories| > MaxStoriesPerProject {
      assert Stories(all, p, showDate)[..Room(stories, |all|)] == [];
    } else {
      var items := pages[0].value;
      var rest := Readable(pages[1..]);
      TakePageExactly(stories, items, p, showDate);
      var s1 := TakePage(stories, items, p, showDate);
      var k1 := Room(stories, |items|);
      TakePagesExactly(s1, pages[1..], p, showDate);
      var k2 := Room(s1, |rest|);
      assert Room(stories, |items| + |rest|) == k1 + k2;
      StoriesAppend(items, rest, p, showDate);
      TakeConcat(stories, Stories(items, p, showDate), Stories(rest, p, showDate), k1, k2);
    }
  }

  /** Taking `k1` from `sa` and then `k2` from `sr`, where `sr` is reached only once `sa` is
      used up, is taking `k1 + k2` from `sa + sr`. */
  lemma TakeConcat<T>(a: seq<T>, sa: seq<T>, sr: seq<T>, k1: nat, k2: nat)
    requires k1 <= |sa| && k2 <= |sr| && (k1 < |sa| ==> k2 == 0)
    ensures (a + sa[..k1]) + sr[..k2] == a + (sa + sr)[..k1 + k2]
  {
    if k1 < |sa| {
      assert (sa + sr)[..k1] == sa[..k1];
    } else {
      assert (sa + sr)[..k1 + k2] == sa + sr[..k2];
    }
  }

  /** `_project_story_worker`: read the history (outside the `try`), build the window and the
      query, count, and collect only when there are hits. A missing `domains` key or any
      provider error inside the `try` is logged and the stories so far are returned. */
  function ProjectStoryWorker(p: Project, history: Option<ProjectHistory>, provider: Provider, now: int,
                              showDate: int -> string): (r: Result<seq<StoryDict>>)
    ensures r.Err? <==> history.None?
    ensures r.Ok? ==> |r.value| <= MaxStoriesPerProject + 1
    ensures r.Ok? ==> forall i :: 0 <= i < |r.value| ==> r.value[i].projectId == p.id && r.value[i].source == WaybackMachine
  {
    var window :- WorkerWindow(history, now);
    var query := QueryBuilder(p.searchTerms, p.language);
    match p.domains
    case None => Ok([])
    case Some(domains) =>
      match provider.count(query, window.0, window.1, domains)
      case Err(_) => Ok([])
      case Ok(total) =>
        if total <= 0 then Ok([])
        else
          var pages := provider.allItems(query, window.0, window.1, domains);
          TakePagesExactly([], pages, p, showDate);
          Ok(TakePages([], pages, p, showDate))
  }

  /** The worker with hits returns the first results the provider yields before its first
      error, at most one past the cap; without hits it asks for no page at all, so its result
      does not depend on what the provider would list. */
  lemma WorkerCollectsReadable(p: Project, history: ProjectHistory, provider: Provider, now: int,
                               showDate: int -> string)
    requires p.domains.Some?
    requires provider.count(QueryBuilder(p.searchTerms, p.language), WorkerWindow(Some(history), now).value.0,
                            WorkerWindow(Some(history), now).value.1, p.domains.value).Ok?
    ensures var w := WorkerWindow(Some(history), now).value;
      var query := QueryBuilder(p.searchTerms, p.language);
      var total := provider.count(query, w.0, w.1, p.domains.value).value;
      var all := Readable(provider.allItems(query, w.0, w.1, p.domains.value));
      var r := ProjectStoryWorker(p, Some(history), provider, now, showDate);
      && (total <= 0 ==> r == Ok([]))
      && (total > 0 ==> r == Ok(Stories(all, p, showDate)[..Room([], |all|)]))
  {
    var w := WorkerWindow(Some(history), now).value;
    var query := QueryBuilder(p.searchTerms, p.language);
    var pages := provider.allItems(query, w.0, w.1, p.domains.value);
    TakePagesExactly([], pages, p, showDate);
    var all := Readable(pages);
    assert [] + Stories(all, p, showDate)[..Room([], |all|)] == Stories(all, p, showDate)[..Room([], |all|)];
  }

  /** `fetch_project_stories`: the per-project lists concatenated in project order; a worker
      that raises makes `Pool.map` raise. */
  function FetchProjectStories(projects: seq<Project>, histories: ProjectsDb.Histories, provider: Provider, now: int,
                               showDate: int -> string): (r: Result<seq<StoryDict>>)
    ensures r.Ok? <==> forall i :: 0 <= i < |projects| ==> projects[i].id in histories
  {
    if |projects| == 0 then Ok([])
    else
      var first :- ProjectStoryWorker(projects[0], ProjectsDb.GetHistory(histories, projects[0].id), provider, now,
                                      showDate);
      var rest :- FetchProjectStories(projects[1..], histories, provider, now, showDate);
      assert forall i :: 1 <= i < |projects| ==> projects[i] == projects[1..][i - 1];
      Ok(first + rest)
  }

  /** Each project's worker list, in project order, when every project has a history row. */
  function WorkerLists(projects: seq<Project>, histories: ProjectsDb.Histories, provider: Provider, now: int,
                       showDate: int -> string): (r: seq<seq<StoryDict>>)
    requires forall i :: 0 <= i < |projects| ==> projects[i].id in histories
    ensures |r| == |projects|
    ensures forall i :: 0 <= i < |projects| ==>
      r[i] == ProjectStoryWorker(projects[i], ProjectsDb.GetHistory(histories, projects[i].id), provider, now,
                                 showDate).value
  {
    seq(|projects|, i requires 0 <= i < |projects| =>
      ProjectStoryWorker(projects[i], ProjectsDb.GetHistory(histories, projects[i].id), provider, now, showDate).value)
  }

  /** `itertools.chain` over the `Pool.map` results: when every worker succeeds, the combined
      list is the workers' lists flattened in project order. */
  lemma {:induction false} FetchProjectStoriesFlattens(projects: seq<Project>, histories: ProjectsDb.Histories,
                                                       provider: Provider, now: int, showDate: int -> string)
    requires forall i :: 0 <= i < |projects| ==> projects[i].id in histories
    ensures FetchProjectStories(projects, histories, provider, now, showDate)
         == Ok(Seqs.Flatten(WorkerLists(projects, histories, provider, now, showDate)))
    decreases |projects|
  {
    if |projects| > 0 {
      var rest := projects[1..];
      assert forall i :: 0 <= i < |rest| ==> rest[i] == projects[i + 1];
      FetchProjectStoriesFlattens(rest, histories, provider, now, showDate);
      var lists := WorkerLists(projects, histories, provider, now, showDate);
      assert lists == [lists[0]] + WorkerLists(rest, histories, provider, now, showDate);
      Seqs.FlattenCons(lists[0], WorkerLists(rest, histories, provider, now, showDate));
    }
  }

  // ---------------------------------------------------------------------------
  // Text fetching
  // ---------------------------------------------------------------------------

  /** The `extracted_content_url` of every story; a story without one raises. */
  function ContentUrls(stories: seq<StoryDict>): (r: Result<seq<string>>)
    ensures r.Ok? <==> forall i :: 0 <= i < |stories| ==> stories[i].extractedContentUrl.Some?
    ensures r.Ok? ==> (|r.value| == |stories|
      && forall i :: 0 <= i < |stories| ==> r.value[i] == stories[i].extractedContentUrl.value)
  {
    if exists i :: 0 <= i < |stories| && stories[i].extractedContentUrl.None? then
      Err(KeyError("extracted_content_url"))
    else Ok(seq(|stories|, i requires 0 <= i < |stories| => stories[i].extractedContentUrl.value))
  }

  /** The loop of `handle_parse`: every input story whose `extracted_content_url` is the
      fetched URL gets the JSON's `snippet` as its text. */
  function Matching(stories: seq<StoryDict>, url: string, snippet: string): (r: seq<StoryDict>)
    ensures |r| <= |stories|
  {
    if |stories| == 0 then []
    else
      var n := |stories| - 1;
      Matching(stories[..n], url, snippet)
        + (if stories[n].extractedContentUrl == Some(url) then [stories[n].(storyText := Some(snippet))] else [])
  }

  /** The key `handle_parse` reads the response body from: `response_data["content"]`. */
  const ContentKey := "content"

  /** `handle_parse` on the dict the spider built, reading the body under `key`.
      `snippetOf` is `json.loads(body)["snippet"]`, `None` when either step raises. Every
      exception is caught by the handler's `except`, which only logs. */
  function HandleParse(stories: seq<StoryDict>, d: Fetcher.StoryData, key: string,
                       snippetOf: string -> Option<string>): (r: seq<StoryDict>)
  {
    match Fetcher.Get(d, key)
    case Err(_) => []
    case Ok(body) =>
      match snippetOf(body)
      case None => []
      case Some(snippet) =>
        match Fetcher.Get(d, Fetcher.OriginalUrlKey)
        case Err(_) => []
        case Ok(url) => Matching(stories, url, snippet)
  }

  /** One callback per listed URL, duplicates included, in list order; `fetchBody` is the
      download, `None` when it fails and no callback happens. */
  function Responses(urls: seq<string>, stories: seq<StoryDict>, fetchBody: string -> Option<string>,
                     key: string, snippetOf: string -> Option<string>): (r: seq<StoryDict>)
  {
    if |urls| == 0 then []
    else
      (match fetchBody(urls[0])
       case None => []
       case Some(body) => HandleParse(stories, Fetcher.ParsedStory(body, urls[0], urls[0]), key, snippetOf))
      + Responses(urls[1..], stories, fetchBody, key, snippetOf)
  }

  /** `fetch_text` as written: the callback reads the body from `"content"`. */
  function FetchText(stories: seq<StoryDict>, fetchBody: string -> Option<string>,
                     snippetOf: string -> Option<string>): (r: Result<seq<StoryDict>>)
    ensures r.Ok? <==> forall i :: 0 <= i < |stories| ==> stories[i].extractedContentUrl.Some?
  {
    var urls :- ContentUrls(stories);
    Ok(Responses(urls, stories, fetchBody, ContentKey, snippetOf))
  }

  /** `fetch_text` as evidently intended: the callback reads the body from the
      `"html_content"` key the spider sets. */
  function FetchTextIntended(stories: seq<StoryDict>, fetchBody: string -> Option<string>,
                             snippetOf: string -> Option<string>): (r: Result<seq<StoryDict>>)
    ensures r.Ok? <==> forall i :: 0 <= i < |stories| ==> stories[i].extractedContentUrl.Some?
  {
    var urls :- ContentUrls(stories);
    Ok(Responses(urls, stories, fetchBody, Fetcher.HtmlContentKey, snippetOf))
  }

  lemma {:induction false} ResponsesEmpty(urls: seq<string>, stories: seq<StoryDict>,
                                          fetchBody: string -> Option<string>,
                                          snippetOf: string -> Option<string>)
    ensures Responses(urls, stories, fetchBody, ContentKey, snippetOf) == []
  {
    if |urls| > 0 {
      ResponsesEmpty(urls[1..], stories, fetchBody, snippetOf);
      if fetchBody(urls[0]).Some? {
        Fetcher.OnlySpiderKeys(fetchBody(urls[0]).value, urls[0], urls[0], ContentKey);
      }
    }
  }

  /** As written, every callback's `response_data["content"]` raises a `KeyError` that the
      handler catches, so `fetch_text` returns no story at all. */
  lemma FetchTextReturnsNothing(stories: seq<StoryDict>, fetchBody: string -> Option<string>,
                                snippetOf: string -> Option<string>)
    ensures FetchText(stories, fetchBody, snippetOf).Ok? ==> FetchText(stories, fetchBody, snippetOf).value == []
  {
    if FetchText(stories, fetchBody, snippetOf).Ok? {
      ResponsesEmpty(ContentUrls(stories).value, stories, fetchBody, snippetOf);
    }
  }

  /** The snippet a URL yields once fetched and decoded, if any. */
  function SnippetAt(url: string, fetchBody: string -> Option<string>, snippetOf: string -> Option<string>)
    : (r: Option<string>)
    ensures r.Some? ==> fetchBody(url).Some? && r == snippetOf(fetchBody(url).value)
  {
    match fetchBody(url)
    case None => None
    case Some(body) => snippetOf(body)
  }

  lemma {:induction false} MatchingExactly(stories: seq<StoryDict>, url: string, snippet: string)
    ensures forall x :: x in Matching(stories, url, snippet) <==>
      exists i :: 0 <= i < |stories| && stories[i].extractedContentUrl == Some(url)
                  && x == stories[i].(storyText := Some(snippet))
  {
    if |stories| > 0 {
      var n := |stories| - 1;
      MatchingExactly(stories[..n], url, snippet);
      assert forall i :: 0 <= i < n ==> stories[..n][i] == stories[i];
    }
  }

  /** Read from `"html_content"`, the callbacks append exactly the stories whose content
      URL was listed and yielded a snippet. */
  lemma {:induction false} ResponsesExactly(urls: seq<string>, stories: seq<StoryDict>,
                                            fetchBody: string -> Option<string>,
                                            snippetOf: string -> Option<string>)
    ensures forall x :: x in Responses(urls, stories, fetchBody, Fetcher.HtmlContentKey, snippetOf) <==>
      exists i :: 0 <= i < |stories| && stories[i].extractedContentUrl.Some?
                  && stories[i].extractedContentUrl.value in urls
                  && SnippetAt(stories[i].extractedContentUrl.value, fetchBody, snippetOf).Some?
                  && x == stories[i].(storyText := SnippetAt(stories[i].extractedContentUrl.value, fetchBody, snippetOf))
  {
    if |urls| > 0 {
      ResponsesExactly(urls[1..], stories, fetchBody, snippetOf);
      var u := urls[0];
      if fetchBody(u).Some? {
        Fetcher.OnlySpiderKeys(fetchBody(u).value, u, u, Fetcher.HtmlContentKey);
        if snippetOf(fetchBody(u).value).Some? {
          MatchingExactly(stories, u, snippetOf(fetchBody(u).value).value);
        }
      }
      forall x ensures x in Responses(urls, stories, fetchBody, Fetcher.HtmlContentKey, snippetOf) <==>
        exists i :: 0 <= i < |stories| && stories[i].extractedContentUrl.Some?
                    && stories[i].extractedContentUrl.value in urls
                    && SnippetAt(stories[i].extractedContentUrl.value, fetchBody, snippetOf).Some?
                    && x == stories[i].(storyText := SnippetAt(stories[i].extractedContentUrl.value, fetchBody, snippetOf))
      {
        if exists i :: 0 <= i < |stories| && stories[i].extractedContentUrl.Some?
                       && stories[i].extractedContentUrl.value in urls
                       && SnippetAt(stories[i].extractedContentUrl.value, fetchBody, snippetOf).Some?
                       && x == stories[i].(storyText := SnippetAt(stories[i].extractedContentUrl.value, fetchBody, snippetOf)) {
          var i :| 0 <= i < |stories| && stories[i].extractedContentUrl.Some?
                   && stories[i].extractedContentUrl.value in urls
                   && SnippetAt(stories[i].extractedContentUrl.value, fetchBody, snippetOf).Some?
                   && x == stories[i].(storyText := SnippetAt(stories[i].extractedContentUrl.value, fetchBody, snippetOf));
          if stories[i].extractedContentUrl.value != u {
            assert stories[i].extractedContentUrl.value in urls[1..];
          }
        }
      }
    }
  }

  /** Read from `"html_content"`, `fetch_text` would return exactly the input stories whose
      extracted-content JSON was fetched and decoded, each with the JSON's `snippet` as its
      text and every other key as it was. */
  lemma FetchTextIntendedExactly(stories: seq<StoryDict>, fetchBody: string -> Option<string>,
                                 snippetOf: string -> Option<string>)
    requires FetchTextIntended(stories, fetchBody, snippetOf).Ok?
    ensures forall x :: x in FetchTextIntended(stories, fetchBody, snippetOf).value <==>
      exists i :: 0 <= i < |stories| && SnippetAt(stories[i].extractedContentUrl.value, fetchBody, snippetOf).Some?
                  && x == stories[i].(storyText := SnippetAt(stories[i].extractedContentUrl.value, fetchBody, snippetOf))
  {
    var urls := ContentUrls(stories).value;
    ResponsesExactly(urls, stories, fetchBody, snippetOf);
    forall i | 0 <= i < |stories| ensures stories[i].extractedContentUrl.value in urls {
      assert urls[i] == stories[i].extractedContentUrl.value;
    }
  }
}
